=== FILE: README.md ===
# A verified model of the embedded CLI core

This project models the command-line interface library for small
embedded targets in Dafny. The model covers the following parts.

- **Line accumulation.** `cli_parser_hndl` takes bytes one at a time into a
  fixed receive buffer. When the termination string appears in the buffer's
  text, it blanks the terminator and hands the buffer to dispatch.
- **Dispatch.** The line is split into a command name and an optional
  attribute at the first space. The handler is then found by a first-match
  search: first the built-in table, then every registered user table in
  slot order.
- **Table registration and validation.**
- **Built-in commands.** `help`, `reset`, `sw_ver`, `hw_ver`, `proj_info`,
  `ch_info` and `ch_en`.
- **Output guards.** The initialisation flag guards `cli_printf` and
  `cli_printf_ch`. The per-channel enable flags guard `cli_printf_ch`.
- **Parameter commands.** `par_set`, `par_get` and `par_def`.
- **Live watch.** The `watch_*` commands configure it. A loop counter inside
  `cli_par_hndl` schedules the streaming. Each streamed record has a fixed
  shape.
- **Oscilloscope.** Its state machine, its commands and its sampling step
  `cli_osci_samp_hndl`.
- **NVM helpers.** The header CRC, the header byte layout, and the
  signature write and erase.

The build configuration modelled is the following:

- parameter support on;
- the output channels (`ch_info`, `ch_en`, `cli_printf_ch`) on;
- `CLI_CFG_DEBUG_EN` 0, so the debug prints are compiled out;
- `CLI_ASSERT` compiled to nothing. Its definition is in the configuration
  header, which is not part of this model. The modelled error returns depend
  on this: the overrun branch (src/cli.c:291), registration (src/cli.c:2122
  and 2147), init and deinit (src/cli.c:1888 and 1940) and a NULL format
  (src/cli.c:2032 and 2074) all assert before they return. With assertions on,
  those paths would stop there;
- the streaming NVM storage off;
- the mutex off;
- the intro banner off.

Values that are C configuration macros become fields of small configuration
records, each with a validity predicate:

- the buffer size;
- the termination string;
- `CLI_CFG_PAR_MAX_IN_LIVE_WATCH`;
- the handler period;
- the oscilloscope buffer size.

## How things are represented

- **Receive buffer.** A `seq<char>` the size of the buffer. The text it
  holds is the C string up to its first NUL (`Common.CStr`).
  - `Accumulator.BufStrStr` runs `strstr` in place on the buffer.
  - `Accumulator.StrStr` is an independent reference definition of it.
- **`sscanf`.** Its result reaches a handler as
  `Arg<T> = Absent | Unparsable | Parsed(value)`. These are a NULL
  attribute, text that does not scan, and the scanned value.
- **Output.** Everything sent is an abstract token:
  - `Line(msg)` is one `cli_printf` call;
  - `ChLine(ch, msg)` is one `cli_printf_ch` call;
  - `Raw(piece)` is one bare `cli_send_str` of a partial line.

  `printf` formatting itself is not modelled.
- **External answers become parameters.** These are the answers of the
  receive interface, the transmit interface, the parameter store and the
  NVM driver.
- **Integer widths.** `uint32_t` arithmetic is written out where the source
  relies on it:
  - `Common.Sub32` for `BUF - num_of` and `period_cnt - 1`;
  - the two's-complement reading of `%d` into a `uint32_t` in
    `LiveWatch.WatchRate`;
  - the 16-bit truncation of `%u` into a parameter ID in `Params.DefId`.
- **CRC.** The CRC is computed over `bv8`/`bv16`.

## Model

| member | source | states |
|---|---|---|
| Common.StrLen | src/cli.c:507 | `strlen` is the index of the first NUL: that byte is NUL and none before it is |
| Common.CStr | src/cli.c:264 | the C string held by a buffer is NUL-free, strictly shorter than the buffer, a prefix of it, and followed by a NUL |
| Common.Sub32 | src/cli_osci.c:522 | `uint32_t` subtraction equals the difference when no borrow occurs and wraps by 2^32 otherwise |
| Common.Or | src/cli.c:2045 | or-ing two statuses is OK exactly when both are OK, and keeps every error bit of both |
| Accumulator.Fresh | src/cli.c:139 | the zero-initialised buffer with index 0 satisfies the parser invariant: the index is at most `cap - 2` and the last byte is NUL |
| Accumulator.StrStrFinds | src/cli.c:264 | the reference `strstr` returns the first position where the terminator occurs, and nothing only when it occurs nowhere |
| Accumulator.ScanFrom | src/cli.c:264 | the in-place search of the buffer reports a start position from which the whole terminator fits inside the buffer and sits there, with no NUL between the search start and that position |
| Accumulator.BufStrStr | src/cli.c:264 | `strstr` on the receive buffer reports only a position from which the whole terminator fits inside the buffer |
| Accumulator.BufStrStrFinds | src/cli.c:264 | a position `strstr` reports on the buffer holds the terminator's bytes, and the buffer has no NUL before it |
| Accumulator.MatchFromMeans | src/cli.c:264 | the byte-by-byte comparison succeeds exactly when every remaining terminator byte equals the buffer byte at the same offset, and the terminator fits |
| Accumulator.MatchIsOccurrence | src/cli.c:264 | at or before the first NUL, a byte-by-byte match of a NUL-free terminator is an occurrence in the buffer's C string, and conversely |
| Accumulator.ScanFromIsStrStrFrom | src/cli.c:264 | the in-place search from any position up to the first NUL agrees with the reference search of the C string |
| Accumulator.BufStrStrIsStrStr | src/cli.c:264 | `strstr` run on the receive buffer finds exactly what the reference `strstr` finds in the buffer's C string |
| Accumulator.ZeroClears | src/cli.c:270 | `memset` blanks exactly the terminator's bytes and leaves every other byte unchanged |
| Accumulator.Stored | src/cli.c:260 | storing the received byte at the index keeps the buffer length and the final NUL, so the buffer stays a C string |
| Accumulator.Iterate | src/cli.c:263-299 | a pass of the loop body keeps the final NUL; it continues only with room left and overruns only at index `cap - 2` |
| Accumulator.ParseFrom | src/cli.c:259-303 | the loop always restores the parser invariant and returns only OK or ERROR |
| Accumulator.ParserHndl | src/cli.c:253-306 | after any call the index is at most `cap - 2` and the last byte of the buffer is still NUL |
| Accumulator.ParseBounds | src/cli.c:256-303 | one call examines at most 10000 bytes and no more than the buffer has room for. It takes one extra byte only when the escape counter stops it. It leaves input unread only after a dispatch, an overrun or that stop. Dispatch and overrun both reset the index, and the dispatched line is the buffer left behind |
| Accumulator.BoundedThenOn | src/cli.c:281-302 | a call that continues past its first byte keeps these bounds if the rest of the call keeps them |
| Accumulator.BoundedAtOnce | src/cli.c:260-299 | a call that stops at its first byte keeps these bounds: it has no input, the escape counter is exhausted, or the byte completes a line or overruns |
| Accumulator.ParseOnHit | src/cli.c:267-278 | on a hit the call consumes the byte, resets the index and dispatches the blanked buffer with status OK |
| Accumulator.ParseOnOverrun | src/cli.c:288-298 | on an overrun the call consumes the byte, resets the index, dispatches nothing and returns ERROR |
| Accumulator.EscapeGuardUnreachable | src/cli.c:260-261 | with a buffer of at most 10001 bytes the escape counter never stops a call. Every byte taken is examined. A call returns early only after a dispatch or an overrun |
| Accumulator.NoEarlyTerm | src/cli.c:264 | if the terminator occurs in `line + terminator` only at the end, no shorter prefix contains it |
| Accumulator.TermAtEnd | src/cli.c:264 | under that condition `strstr` on `line + terminator` finds the terminator exactly where the line ends |
| Accumulator.IterateOnMiss | src/cli.c:281-285 | with no terminator in the text and room left, the body keeps the stored byte and advances |
| Accumulator.IterateOnHit | src/cli.c:267-270 | a terminator found at `p` lies inside the buffer, and the body blanks exactly those bytes |
| Accumulator.IterateBeforeEnd | src/cli.c:263-285 | before the terminator is complete, each byte of a fresh line is stored after the previous one and the loop advances |
| Accumulator.IterateAtEnd | src/cli.c:264-276 | the byte that completes the terminator produces a hit whose buffer is the line followed by zeros |
| Accumulator.FillThenDispatch | src/cli.c:259-303 | feeding the rest of `line + terminator` from any point dispatches the line. The call takes exactly the remaining bytes and leaves the index at zero |
| Accumulator.FirstLineIsDispatched | src/cli.c:253-306 | after start-up, a NUL-free line followed by the terminator and any further input is dispatched in one call. The dispatched buffer is the line followed by zeros. The call takes and examines only the line's own bytes and the terminator, returns OK and resets the index to zero |
| Accumulator.FirstOverrun | src/cli.c:253-306 | after start-up, `cap - 1` bytes that hold no terminator overrun the buffer in one call. The call takes exactly those bytes, dispatches nothing, returns ERROR and resets the index. The bytes stay in the buffer, because nothing clears it (src/cli.c:286-296) |
| Accumulator.StaleTermCompletesEarly | src/cli.c:260-296 | after `abc\nefg` overruns an 8-byte buffer with terminator `\r\n`, the line `ab\r\n` is dispatched after its third byte. The `\r` stored at index 2 meets the stale `\n` at index 3. The dispatched text is `ab`, the index is 0, and the final `\n` is left unread |
| Accumulator.PaddedText | src/cli.c:268-276 | the buffer handed to the dispatcher, a NUL-free line followed by zeros, reads as a C string as exactly that line |
| Splitter.FirstStop | src/cli.c:1782-1810 | the command name ends at the first space or NUL, and no byte before it is either |
| Splitter.FindCharPos | src/cli.c:1828-1854 | `cli_find_char_pos` returns the first occurrence of the target before the first NUL, or -1 when there is none within `size` bytes |
| Splitter.FindChar | src/cli.c:1782-1810 | `cli_find_char` returns the offset just after the first occurrence of the target before the first NUL within `size` bytes. It returns NULL exactly when there is no such occurrence or the target is NUL |
| Splitter.CalcCmdSize | src/cli.c:500-517 | without an attribute the name length is the index of the first NUL. With one it is the index of a space with no NUL or space before it, or else the -1 sentinel read as 2^32 - 1 |
| Splitter.FindCharIsPosPlusOne | src/cli.c:1782-1854 | `cli_find_char` returns the text one past the position `cli_find_char_pos` reports, and NULL exactly when that position is -1 |
| Splitter.SplitLine | src/cli.c:344-348 | an attribute exists exactly when a space comes before the first NUL, and it starts just after that space. The name length is the first space or NUL, never the -1 sentinel read as `uint32_t` |
| Splitter.Attribute | src/cli.c:345 | a handler receives an attribute exactly when the line has one |
| Splitter.TrailingSpaceGivesEmptyAttribute | src/cli.c:1774-1781 | a name followed by a space and then the line's end gives a present but empty attribute, not NULL |
| Splitter.SimpleCommandHasNoAttribute | src/cli.c:500-508 | a line without a space has no attribute, and its name length is the whole text |
| Splitter.CombinedCommandSplits | src/cli.c:340-348 | `name attr` splits into that name length and that attribute, untrimmed |
| Registry.AllCompleteFrom | src/cli.c:1738-1753 | the validation loop succeeds exactly when every remaining entry has its name, function and help pointers set |
| Registry.ValidateUserTable | src/cli.c:1729-1761 | a table is valid exactly when it has at most the maximum number of commands and no entry holds a NULL pointer |
| Registry.Empty | src/cli.c:186-191 | the initial registry has every slot NULL and a count of zero, and is valid |
| Registry.Register | src/cli.c:2118-2172 | registration succeeds exactly for a non-NULL, valid table while a slot is free. On success the table goes into the next slot and the count grows by one. On failure nothing changes. Earlier slots are never touched |
| Registry.RegisterAppends | src/cli.c:2118-2172 | after a successful registration the reachable tables are the earlier ones in order, followed by the new table |
| Lookup.StrNCmpEqMeans | src/cli.c:405 | `strncmp(a, b, n) == 0` holds exactly when `a` and `b` agree at every position below `n`, up to and including the first NUL of `a` |
| Lookup.FindFrom | src/cli.c:396-415 | a table scan returns the first matching entry and nothing only when no entry matches |
| Lookup.FirstHandler | src/cli.c:396-415 | a table yields a handler exactly when one of its entries matches, and that handler belongs to the first matching entry |
| Lookup.BasicCheck | src/cli.c:388-418 | the built-in check finds a handler exactly when some built-in entry matches |
| Lookup.UserCheck | src/cli.c:441-489 | the registered tables yield nothing exactly when none of them has a matching entry. Otherwise the handler comes from the first table in slot order that has one |
| Lookup.UserCheckIsConcat | src/cli.c:441-489 | walking the slots in order and skipping NULL ones is a first-match search over the registered tables' entries, concatenated |
| Lookup.FindHandler | src/cli.c:340-489 | a handler is found exactly when some entry of the built-in table or the registered tables matches. It belongs to the first matching entry in search order |
| Lookup.LookupIsFirstInSearchOrder | src/cli.c:340-365 | dispatch is a first-match search over the built-in table followed by the registered tables in slot order |
| Lookup.ExactMatch | src/cli.c:402-405 | for names without a space, comparing over the longer length is exactly equality with the typed name: prefixes and extensions are both rejected |
| Lookup.NameWithSpaceMatchesLongerLine | src/cli.c:402-405 | a name containing a space matches a typed line that holds only its first word plus an attribute |
| Lookup.LookupFindsFirstEqualName | src/cli.c:340-489 | the handler run is the one of the first entry, in search order, whose name equals the typed name |
| Lookup.RegisterThenLookup | src/cli.c:2118-2172 | once a table is registered, typing one of its names runs that entry's handler, unless an earlier entry has the same name |
| Lookup.RegisterKeepsHits | src/cli.c:441-489 | registering a table never changes the handler a line already reached |
| Builtins.BasicTableShape | src/cli.c:144-155 | the built-in table is complete, its names contain no spaces, and they are pairwise distinct |
| Builtins.ExecuteCmd | src/cli.c:340-365 | the unknown-command line is printed exactly when no table has a matching entry. Otherwise the handler gets an attribute exactly when the name ends at a space |
| Builtins.UnknownNameIsRejected | src/cli.c:360-365 | a name that is in no table, alone or followed by an attribute, gets exactly one "unknown command" line |
| Builtins.Entries | src/cli.c:540-548 | help prints one entry line per table entry |
| Builtins.EntriesAt | src/cli.c:543-547 | help line `i` of a table carries the name and help text of entry `i` |
| Builtins.UserHelpEntries | src/cli.c:551-573 | the registered tables' help lists the entries of the registered tables, concatenated in slot order |
| Builtins.UserHelpRules | src/cli.c:559-560 | one separator rule is printed per registered table |
| Builtins.HelpCmd | src/cli.c:527-582 | any attribute makes `help` answer "unknown command". Otherwise it prints 4 + commands + tables lines, with a blank first line, a rule as the third line and a rule as the last |
| Builtins.HelpListsSearchOrder | src/cli.c:527-582 | `help` lists every reachable command once, in search order. It prints one rule per registered table plus the heading and closing rules, so 4 + commands + tables lines in all. Any attribute makes it answer "unknown command" instead |
| Builtins.NoArgCmd | src/cli.c:592-675 | the no-argument commands answer with one line and refuse any attribute, even an empty one. Only `reset` asks for a restart |
| Builtins.ChInfoCmd | src/cli.c:687-708 | an attribute gives "unknown command". Otherwise `ch_info` prints the channel count plus six lines, framed by rules, with channel `ch`'s row and flag on line `5 + ch` |
| Builtins.ChRows | src/cli.c:697-700 | `ch_info` prints one row per channel, in channel order, each with that channel's enable flag |
| Builtins.ChEnCmd | src/cli.c:724-753 | `ch_en` answers "unknown command" when the scan fails and refuses an out-of-range channel. Otherwise it sets only that channel's flag, to `en != 0` (assuming a `bool` setter, see Left out), and the reply says "Enabling" only for `en == 1` |
| Builtins.ChEnThenChInfo | src/cli.c:687-753 | after `ch_en`, `ch_info` reports the new flag for that channel and the previous flags for all others |
| Builtins.ChEnTwoEnablesButSaysDisabling | src/cli.c:736-737 | `ch_en 0,2` replies "Disabling" yet, with the assumed `bool` setter, enables channel 0 |
| Output.Init | src/cli.c:1878-1921 | a repeated init is refused with ERROR_INIT. Otherwise the flag is set exactly when the interface came up, and the interface status is returned |
| Output.Deinit | src/cli.c:1930-1953 | a deinit before init is refused with ERROR_INIT. Otherwise the flag is cleared exactly when the interface went down |
| Output.Printf | src/cli.c:2027-2058 | before init nothing is sent and ERROR_INIT is returned. A NULL format sends nothing and returns ERROR. Otherwise the line is sent, and the status is OK exactly when both sends succeeded |
| Output.PrintfCh | src/cli.c:2069-2108 | `cli_printf_ch` has the same guards. A disabled channel sends nothing yet reports OK. An enabled channel sends the line, and the status is OK exactly when all four sends succeeded |
| Output.DeliverBeforeInit | src/cli.c:216-244 | before init, only the bare `cli_send_str` pieces reach the transport |
| Output.DeliverAfterInit | src/cli.c:2027-2108 | after init, everything except disabled channels' lines reaches the transport, in order |
| Params.ParSet | src/cli_par.c:253-355 | `par_set` checks the attribute, the scan, the ID and read-only access, in that order, and each rejection leaves the store unchanged. A writable parameter always gets the "OK" line. An accepted write changes only that parameter's value; a refused one adds the error-code line |
| Params.ParGet | src/cli_par.c:367-455 | `par_get` has the same rejections. A read prints the stored value. A failed read prints 0 followed by the error-code line |
| Params.DefId | src/cli_par.c:467-500 | the ID read through `%u` keeps its low 16 bits, which equals reducing through 32 bits first, and is unchanged when it is already below 2^16 |
| Params.ParDef | src/cli_par.c:467-500 | `par_def` sets a known parameter to its default, echoes the ID and changes nothing else; it rejects the same cases |
| Params.OnlyAcceptedWritesChange | src/cli_par.c:253-355 | the store changes only on an accepted write to a known, writable parameter. The "OK" line appears exactly for known, writable parameters |
| Params.SetThenGet | src/cli_par.c:253-455 | a written value is what `par_get` returns through any ID of the same parameter, and other parameters read as before |
| Params.DefThenGet | src/cli_par.c:367-500 | after `par_def` the parameter reads as its default, and a second `par_def` changes nothing |
| LiveWatch.Initial | src/cli_par.c:126-133 | the static live-watch block is valid and inactive, has an empty list and a period count of at least 1 |
| LiveWatch.WatchStart | src/cli_par.c:639-662 | `watch_start` starts streaming only with a non-empty list. Otherwise it reports an empty list, or an unknown command when an attribute is given |
| LiveWatch.WatchStop | src/cli_par.c:674-690 | `watch_stop` always stops streaming unless an attribute makes it an unknown command |
| LiveWatch.StartNeedsList | src/cli_par.c:639-690 | after `watch_start` streaming is on exactly when it was on already or the list is non-empty, and nothing but the flag changes |
| LiveWatch.WatchRate | src/cli_par.c:814-857 | a period is accepted exactly when its 32-bit reading is in range and a multiple of the handler period. Then the period is stored and the count becomes period / handler period. Any rejection leaves the block unchanged |
| LiveWatch.RateRejections | src/cli_par.c:814-857 | out of range is reported before not-a-multiple |
| LiveWatch.ScanBounds | src/cli_par.c:717-751 | with the array store guarded, the ID loop writes consecutive slots below the array size. Each write stores the number of the next ID. The loop stops when the IDs run out, when an unknown ID empties the list, or after counting one known ID beyond the array without storing it |
| LiveWatch.ScanAsWritten | src/cli_par.c:717-751 | as written, the loop's count never goes more than one above the array size. An unknown ID that stops it is one of the scanned IDs, and the count becomes 0. Otherwise the count is the number of stores |
| LiveWatch.ScanCountsAsWritten | src/cli_par.c:717-751 | the guarded loop counts and stops exactly as the loop as written. Its stores are a prefix of those as written, and the same stores while the count stays within the array |
| LiveWatch.AsWrittenOverruns | src/cli_par.c:717 | as written, `maxIn + 1` known IDs make the loop write slot `maxIn`, one past the array, and leave `num_of == maxIn + 1` |
| LiveWatch.ScanAgreesWithinCapacity | src/cli_par.c:717-751 | with at most `maxIn` IDs the corrected loop and the loop as written behave identically |
| LiveWatch.ApplyConsecutive | src/cli_par.c:724-725 | writing consecutive slots from a base sets exactly those slots and leaves the rest of the list unchanged |
| LiveWatch.WatchChannel | src/cli_par.c:703-800 | the corrected `watch_channel` keeps the live-watch block valid: the count never exceeds the array |
| LiveWatch.WatchChannelAsWritten | src/cli_par.c:703-800 | as written, `watch_channel` can leave the count at one above the array size, though the list keeps its length |
| LiveWatch.AsWrittenKeepsOverlong | src/cli_par.c:639-800 | as written, `MAX + 1` known IDs are refused with the range error, yet `num_of` stays at `MAX + 1`, and a following `watch_start` turns streaming on over that over-long list |
| LiveWatch.ChannelAgreesWithinCapacity | src/cli_par.c:703-800 | whenever the loop as written stays within the array, the corrected handler gives the same block and the same reply |
| LiveWatch.WatchChannelList | src/cli_par.c:703-800 | if at most `maxIn` IDs are given and all are known, the list holds their numbers in input order, the rest of the array is unchanged, and the reply is the period and the names. More than `maxIn` known IDs are refused with the range error and empty the list. Otherwise the first unknown ID empties the list and is the only error reported. Period, rate and the streaming flag never change |
| LiveWatch.LiveWatchOut | src/cli_par.c:969-1036 | a streamed record carries the listed parameters' values in list order, `numOf - 1` commas and one line terminator. Nothing is sent while streaming is off or the list is empty |
| LiveWatch.Tick | src/cli_par.c:1127-1140 | the handler fires exactly when the loop count reaches `period_cnt - 1` in 32-bit arithmetic. It then resets the count; otherwise it increments it |
| LiveWatch.TicksOnePeriod | src/cli_par.c:1123-1143 | from zero, `period_cnt` calls fire once, on the last call, and return the count to zero |
| LiveWatch.TicksPeriodic | src/cli_par.c:1123-1143 | `m` whole periods of calls fire exactly `m` times and end with the count at zero |
| LiveWatch.ParHndl | src/cli_par.c:1123-1143 | `cli_par_hndl` sends a record exactly when the counter fires while streaming with a non-empty list |
| Osci.Zeroed | src/cli_osci.c:134 | the zero-initialised block is idle at index 0 with an empty list and no trigger |
| Osci.Start | src/cli_osci.c:192-212 | an idle or finished oscilloscope starts waiting. A running one only warns. An attribute gives "unknown command" |
| Osci.Stop | src/cli_osci.c:222-233 | `stop` makes the block idle from any state and keeps its index and list |
| Osci.CfgCmd | src/cli_osci.c:309-410 | channel, trigger and downsample need an attribute, warn exactly while the oscilloscope is running, and never change the block |
| Osci.WriteAt | src/cli_osci.c:512-519 | storing a sample in bounds replaces exactly its slots and keeps the rest of the buffer |
| Osci.SampHndl | src/cli_osci.c:482-537 | a sampling step keeps the oscilloscope block valid and never changes its channel list, channel count, trigger or mode |
| Osci.SampStates | src/cli_osci.c:482-537 | idle and finished blocks are left alone, and a waiting block with a trigger keeps waiting. Only sampling, entered directly from waiting when there is no trigger, stores a sample and can reach done |
| Osci.SampStep | src/cli_osci.c:509-532 | one aligned sampling step stores the sample at the index. It then either moves to the next sample boundary or, having filled the buffer, finishes and resets the index |
| Osci.SampInBounds | src/cli_osci.c:512-532 | when the buffer holds a whole number of samples, every write is in bounds and the alignment is kept |
| Osci.SampOverrun | src/cli_osci.c:518-522 | when it does not (5 slots, 2 channels), the third sample's write indices are 4 and 5, past the buffer |
| Osci.SampFills | src/cli_osci.c:482-537 | sampling from an aligned index until the buffer is full stores the samples in order behind the index, keeps the front of the buffer, ends in done and resets the index |
| Osci.Data | src/cli_osci.c:245-290 | `data` refuses an attribute, and warns that no data is available unless sampling is done |
| Osci.DataRowsShape | src/cli_osci.c:259-278 | the records read out carry the buffer in order, one line per sample and one comma between values |
| Osci.DataShape | src/cli_osci.c:245-290 | a finished recording is read out as `BUF / num_of` lines that hold the whole buffer in order |
| Osci.RecordThenRead | src/cli_osci.c:192-290 | started at index 0 without a trigger, a full recording reads back as exactly the samples taken, in order |
| Text.RowShape | src/cli_par.c:984-1034 | one streamed record carries exactly its values in order, one comma between consecutive values, and ends with the line terminator |
| Nvm.CrcAppend | src/cli_nvm.c:228-256 | the CRC can be computed in two pieces, the second continuing from the register the first left |
| Nvm.CalcCrc | src/cli_nvm.c:228-256 | the bitwise loop with seed 0x1234 and polynomial 0x1021 computes the byte-wise CRC definition |
| Nvm.HeaderLayout | src/cli_nvm.c:62-123 | the header fields are pairwise disjoint and each as wide as its struct member. The header ends at byte 12, before the first stream parameter at 0x10 |
| Nvm.Le32RoundTrip | src/cli_nvm.c:116-123 | decoding the little-endian bytes of a 32-bit value gives the value back, and conversely |
| Nvm.HeadRoundTrip | src/cli_nvm.c:62-123 | the model's byte encoding of `cli_nvm_head_obj_t` on a little-endian target decodes back to the same header, whatever bytes follow it |
| Nvm.SignBytes | src/cli_nvm.c:62 | the stored signature bytes are 55 AA 00 FF |
| Nvm.WriteSignature | src/cli_nvm.c:178-190 | the signature is written into its four bytes and nothing else changes. A refused write leaves the region unchanged, prints one line and returns the NVM error |
| Nvm.CorruptSignature | src/cli_nvm.c:155-166 | the four signature bytes are erased and nothing else changes. A refused erase leaves the region unchanged, prints one line and returns the NVM error |
| Nvm.SignatureReadBack | src/cli_nvm.c:155-190 | a written signature reads back as the signature constant. An erased one never does, whatever value an erased byte reads as |

## Left out

- `cli_hndl`: the main loop. It runs `cli_parser_hndl`, which is modelled. With parameter support on it also runs its own loop-count scheduler for `cli_par_live_watch_hndl` (src/cli.c:1988-2014). That scheduler repeats the one in `cli_par_hndl`, which is modelled, so it is left out.
- `cli_is_init`, `cli_par_init`, `cli_osci_init`, `cli_osci_info`, `par_info`, `par_def_all`, `par_save` and `watch_info`: registration glue and reports. They add no branch beyond those modelled.
- The legacy `par_*`/`status_*` rows of the built-in table: they are compiled only with parameter support, duplicate the tables of cli_par.c, and point at functions that are not part of this model. The model's built-in table is the seven core commands.
- The NVM header read, write and validate (src/cli_nvm.c:193-217) and `cli_nvm_read`/`cli_nvm_write` (src/cli_nvm.c:288-319, compiled with parameter support, line 273): their bodies are empty and return OK. `Nvm.HeadRoundTrip` states a property of the model's own encoding of the header structure, not of these functions.
- Nvm.HeaderLayout, Nvm.SignBytes and Nvm.Le32RoundTrip: the byte order of multi-byte fields in NVM is that of a little-endian target. The source copies structures as raw memory, so on a big-endian target the bytes would differ.
- `printf` rendering, floating-point conversion of parameter values and `%g` output: the output is abstract tokens, and sample values are integers standing for the floats.
- The mutex, the intro banner and the debug prints (`CLI_CFG_DEBUG_EN`): they are configuration options that are off in the modelled build.
- Builtins.ChEnCmd: the configuration module, which declares `cli_cfg_set_ch_en` and `cli_cfg_get_ch_en`, is not part of this model. The model assumes the setter takes a `bool`, so the `uint32_t en` (src/cli.c:736) is converted and every non-zero value enables the channel, and that the getter returns that `bool`. If the module stored the integer, `ch_en 0,2` would show "Enable" in `ch_info` (src/cli.c:699, a truth test) while `cli_printf_ch` (src/cli.c:2081, `true ==`) treated channel 0 as disabled. The model does not cover that case.
- LiveWatch.CfgValid: excludes `CLI_CFG_PAR_MAX_IN_LIVE_WATCH` = 255. `num_of` is a `uint8_t`, so with 255 the guard `num_of <= 255` always holds and `num_of` wraps to 0 after the 256th ID. The model does not cover that wrap.
- Accumulator.ParserHndl: the receive interface is a parameter (the bytes available this call). A receive that fails stops the loop like the end of input.
- Osci.CfgCmd: the bodies of `osci_channel`, `osci_trigger` and `osci_downsample` are empty in the source, so only their guards are modelled.
- Osci.Data: requires, when sampling is done, a channel list of 1 to 255 entries and a buffer that is a whole number of samples. With no channels the outer loop of the source never advances. With more than 255 its `uint8_t` channel counter (src/cli_osci.c:259) wraps and the loop never ends. With a partial last sample it reads past the buffer.
- Osci.SampHndl: a sample write past the buffer is undefined behaviour in the source, and the model drops it. With the layout of `cli_osci_t` (src/cli_osci.c:104-108) the word after the buffer is `samp.idx`, so the source overwrites the index that the test at line 522 then reads. After such a write the model's next state, and its arrival at done, need not match the source; only the write indices (`Osci.SampOverrun`) are claimed.
- Params.DefId: `%u` stores four bytes through a pointer to the 16-bit `par_id` (src/cli_par.c:475). The model keeps the low 16 bits, which is what a little-endian target leaves in `par_id`. The two bytes written past the variable are not modelled.
- Params.ParSet: the typed re-scan of the value by parameter type is abstracted into the scanned value. The store's own checks are the `accepted` flag.
- LiveWatch.WatchChannel: the `%hu%n` cursor walk is abstracted into the sequence of IDs the scans read. An ID above 16 bits is not modelled.
- Nvm.WriteSignature: a refused driver call is taken to leave the region unchanged; the driver is not part of this model.

Some behaviours of the code deserve a note:
- The receive buffer is never cleared after a line or an overrun. Only the terminator's bytes are blanked (src/cli.c:267-270), so stale bytes can complete a later terminator early (`Accumulator.StaleTermCompletesEarly`).
- The accumulator has no timeout: a partial line waits in the buffer until more bytes arrive.
- The comment on `cli_find_char` (src/cli.c:1774) says a target that is the last character gives NULL. The code returns the empty text after it instead, so a trailing space gives an empty attribute (`Splitter.TrailingSpaceGivesEmptyAttribute`).

## Findings

| source | as written | input that shows it | evidently intended | confidence | as-written member | corrected member |
|---|---|---|---|---|---|---|
| src/cli_par.c:717 | the loop guard `num_of <= CLI_CFG_PAR_MAX_IN_LIVE_WATCH` lets the loop store one ID past the `par_list` array. It leaves `num_of` one above the maximum, which the range error does not undo | `watch_channel` with `MAX + 1` known IDs writes `par_list[MAX]`, replies with the range error, and a following `watch_start` turns streaming on with `num_of` at `MAX + 1` | the array is never written past its end, and a list longer than `MAX` is refused with the range error (src/cli_par.c:754-755, 786-789) and left empty | not executed | LiveWatch.AsWrittenKeepsOverlong | LiveWatch.WatchChannelList |

`LiveWatch.AsWrittenOverruns` shows the store at index `MAX`. The corrected `LiveWatch.WatchChannel` guards that store, still counts the extra ID so that the range check sees it, and then empties the refused list. Whenever the list fits, it behaves exactly like the code (`LiveWatch.ChannelAgreesWithinCapacity`).

Two further behaviours are kept as the code has them and are stated as lemmas:
- `ch_en` with a value other than 0 or 1 replies "Disabling", because the reply tests `true == en` on the `uint32_t` value (src/cli.c:737). The channel is enabled only under the `bool` setter assumed for `cli_cfg_set_ch_en`; the `Builtins.ChEnCmd` line under Left out states that assumption. See `Builtins.ChEnTwoEnablesButSaysDisabling`.
- When the buffer is not a whole number of samples, the oscilloscope's last sample gets write indices past the buffer (`Osci.SampOverrun`).

=== FILE: accumulator.dfy ===
/** The line accumulator `cli_parser_hndl` (cli.c:253-306): bytes are taken
    from the receive interface one at a time into a fixed buffer until the
    termination string shows up in the buffer's text, which is then cut at
    the terminator and handed to dispatch. The buffer and its write index
    persist between calls; the buffer is never cleared. */
module Accumulator {
  import opened Common

  /** The bound on loop iterations within one call. */
  const ESCAPE_LIMIT: nat := 10000

  /** `CLI_CFG_RX_BUF_SIZE` and `CLI_CFG_TERMINATION_STRING`. */
  datatype RxCfg = RxCfg(cap: nat, term: string)

  predicate CfgValid(c: RxCfg) {
    c.cap >= 2 && |c.term| > 0 && NUL !in c.term
  }

  /** `gu8_rx_buffer` and the static `buf_idx`. */
  datatype Rx = Rx(buf: seq<char>, idx: nat)

  /** The index never passes `cap - 2`, so the last byte is never written
      and keeps the zero of static initialisation: the buffer is always a C
      string. */
  predicate RxValid(c: RxCfg, rx: Rx) {
    |rx.buf| == c.cap && rx.idx <= c.cap - 2 && rx.buf[c.cap - 1] == NUL
  }

  function Zeros(n: nat): (z: seq<char>)
    ensures |z| == n && forall i :: 0 <= i < n ==> z[i] == NUL
  {
    seq(n, _ => NUL)
  }

  /** The state at start-up. */
  function Fresh(c: RxCfg): (rx: Rx)
    requires CfgValid(c)
    ensures RxValid(c, rx)
  {
    Rx(Zeros(c.cap), 0)
  }

  predicate OccursAt(s: seq<char>, t: seq<char>, p: nat) {
    p + |t| <= |s| && s[p..p + |t|] == t
  }

  function StrStrFrom(s: seq<char>, t: seq<char>, p: nat): (r: Option<nat>)
    requires p <= |s|
    ensures r.Some? ==> p <= r.value && r.value + |t| <= |s|
    decreases |s| - p
  {
    if p + |t| > |s| then None
    else if s[p..p + |t|] == t then Some(p)
    else if p == |s| then None
    else StrStrFrom(s, t, p + 1)
  }

  lemma {:induction false} StrStrFromFinds(s: seq<char>, t: seq<char>, p: nat)
    requires p <= |s|
    ensures var r := StrStrFrom(s, t, p);
            && (r.Some? ==> OccursAt(s, t, r.value) && forall q :: p <= q < r.value ==> !OccursAt(s, t, q))
            && (r.None? ==> forall q :: p <= q <= |s| ==> !OccursAt(s, t, q))
    decreases |s| - p
  {
    if p + |t| <= |s| && s[p..p + |t|] != t && p < |s| {
      StrStrFromFinds(s, t, p + 1);
    }
  }

  /** `strstr`: the first position at which `t` occurs in `s`. */
  function StrStr(s: seq<char>, t: seq<char>): (r: Option<nat>)
    ensures r.Some? ==> r.value + |t| <= |s|
  {
    StrStrFrom(s, t, 0)
  }

  /** `strstr` finds the first occurrence, and finds nothing only when
      there is none. */
  lemma StrStrFinds(s: seq<char>, t: seq<char>)
    ensures StrStr(s, t).Some? ==>
              OccursAt(s, t, StrStr(s, t).value) && forall q :: 0 <= q < StrStr(s, t).value ==> !OccursAt(s, t, q)
    ensures StrStr(s, t).None? ==> forall q :: 0 <= q <= |s| ==> !OccursAt(s, t, q)
  {
    StrStrFromFinds(s, t, 0);
  }

  /** The bytes of `t` from the `j`-th on sit in `s` from `p + j` on. */
  predicate MatchFrom(s: seq<char>, t: seq<char>, p: nat, j: nat)
    decreases |t| - j
  {
    j >= |t| || (p + j < |s| && s[p + j] == t[j] && MatchFrom(s, t, p, j + 1))
  }

  /** `strstr` run in place on the receive buffer: every start position up
      to and including the buffer's first NUL is tried in turn. */
  function ScanFrom(s: seq<char>, t: seq<char>, p: nat): (r: Option<nat>)
    requires p < |s| && s[|s| - 1] == NUL
    ensures r.Some? ==> p <= r.value && r.value + |t| <= |s|
    decreases |s| - p
  {
    if MatchFrom(s, t, p, 0) then
      MatchFromMeans(s, t, p, 0);
      Some(p)
    else if s[p] == NUL then None
    else ScanFrom(s, t, p + 1)
  }

  /** What the in-place search reports is an occurrence, reached without
      passing a NUL. */
  lemma {:induction false} ScanFromFound(s: seq<char>, t: seq<char>, p: nat)
    requires p < |s| && s[|s| - 1] == NUL
    ensures var r := ScanFrom(s, t, p);
            r.Some? ==> s[r.value..r.value + |t|] == t && forall q :: p <= q < r.value ==> s[q] != NUL
    decreases |s| - p
  {
    if MatchFrom(s, t, p, 0) {
      MatchFromMeans(s, t, p, 0);
      assert forall i :: 0 <= i < |t| ==> s[p..p + |t|][i] == t[i];
    } else if s[p] != NUL {
      ScanFromFound(s, t, p + 1);
    }
  }

  function BufStrStr(s: seq<char>, t: seq<char>): (r: Option<nat>)
    requires 0 < |s| && s[|s| - 1] == NUL
    ensures r.Some? ==> r.value + |t| <= |s|
  {
    ScanFrom(s, t, 0)
  }

  /** A position `strstr` reports on the buffer holds the terminator and
      is reached without passing the buffer's first NUL. */
  lemma BufStrStrFinds(s: seq<char>, t: seq<char>)
    requires 0 < |s| && s[|s| - 1] == NUL
    ensures var r := BufStrStr(s, t);
            r.Some? ==> s[r.value..r.value + |t|] == t && NUL !in s[..r.value]
  {
    var r := BufStrStr(s, t);
    ScanFromFound(s, t, 0);
    assert r.Some? ==> forall q :: 0 <= q < r.value ==> s[..r.value][q] == s[q];
  }

  lemma {:induction false} MatchFromMeans(s: seq<char>, t: seq<char>, p: nat, j: nat)
    requires j <= |t|
    ensures MatchFrom(s, t, p, j) <==>
              (j < |t| ==> p + |t| <= |s|) && forall i :: j <= i < |t| && p + i < |s| ==> s[p + i] == t[i]
    decreases |t| - j
  {
    if j < |t| {
      MatchFromMeans(s, t, p, j + 1);
    }
  }

  /** A match of a NUL-free `t` in the buffer at or before its first NUL is
      an occurrence in the C string the buffer holds. */
  lemma MatchIsOccurrence(s: seq<char>, t: seq<char>, p: nat)
    requires HasNul(s) && NUL !in t && p <= StrLen(s)
    ensures MatchFrom(s, t, p, 0) <==> OccursAt(CStr(s), t, p)
  {
    var text := CStr(s);
    var n := |text|;
    MatchFromMeans(s, t, p, 0);
    assert p <= n < p + |t| ==> t[n - p] != NUL;
    if MatchFrom(s, t, p, 0) {
      if p + |t| > n {
        assert false;
      }
      assert text[p..p + |t|] == t by {
        forall i | 0 <= i < |t|
          ensures text[p..p + |t|][i] == t[i]
        {
          assert text[p + i] == s[p + i];
        }
      }
    }
    if OccursAt(text, t, p) {
      forall i | 0 <= i < |t|
        ensures s[p + i] == t[i]
      {
        assert text[p..p + |t|][i] == t[i];
      }
    }
  }

  lemma {:induction false} ScanFromIsStrStrFrom(s: seq<char>, t: seq<char>, p: nat)
    requires HasNul(s) && s[|s| - 1] == NUL && NUL !in t && p <= StrLen(s)
    ensures ScanFrom(s, t, p) == StrStrFrom(CStr(s), t, p)
    decreases |s| - p
  {
    var text := CStr(s);
    MatchIsOccurrence(s, t, p);
    if p < |text| {
      assert s[p] == text[p];
      ScanFromIsStrStrFrom(s, t, p + 1);
      if p + |t| > |text| {
        assert StrStrFrom(text, t, p + 1).None?;
      }
    }
  }

  /** Searching the buffer in place finds what `strstr` finds in the C
      string the buffer holds. */
  lemma BufStrStrIsStrStr(s: seq<char>, t: seq<char>)
    requires 0 < |s| && s[|s| - 1] == NUL && NUL !in t
    ensures BufStrStr(s, t) == StrStr(CStr(s), t)
  {
    ScanFromIsStrStrFrom(s, t, 0);
  }

  /** `memset(buf + p, 0, n)`. */
  function Zero(buf: seq<char>, p: nat, n: nat): (r: seq<char>)
    requires p + n <= |buf|
    ensures |r| == |buf|
    ensures 0 < |buf| && buf[|buf| - 1] == NUL ==> r[|buf| - 1] == NUL
  {
    buf[..p] + Zeros(n) + buf[p + n..]
  }

  lemma ZeroClears(buf: seq<char>, p: nat, n: nat)
    requires p + n <= |buf|
    ensures forall i :: 0 <= i < |buf| ==> Zero(buf, p, n)[i] == if p <= i < p + n then NUL else buf[i]
  {
  }

  /** The buffer once the next input byte is stored at the index. */
  function Stored(c: RxCfg, rx: Rx, b: char): (buf: seq<char>)
    requires RxValid(c, rx)
    ensures |buf| == c.cap && HasNul(buf) && buf[c.cap - 1] == NUL
  {
    var buf := rx.buf[rx.idx := b];
    assert buf[c.cap - 1] == NUL;
    buf
  }

  /** How one pass of the loop body ends, with the buffer it leaves. */
  datatype Iter = Continue(buf: seq<char>) | Hit(buf: seq<char>) | Overrun(buf: seq<char>)

  /** The loop body after the guard: look for the terminator in the text;
      on a hit blank it out, otherwise advance or, at the end of the buffer,
      give up. */
  function Iterate(c: RxCfg, rx: Rx, b: char): (it: Iter)
    requires CfgValid(c) && RxValid(c, rx)
    ensures |it.buf| == c.cap && it.buf[c.cap - 1] == NUL
    ensures it.Continue? ==> rx.idx < c.cap - 2
    ensures it.Overrun? ==> rx.idx == c.cap - 2
  {
    var buf1 := Stored(c, rx, b);
    match BufStrStr(buf1, c.term)
    case Some(p) =>
      Hit(Zero(buf1, p, |c.term|))
    case None =>
      if rx.idx < c.cap - 2 then Continue(buf1) else Overrun(buf1)
  }

  /** One call's result: the new state, the bytes taken from the receive
      interface, the iterations that got past the loop guard, the returned
      status and the buffer passed to `cli_execute_cmd`, if any. */
  datatype Run = Run(rx: Rx, consumed: nat, processed: nat, status: Status, line: Option<seq<char>>)

  /** The loop of `cli_parser_hndl` with `esc` iterations already done. The
      receive call is the left operand of the guard, so a byte is stored
      even on the iteration the escape counter then stops. */
  function ParseFrom(c: RxCfg, rx: Rx, input: seq<char>, esc: nat): (r: Run)
    requires CfgValid(c) && RxValid(c, rx) && esc <= ESCAPE_LIMIT
    ensures RxValid(c, r.rx)
    ensures r.status == OK || r.status == ERROR
    decreases ESCAPE_LIMIT - esc
  {
    if input == [] then Run(rx, 0, 0, OK, None)
    else if esc == ESCAPE_LIMIT then Run(Rx(Stored(c, rx, input[0]), rx.idx), 1, 0, OK, None)
    else
      match Iterate(c, rx, input[0])
      case Hit(buf) => Run(Rx(buf, 0), 1, 1, OK, Some(buf))
      case Overrun(buf) => Run(Rx(buf, 0), 1, 1, ERROR, None)
      case Continue(buf) =>
        var r := ParseFrom(c, Rx(buf, rx.idx + 1), input[1..], esc + 1);
        r.(consumed := r.consumed + 1, processed := r.processed + 1)
  }

  /** `cli_parser_hndl`: one call with the bytes the receive interface has. */
  function ParserHndl(c: RxCfg, rx: Rx, input: seq<char>): (r: Run)
    requires CfgValid(c) && RxValid(c, rx)
    ensures RxValid(c, r.rx)
  {
    ParseFrom(c, rx, input, 0)
  }

  /** What one call can do, for a call starting at index `idx` with `n`
      bytes available and `esc` iterations done: it examines at most
      `ESCAPE_LIMIT` bytes and no more than the buffer has room for; it takes
      one byte more than it examines only when the escape counter stops it;
      it returns with input left over only after a dispatch, an overrun or
      that stop; and both a dispatch and an overrun reset the index. */
  predicate Bounded(c: RxCfg, idx: nat, n: nat, esc: nat, r: Run) {
    && r.processed <= r.consumed <= r.processed + 1 && r.consumed <= n
    && r.processed + esc <= ESCAPE_LIMIT
    && r.processed + idx + 1 <= c.cap
    && (r.consumed == r.processed + 1 ==>
          r.line.None? && r.status == OK && r.processed + esc == ESCAPE_LIMIT
          && r.processed + idx + 2 <= c.cap)
    && (r.line.Some? ==> r.status == OK && r.rx.idx == 0 && r.rx.buf == r.line.value
                         && r.processed == r.consumed >= 1)
    && (r.status == ERROR ==> r.rx.idx == 0 && r.line.None? && r.processed + idx + 1 == c.cap)
    && (r.consumed < n ==> r.line.Some? || r.status == ERROR || r.consumed == r.processed + 1)
  }

  lemma BoundedStep(c: RxCfg, idx: nat, n: nat, esc: nat, r: Run)
    requires idx + 2 < c.cap && n > 0 && esc < ESCAPE_LIMIT
    requires Bounded(c, idx + 1, n - 1, esc + 1, r)
    ensures Bounded(c, idx, n, esc, r.(consumed := r.consumed + 1, processed := r.processed + 1))
  {
  }

  lemma ParseOnOverrun(c: RxCfg, rx: Rx, input: seq<char>, esc: nat)
    requires CfgValid(c) && RxValid(c, rx) && esc < ESCAPE_LIMIT && input != []
    requires Iterate(c, rx, input[0]).Overrun?
    ensures var buf := Iterate(c, rx, input[0]).buf;
            ParseFrom(c, rx, input, esc) == Run(Rx(buf, 0), 1, 1, ERROR, None)
  {
  }

  /** A call that stops on its first byte: empty input, the escape
      counter, a dispatch or an overrun. */
  lemma BoundedAtOnce(c: RxCfg, rx: Rx, input: seq<char>, esc: nat)
    requires CfgValid(c) && RxValid(c, rx) && esc <= ESCAPE_LIMIT
    requires input == [] || esc == ESCAPE_LIMIT || !Iterate(c, rx, input[0]).Continue?
    ensures Bounded(c, rx.idx, |input|, esc, ParseFrom(c, rx, input, esc))
  {
    if input != [] && esc < ESCAPE_LIMIT {
      var it := Iterate(c, rx, input[0]);
      if it.Hit? {
        assert ParseFrom(c, rx, input, esc) == Run(Rx(it.buf, 0), 1, 1, OK, Some(it.buf)) by {
          ParseOnHit(c, rx, input, esc);
        }
      } else {
        assert ParseFrom(c, rx, input, esc) == Run(Rx(it.buf, 0), 1, 1, ERROR, None) by {
          ParseOnOverrun(c, rx, input, esc);
        }
      }
    }
  }

  lemma {:induction false} ParseBounds(c: RxCfg, rx: Rx, input: seq<char>, esc: nat)
    requires CfgValid(c) && RxValid(c, rx) && esc <= ESCAPE_LIMIT
    ensures Bounded(c, rx.idx, |input|, esc, ParseFrom(c, rx, input, esc))
    decreases ESCAPE_LIMIT - esc
  {
    if input == [] || esc == ESCAPE_LIMIT || !Iterate(c, rx, input[0]).Continue? {
      BoundedAtOnce(c, rx, input, esc);
    } else {
      var buf := Iterate(c, rx, input[0]).buf;
      ParseBounds(c, Rx(buf, rx.idx + 1), input[1..], esc + 1);
      BoundedThenOn(c, rx, input, esc);
    }
  }

  /** A call that goes on after its first byte is bounded if the rest is. */
  lemma BoundedThenOn(c: RxCfg, rx: Rx, input: seq<char>, esc: nat)
    requires CfgValid(c) && RxValid(c, rx) && esc < ESCAPE_LIMIT && input != []
    requires Iterate(c, rx, input[0]).Continue?
    requires var buf := Iterate(c, rx, input[0]).buf;
             Bounded(c, rx.idx + 1, |input| - 1, esc + 1, ParseFrom(c, Rx(buf, rx.idx + 1), input[1..], esc + 1))
    ensures Bounded(c, rx.idx, |input|, esc, ParseFrom(c, rx, input, esc))
  {
    var buf := Iterate(c, rx, input[0]).buf;
    var r := ParseFrom(c, Rx(buf, rx.idx + 1), input[1..], esc + 1);
    assert ParseFrom(c, rx, input, esc) == r.(consumed := r.consumed + 1, processed := r.processed + 1) by {
      ParseOnContinue(c, rx, input, esc);
    }
    BoundedStep(c, rx.idx, |input|, esc, r);
  }

  /** With a buffer of at most `ESCAPE_LIMIT + 1` bytes the escape counter
      can never stop the loop: every byte taken is examined, and a call
      returns only when the input is used up, a line is dispatched or the
      buffer overruns. */
  lemma EscapeGuardUnreachable(c: RxCfg, rx: Rx, input: seq<char>)
    requires CfgValid(c) && RxValid(c, rx) && c.cap <= ESCAPE_LIMIT + 1
    ensures ParserHndl(c, rx, input).consumed == ParserHndl(c, rx, input).processed
    ensures ParserHndl(c, rx, input).consumed < |input| ==>
              ParserHndl(c, rx, input).line.Some? || ParserHndl(c, rx, input).status == ERROR
  {
    ParseBounds(c, rx, input, 0);
  }

  // ------------------------------------------------------ the first command

  /** A NUL-free line followed by at least one zero reads, as a C string,
      as exactly that line: this is the text the dispatcher receives once
      the terminator has been overwritten with zeros. */
  lemma PaddedText(u: seq<char>, n: nat)
    requires NUL !in u && n > 0
    ensures HasNul(u + Zeros(n)) && CStr(u + Zeros(n)) == u
  {
    var s := u + Zeros(n);
    assert s[|u|] == NUL;
    assert forall i :: 0 <= i < |u| ==> s[i] == u[i];
    assert StrLen(s) == |u|;
    assert s[..|u|] == u;
  }

  /** No occurrence of `term` in `w` starts at a position from `p` up to
      `n`. Recursive, so that a caller passing it on matches it whole. */
  predicate NoTermFrom(w: string, term: string, p: nat, n: nat)
    decreases n - p
  {
    p >= n || (!OccursAt(w, term, p) && NoTermFrom(w, term, p + 1, n))
  }

  lemma {:induction false} NoTermAt(w: string, term: string, p: nat, n: nat, q: nat)
    requires NoTermFrom(w, term, p, n) && p <= q < n
    ensures !OccursAt(w, term, q)
    decreases n - p
  {
    if p < q {
      NoTermAt(w, term, p + 1, n, q);
    }
  }

  /** The terminator occurs in `s + term` only where `s` ends. */
  predicate TermOnlyAtEnd(s: string, term: string) {
    NoTermFrom(s + term, term, 0, |s|)
  }

  /** No prefix of `s + term` shorter than the whole holds the terminator. */
  lemma NoEarlyTerm(s: string, term: string, n: nat)
    requires TermOnlyAtEnd(s, term) && n < |s + term|
    ensures StrStr((s + term)[..n], term).None?
  {
    var w := s + term;
    var text := w[..n];
    StrStrFinds(text, term);
    forall q | 0 <= q <= |text|
      ensures !OccursAt(text, term, q)
    {
      if q + |term| <= |text| {
        assert |text| == n <= |w|;
        var seen, full := text[q..q + |term|], w[q..q + |term|];
        forall x | 0 <= x < |term|
          ensures seen[x] == full[x]
        {
          assert text[q + x] == w[q + x];
        }
        assert seen == full;
        NoTermAt(w, term, 0, |s|, q);
      }
    }
  }

  lemma TermAtEnd(s: string, term: string)
    requires TermOnlyAtEnd(s, term)
    ensures StrStr(s + term, term) == Some(|s|)
  {
    var w := s + term;
    assert w[|s|..|s| + |term|] == term;
    assert OccursAt(w, term, |s|);
    var r := StrStr(w, term);
    StrStrFinds(w, term);
    assert r.Some? && r.value <= |s|;
    if r.value < |s| {
      NoTermAt(w, term, 0, |s|, r.value);
    }
  }

  /** The buffer holding the first `k` bytes of `w` and zeros. */
  function Partial(c: RxCfg, w: string, k: nat): (rx: Rx)
    requires CfgValid(c) && k < |w| && |w| <= c.cap - 1
    ensures RxValid(c, rx) && rx.idx == k
  {
    var buf := w[..k] + Zeros(c.cap - k);
    assert buf[c.cap - 1] == NUL;
    Rx(buf, k)
  }

  lemma StoreNext(c: RxCfg, w: string, k: nat)
    requires CfgValid(c) && k < |w| && |w| <= c.cap - 1 && NUL !in w
    ensures Stored(c, Partial(c, w, k), w[k]) == w[..k + 1] + Zeros(c.cap - k - 1)
    ensures CStr(Stored(c, Partial(c, w, k), w[k])) == w[..k + 1]
  {
    var buf := w[..k] + Zeros(c.cap - k);
    assert buf[k := w[k]] == w[..k + 1] + Zeros(c.cap - k - 1);
    PaddedText(w[..k + 1], c.cap - k - 1);
  }

  /** The store at `k` leaves the buffer `Partial` describes at `k + 1`. */
  lemma StoreAdvances(c: RxCfg, w: string, k: nat)
    requires CfgValid(c) && k + 1 < |w| && |w| <= c.cap - 1 && NUL !in w
    ensures Stored(c, Partial(c, w, k), w[k]) == Partial(c, w, k + 1).buf
    ensures CStr(Partial(c, w, k + 1).buf) == w[..k + 1]
  {
    StoreNext(c, w, k);
    assert w[..k + 1] + Zeros(c.cap - k - 1) == Partial(c, w, k + 1).buf;
  }

  /** Before the terminator is complete the loop body only advances. */
  lemma IterateBeforeEnd(c: RxCfg, s: string, w: string, k: nat)
    requires CfgValid(c) && NUL !in s && TermOnlyAtEnd(s, c.term) && w == s + c.term
    requires |w| <= c.cap - 1 && k + 1 < |w|
    ensures Iterate(c, Partial(c, w, k), w[k]) == Continue(Partial(c, w, k + 1).buf)
  {
    StoreAdvances(c, w, k);
    NoEarlyTerm(s, c.term, k + 1);
    IterateOnMiss(c, Partial(c, w, k), w[k]);
  }

  /** The buffer after the first line is cut: its text, then zeros. */
  function CutLine(c: RxCfg, s: string): seq<char>
    requires |s| < c.cap
  {
    s + Zeros(c.cap - |s|)
  }

  lemma ZeroTerm(s: string, t: string, m: nat)
    ensures Zero(s + t + Zeros(m), |s|, |t|) == s + Zeros(|t| + m)
  {
    var a := Zero(s + t + Zeros(m), |s|, |t|);
    ZeroClears(s + t + Zeros(m), |s|, |t|);
    var b := s + Zeros(|t| + m);
    assert |a| == |b|;
    forall i | 0 <= i < |a|
      ensures a[i] == b[i]
    {
      if i < |s| {
        assert a[i] == (s + t + Zeros(m))[i] == s[i];
      }
    }
  }

  /** The loop body on a miss with room left, unfolded. */
  lemma IterateOnMiss(c: RxCfg, rx: Rx, b: char)
    requires CfgValid(c) && RxValid(c, rx) && rx.idx < c.cap - 2
    requires StrStr(CStr(Stored(c, rx, b)), c.term).None?
    ensures Iterate(c, rx, b) == Continue(Stored(c, rx, b))
  {
    BufStrStrIsStrStr(Stored(c, rx, b), c.term);
  }

  /** The loop body on a hit, unfolded. */
  lemma IterateOnHit(c: RxCfg, rx: Rx, b: char, p: nat)
    requires CfgValid(c) && RxValid(c, rx)
    requires StrStr(CStr(Stored(c, rx, b)), c.term) == Some(p)
    ensures p + |c.term| <= c.cap
    ensures Iterate(c, rx, b) == Hit(Zero(Stored(c, rx, b), p, |c.term|))
  {
    BufStrStrIsStrStr(Stored(c, rx, b), c.term);
  }

  /** The loop with a byte available and the counter below its limit,
      unfolded once. */
  lemma ParseOnHit(c: RxCfg, rx: Rx, input: seq<char>, esc: nat)
    requires CfgValid(c) && RxValid(c, rx) && esc < ESCAPE_LIMIT && input != []
    requires Iterate(c, rx, input[0]).Hit?
    ensures var buf := Iterate(c, rx, input[0]).buf;
            ParseFrom(c, rx, input, esc) == Run(Rx(buf, 0), 1, 1, OK, Some(buf))
  {
  }

  lemma ParseOnContinue(c: RxCfg, rx: Rx, input: seq<char>, esc: nat)
    requires CfgValid(c) && RxValid(c, rx) && esc < ESCAPE_LIMIT && input != []
    requires Iterate(c, rx, input[0]).Continue?
    ensures var r := ParseFrom(c, Rx(Iterate(c, rx, input[0]).buf, rx.idx + 1), input[1..], esc + 1);
            ParseFrom(c, rx, input, esc) == r.(consumed := r.consumed + 1, processed := r.processed + 1)
  {
  }

  /** The last byte of the terminator stored: the whole line and zeros. */
  lemma StoreLast(c: RxCfg, w: string, k: nat)
    requires CfgValid(c) && NUL !in w && k + 1 == |w| <= c.cap - 1
    ensures Stored(c, Partial(c, w, k), w[k]) == w + Zeros(c.cap - |w|)
    ensures CStr(w + Zeros(c.cap - |w|)) == w
  {
    StoreNext(c, w, k);
    assert w[..k + 1] == w;
  }

  /** With the last byte of the terminator stored, `strstr` finds the
      terminator where the line ends. */
  lemma LastStoreFinds(c: RxCfg, s: string, w: string, k: nat)
    requires CfgValid(c) && NUL !in s && TermOnlyAtEnd(s, c.term) && w == s + c.term
    requires |w| <= c.cap - 1 && k + 1 == |w|
    ensures StrStr(CStr(Stored(c, Partial(c, w, k), w[k])), c.term) == Some(|s|)
  {
    assert CStr(Stored(c, Partial(c, w, k), w[k])) == w by {
      StoreLast(c, w, k);
    }
    TermAtEnd(s, c.term);
  }

  /** Blanking the terminator out of that buffer leaves the line and zeros. */
  lemma LastStoreCuts(c: RxCfg, s: string, w: string, k: nat)
    requires CfgValid(c) && w == s + c.term && |w| <= c.cap - 1 && k + 1 == |w| && NUL !in w
    ensures Zero(Stored(c, Partial(c, w, k), w[k]), |s|, |c.term|) == CutLine(c, s)
  {
    var m := c.cap - |w|;
    StoredLast(c, s, w, k);
    ZeroTerm(s, c.term, m);
    assert |c.term| + m == c.cap - |s|;
  }

  lemma StoredLast(c: RxCfg, s: string, w: string, k: nat)
    requires CfgValid(c) && w == s + c.term && |w| <= c.cap - 1 && k + 1 == |w| && NUL !in w
    ensures Stored(c, Partial(c, w, k), w[k]) == s + c.term + Zeros(c.cap - |w|)
  {
    StoreLast(c, w, k);
  }

  /** The last byte of the terminator completes the line and the
      terminator is blanked. */
  lemma IterateAtEnd(c: RxCfg, s: string, w: string, k: nat)
    requires CfgValid(c) && NUL !in s && TermOnlyAtEnd(s, c.term) && w == s + c.term
    requires |w| <= c.cap - 1 && k + 1 == |w|
    ensures Iterate(c, Partial(c, w, k), w[k]) == Hit(CutLine(c, s))
  {
    LastStoreFinds(c, s, w, k);
    LastStoreCuts(c, s, w, k);
    IterateOnHit(c, Partial(c, w, k), w[k], |s|);
  }

  lemma DropFirst(w: string, k: nat, more: seq<char>)
    requires k < |w|
    ensures (w[k..] + more)[0] == w[k] && (w[k..] + more)[1..] == w[k + 1..] + more
  {
  }

  /** The call that starts with the first `k` bytes of `w` stored and the
      rest of `w`, then `more`, still to come. */
  function RunFrom(c: RxCfg, w: string, k: nat, more: seq<char>, esc: nat): Run
    requires CfgValid(c) && |w| <= c.cap - 1 && k < |w| && esc <= ESCAPE_LIMIT
  {
    ParseFrom(c, Partial(c, w, k), w[k..] + more, esc)
  }

  /** A call that takes `n` bytes, all of them examined, and dispatches the
      line `s` with the index back at zero. */
  function DispatchOf(c: RxCfg, s: string, n: nat): Run
    requires |s| < c.cap
  {
    Run(Rx(CutLine(c, s), 0), n, n, OK, Some(CutLine(c, s)))
  }

  /** The run from index `k` once the run from `k + 1` is known, given
      that the byte at `k` only advances. */
  lemma FillStep(c: RxCfg, s: string, w: string, k: nat, more: seq<char>, esc: nat)
    requires CfgValid(c) && w == s + c.term
    requires |w| <= c.cap - 1 && k + 1 < |w| && esc < ESCAPE_LIMIT
    requires Iterate(c, Partial(c, w, k), w[k]) == Continue(Partial(c, w, k + 1).buf)
    requires RunFrom(c, w, k + 1, more, esc + 1) == DispatchOf(c, s, |w| - (k + 1))
    ensures RunFrom(c, w, k, more, esc) == DispatchOf(c, s, |w| - k)
  {
    var rx := Partial(c, w, k);
    var rx' := Partial(c, w, k + 1);
    var input := w[k..] + more;
    assert input[0] == w[k] && input[1..] == w[k + 1..] + more by {
      DropFirst(w, k, more);
    }
    assert rx' == Rx(rx'.buf, rx.idx + 1);
    ParseOnContinue(c, rx, input, esc);
  }

  /** The run from the last byte of the terminator, given that it
      completes the line. */
  lemma FillLast(c: RxCfg, s: string, w: string, k: nat, more: seq<char>, esc: nat)
    requires CfgValid(c) && w == s + c.term
    requires |w| <= c.cap - 1 && esc < ESCAPE_LIMIT && k + 1 == |w|
    requires Iterate(c, Partial(c, w, k), w[k]) == Hit(CutLine(c, s))
    ensures RunFrom(c, w, k, more, esc) == DispatchOf(c, s, |w| - k)
  {
    var rx := Partial(c, w, k);
    var input := w[k..] + more;
    assert input[0] == w[k];
    ParseOnHit(c, rx, input, esc);
  }

  lemma {:induction false} FillThenDispatch(c: RxCfg, s: string, w: string, k: nat, more: seq<char>, esc: nat)
    requires CfgValid(c) && NUL !in s && TermOnlyAtEnd(s, c.term) && w == s + c.term
    requires |w| <= c.cap - 1
    requires k < |w| && esc + (|w| - k) <= ESCAPE_LIMIT
    ensures RunFrom(c, w, k, more, esc) == DispatchOf(c, s, |w| - k)
    decreases |w| - k
  {
    if k + 1 < |w| {
      IterateBeforeEnd(c, s, w, k);
      FillThenDispatch(c, s, w, k + 1, more, esc + 1);
      FillStep(c, s, w, k, more, esc);
    } else {
      IterateAtEnd(c, s, w, k);
      FillLast(c, s, w, k, more, esc);
    }
  }

  /** The start-up state is the empty partial line. */
  lemma FreshIsPartial(c: RxCfg, w: string)
    requires CfgValid(c) && 0 < |w| <= c.cap - 1
    ensures Partial(c, w, 0) == Fresh(c)
  {
    assert w[..0] + Zeros(c.cap - 0) == Zeros(c.cap);
  }

  /** The first command after start-up: a line without NUL bytes, followed
      by the terminator (and possibly more input), that fits the buffer is
      dispatched in one call as the line followed by zeros -- whose text is
      the line, by `PaddedText` -- taking just its own bytes, examining each
      of them, returning OK and leaving the index at zero. */
  lemma FirstLineIsDispatched(c: RxCfg, s: string, more: seq<char>)
    requires CfgValid(c) && NUL !in s && TermOnlyAtEnd(s, c.term)
    requires |s| + |c.term| <= c.cap - 1 && |s| + |c.term| <= ESCAPE_LIMIT
    ensures ParserHndl(c, Fresh(c), s + c.term + more)
            == Run(Rx(CutLine(c, s), 0), |s| + |c.term|, |s| + |c.term|, OK, Some(CutLine(c, s)))
  {
    var w := s + c.term;
    assert ParserHndl(c, Fresh(c), s + c.term + more) == RunFrom(c, w, 0, more, 0) by {
      FreshIsPartial(c, w);
      assert w[0..] + more == s + c.term + more;
    }
    FillThenDispatch(c, s, w, 0, more, 0);
  }

  // ------------------------------------------------------------- overruns

  /** A text without the terminator has none in any prefix either. */
  lemma NoTermInPrefix(w: string, term: string, n: nat)
    requires 0 < |term| && NoTermFrom(w, term, 0, |w|) && n <= |w|
    ensures StrStr(w[..n], term).None?
  {
    var text := w[..n];
    StrStrFinds(text, term);
    forall q | 0 <= q <= |text|
      ensures !OccursAt(text, term, q)
    {
      if q + |term| <= |text| {
        assert text[q..q + |term|] == w[q..q + |term|];
        NoTermAt(w, term, 0, |w|, q);
      }
    }
  }

  /** Feeding a text without the terminator: each byte before the last
      free slot advances, and the byte that fills it overruns. */
  lemma IterateNoTerm(c: RxCfg, w: string, k: nat)
    requires CfgValid(c) && NUL !in w && NoTermFrom(w, c.term, 0, |w|) && |w| == c.cap - 1 && k < |w|
    ensures k + 1 < |w| ==> Iterate(c, Partial(c, w, k), w[k]) == Continue(Partial(c, w, k + 1).buf)
    ensures k + 1 == |w| ==> Iterate(c, Partial(c, w, k), w[k]) == Overrun(w + [NUL])
  {
    if k + 1 < |w| {
      IterateNoTermBefore(c, w, k);
    } else {
      IterateNoTermLast(c, w, k);
    }
  }

  lemma IterateNoTermBefore(c: RxCfg, w: string, k: nat)
    requires CfgValid(c) && NUL !in w && NoTermFrom(w, c.term, 0, |w|) && |w| == c.cap - 1 && k + 1 < |w|
    ensures Iterate(c, Partial(c, w, k), w[k]) == Continue(Partial(c, w, k + 1).buf)
  {
    var rx := Partial(c, w, k);
    StoreNext(c, w, k);
    NoTermInPrefix(w, c.term, k + 1);
    StoreAdvances(c, w, k);
    IterateOnMiss(c, rx, w[k]);
  }

  lemma IterateNoTermLast(c: RxCfg, w: string, k: nat)
    requires CfgValid(c) && NUL !in w && NoTermFrom(w, c.term, 0, |w|) && |w| == c.cap - 1 && k + 1 == |w|
    ensures Iterate(c, Partial(c, w, k), w[k]) == Overrun(w + [NUL])
  {
    LastStore(c, w, k);
    NoTermInPrefix(w, c.term, |w|);
    assert w[..|w|] == w;
    IterateOnFull(c, Partial(c, w, k), w[k]);
  }

  /** Storing the last byte a buffer has room for completes it. */
  lemma LastStore(c: RxCfg, w: string, k: nat)
    requires CfgValid(c) && NUL !in w && |w| == c.cap - 1 && k + 1 == |w|
    ensures Stored(c, Partial(c, w, k), w[k]) == w + [NUL]
    ensures CStr(Stored(c, Partial(c, w, k), w[k])) == w
  {
    StoreNext(c, w, k);
    assert w[..k + 1] == w;
    assert Zeros(1) == [NUL];
  }

  /** The loop body with the last free byte filled and no terminator: an
      overrun. */
  lemma IterateOnFull(c: RxCfg, rx: Rx, b: char)
    requires CfgValid(c) && RxValid(c, rx) && rx.idx == c.cap - 2
    requires StrStr(CStr(Stored(c, rx, b)), c.term).None?
    ensures Iterate(c, rx, b) == Overrun(Stored(c, rx, b))
  {
    BufStrStrIsStrStr(Stored(c, rx, b), c.term);
  }

  lemma {:induction false} FillThenOverrun(c: RxCfg, w: string, k: nat, more: seq<char>, esc: nat)
    requires CfgValid(c) && NUL !in w && NoTermFrom(w, c.term, 0, |w|) && |w| == c.cap - 1
    requires k < |w| && esc + (|w| - k) <= ESCAPE_LIMIT
    ensures RunFrom(c, w, k, more, esc) == Run(Rx(w + [NUL], 0), |w| - k, |w| - k, ERROR, None)
    decreases |w| - k
  {
    var rx := Partial(c, w, k);
    var input := w[k..] + more;
    assert input[0] == w[k] && input[1..] == w[k + 1..] + more by {
      DropFirst(w, k, more);
    }
    IterateNoTerm(c, w, k);
    if k + 1 < |w| {
      FillThenOverrun(c, w, k + 1, more, esc + 1);
      assert Partial(c, w, k + 1) == Rx(Partial(c, w, k + 1).buf, rx.idx + 1);
      ParseOnContinue(c, rx, input, esc);
    } else {
      ParseOnOverrun(c, rx, input, esc);
    }
  }

  /** The partner of `FirstLineIsDispatched`: a first line that fills the
      buffer without ever holding the terminator overruns. The call takes
      exactly the bytes that fit, returns ERROR and resets the index, but
      the bytes stay in the buffer (cli.c:286-296 never clears it). */
  lemma FirstOverrun(c: RxCfg, w: string, more: seq<char>)
    requires CfgValid(c) && NUL !in w && NoTermFrom(w, c.term, 0, |w|)
    requires |w| == c.cap - 1 && |w| <= ESCAPE_LIMIT
    ensures ParserHndl(c, Fresh(c), w + more) == Run(Rx(w + [NUL], 0), |w|, |w|, ERROR, None)
  {
    assert ParserHndl(c, Fresh(c), w + more) == RunFrom(c, w, 0, more, 0) by {
      FreshIsPartial(c, w);
      assert w[0..] + more == w + more;
    }
    FillThenOverrun(c, w, 0, more, 0);
  }

  /** A text without the first byte of `t` holds no occurrence of `t`. */
  lemma {:induction false} NoTermWithoutFirst(w: string, t: string, p: nat)
    requires 0 < |t| && t[0] !in w
    ensures NoTermFrom(w, t, p, |w|)
    decreases |w| - p
  {
    if p < |w| {
      assert w[p] != t[0];
      NoTermWithoutFirst(w, t, p + 1);
    }
  }

  /** The in-place search misses when no byte from `p` on is the first
      byte of `t`. */
  lemma {:induction false} ScanMissesWithoutFirst(s: seq<char>, t: seq<char>, p: nat)
    requires p < |s| && s[|s| - 1] == NUL && 0 < |t|
    requires forall q :: p <= q < |s| ==> s[q] != t[0]
    ensures ScanFrom(s, t, p) == None
    decreases |s| - p
  {
    assert !MatchFrom(s, t, p, 0);
    if s[p] != NUL {
      ScanMissesWithoutFirst(s, t, p + 1);
    }
  }

  /** Storing a byte over an equal one, in a buffer without the first
      byte of the terminator and with room left, only advances. */
  lemma SameByteMisses(c: RxCfg, rx: Rx, input: seq<char>, esc: nat)
    requires CfgValid(c) && RxValid(c, rx) && rx.idx < c.cap - 2 && esc < ESCAPE_LIMIT
    requires input != [] && rx.buf[rx.idx] == input[0]
    requires forall q :: 0 <= q < |rx.buf| ==> rx.buf[q] != c.term[0]
    ensures var r := ParseFrom(c, Rx(rx.buf, rx.idx + 1), input[1..], esc + 1);
            ParseFrom(c, rx, input, esc) == r.(consumed := r.consumed + 1, processed := r.processed + 1)
  {
    assert Stored(c, rx, input[0]) == rx.buf;
    ScanMissesWithoutFirst(rx.buf, c.term, 0);
    ParseOnContinue(c, rx, input, esc);
  }

  /** The CR of "ab" CR LF lands in front of the stale LF. */
  lemma StaleHit()
    ensures var c := RxCfg(8, "\r\n");
            Iterate(c, Rx("abc\nefg" + [NUL], 2), '\r') == Hit("ab" + [NUL, NUL] + "efg" + [NUL])
  {
    var c := RxCfg(8, "\r\n");
    var h := Stored(c, Rx("abc\nefg" + [NUL], 2), '\r');
    assert h == "ab\r\nefg" + [NUL];
    assert !MatchFrom(h, c.term, 0, 0) && !MatchFrom(h, c.term, 1, 0);
    assert MatchFrom(h, c.term, 2, 0) by {
      assert MatchFrom(h, c.term, 2, 2);
      assert MatchFrom(h, c.term, 2, 1);
    }
    assert ScanFrom(h, c.term, 1) == Some(2);
    assert Zero(h, 2, 2) == "ab" + [NUL, NUL] + "efg" + [NUL];
  }

  /** The first call: "abc\nefg" fills the 8-byte buffer and overruns. */
  lemma StaleOverrun()
    ensures var c := RxCfg(8, "\r\n");
            ParserHndl(c, Fresh(c), "abc\nefg") == Run(Rx("abc\nefg" + [NUL], 0), 7, 7, ERROR, None)
  {
    var c := RxCfg(8, "\r\n");
    var w := "abc\nefg";
    NoTermWithoutFirst(w, c.term, 0);
    assert w + [] == w;
    FirstOverrun(c, w, []);
  }

  /** The rest of the second call from its CR: one byte, dispatched. */
  lemma StaleFromCr()
    ensures var c := RxCfg(8, "\r\n");
            var cut := "ab" + [NUL, NUL] + "efg" + [NUL];
            ParseFrom(c, Rx("abc\nefg" + [NUL], 2), "\r\n", 2) == Run(Rx(cut, 0), 1, 1, OK, Some(cut))
  {
    StaleHit();
    ParseOnHit(RxCfg(8, "\r\n"), Rx("abc\nefg" + [NUL], 2), "\r\n", 2);
  }

  /** The rest of the second call from its "b". */
  lemma StaleFromB()
    ensures var c := RxCfg(8, "\r\n");
            var cut := "ab" + [NUL, NUL] + "efg" + [NUL];
            ParseFrom(c, Rx("abc\nefg" + [NUL], 1), "b\r\n", 1) == Run(Rx(cut, 0), 2, 2, OK, Some(cut))
  {
    assert "b\r\n"[1..] == "\r\n";
    StaleFromCr();
    SameByteMisses(RxCfg(8, "\r\n"), Rx("abc\nefg" + [NUL], 1), "b\r\n", 1);
  }

  /** The second call: "ab" overwrites equal bytes, and its CR completes
      the terminator with the stale LF. */
  lemma StaleLineCut()
    ensures var c := RxCfg(8, "\r\n");
            var cut := "ab" + [NUL, NUL] + "efg" + [NUL];
            ParseFrom(c, Rx("abc\nefg" + [NUL], 0), "ab\r\n", 0) == Run(Rx(cut, 0), 3, 3, OK, Some(cut))
  {
    assert "ab\r\n"[1..] == "b\r\n";
    StaleFromB();
    SameByteMisses(RxCfg(8, "\r\n"), Rx("abc\nefg" + [NUL], 0), "ab\r\n", 0);
  }

  /** Stale bytes complete a terminator early. With an 8-byte buffer and
      the terminator CR LF, "abc\nefg" overruns and leaves its bytes behind;
      the next line "ab" then meets the stale LF as soon as its CR arrives.
      The line is dispatched after three bytes, and the real LF is left
      over, to start the next line. */
  lemma StaleTermCompletesEarly()
    ensures var c := RxCfg(8, "\r\n");
            var first := ParserHndl(c, Fresh(c), "abc\nefg");
            var cut := "ab" + [NUL, NUL] + "efg" + [NUL];
            && first == Run(Rx("abc\nefg" + [NUL], 0), 7, 7, ERROR, None)
            && ParserHndl(c, first.rx, "ab\r\n") == Run(Rx(cut, 0), 3, 3, OK, Some(cut))
            && CStr(cut) == "ab"
  {
    StaleOverrun();
    var cut := "ab" + [NUL, NUL] + "efg" + [NUL];
    StaleLineCut();
    assert cut[0] != NUL && cut[1] != NUL && cut[2] == NUL;
  }
}

=== FILE: builtins.dfy ===
/** The basic command table, the dispatch step of `cli_execute_cmd` and the
    built-in handlers of cli.c (cli.c:144-155, cli.c:340-365,
    cli.c:527-766). Built with the intro strings disabled. */
module Builtins {
  import opened Common
  import opened Text
  import opened Splitter
  import opened Registry
  import opened Lookup

  /** The built-in command names, each checked free of NUL on its own. */
  const HELP: CString := "help"
  const RESET: CString := "reset"
  const SW_VER: CString := "sw_ver"
  const HW_VER: CString := "hw_ver"
  const PROJ_INFO: CString := "proj_info"
  const CH_INFO: CString := "ch_info"
  const CH_EN: CString := "ch_en"

  /** `g_cli_basic_table` without the legacy parameter rows. */
  const BasicTable: Table := [
    Cmd(HELP, Help, "Print all commands help"),
    Cmd(RESET, Reset, "Reset device"),
    Cmd(SW_VER, SwVer, "Print device software version"),
    Cmd(HW_VER, HwVer, "Print device hardware version"),
    Cmd(PROJ_INFO, ProjInfo, "Print project informations"),
    Cmd(CH_INFO, ChInfo, "Print COM channel informations"),
    Cmd(CH_EN, ChEn, "Enable/disable COM channel [chEnum][en]")
  ]

  lemma BasicTableShape()
    ensures WellFormed(BasicTable) && NoSpaceNames(BasicTable)
    ensures forall i, j :: 0 <= i < j < |BasicTable| ==> BasicTable[i].name != BasicTable[j].name
  {
  }

  /** What `cli_execute_cmd` does with a completed line. */
  datatype Exec = Ran(handler: Handler, attr: Option<string>) | Unknown(out: seq<Out>)

  /** `cli_execute_cmd`: the handler found runs with the attribute;
      otherwise `cli_unknown` answers. */
  function ExecuteCmd(basic: Table, reg: Registry, maxCmds: nat, line: seq<char>): (r: Exec)
    requires HasNul(line) && WellFormed(basic) && Valid(reg, maxCmds)
    ensures r.Unknown? <==> FindHandler(basic, reg, maxCmds, line).None?
    ensures r.Unknown? ==> r.out == [Line(UnknownCommand)]
    ensures r.Ran? ==> (r.attr.Some? <==> line[FirstStop(line)] == SPACE)
  {
    match FindHandler(basic, reg, maxCmds, line)
    case None => Unknown(Say(UnknownCommand))
    case Some(h) => Ran(h, Attribute(line))
  }

  /** A line that names no command in any table, whatever follows it, is
      answered by exactly one "unknown command" line. */
  lemma UnknownNameIsRejected(basic: Table, reg: Registry, maxCmds: nat, name: string, tail: seq<char>)
    requires WellFormed(basic) && Valid(reg, maxCmds)
    requires NUL !in name && SPACE !in name
    requires NoSpaceNames(SearchOrder(basic, reg))
    requires forall j :: 0 <= j < |SearchOrder(basic, reg)| ==> SearchOrder(basic, reg)[j].name != Some(name)
    requires tail == [NUL] || (|tail| > 0 && tail[0] == SPACE && NUL in tail)
    ensures HasNul(name + tail)
    ensures ExecuteCmd(basic, reg, maxCmds, name + tail) == Unknown([Line(UnknownCommand)])
  {
    var line := name + tail;
    assert line == name + [tail[0]] + tail[1..];
    FirstStopAfterName(name, tail[0], tail[1..]);
    assert line[..FirstStop(line)] == name;
    LookupIsFirstInSearchOrder(basic, reg, maxCmds, line);
    var cmds := SearchOrder(basic, reg);
    forall j | 0 <= j < |cmds|
      ensures !Matches(line, FirstStop(line), cmds[j])
    {
      ExactMatch(line, cmds[j]);
    }
  }

  // ---------------------------------------------------------------- help

  /** One help line per table entry, in table order. */
  function Entries(t: Table): (o: seq<Out>)
    requires WellFormed(t)
    ensures |o| == |t|
  {
    if t == [] then [] else [Line(HelpEntry(t[0].name.value, t[0].help.value))] + Entries(t[1..])
  }

  /** The registered tables' part of the help: a rule before each table. */
  function UserHelp(slots: seq<Option<Table>>): seq<Out>
    requires forall i :: 0 <= i < |slots| && slots[i].Some? ==> WellFormed(slots[i].value)
  {
    if slots == [] then []
    else (if slots[0].Some? then [Line(Rule)] + Entries(slots[0].value) else []) + UserHelp(slots[1..])
  }

  /** `cli_help`. */
  function HelpCmd(basic: Table, reg: Registry, maxCmds: nat, attr: Option<string>): (o: seq<Out>)
    requires WellFormed(basic) && Valid(reg, maxCmds)
    ensures attr.Some? ==> o == [Line(UnknownCommand)]
    ensures attr.None? ==> |o| == 4 + |SearchOrder(basic, reg)| + |Present(reg.slots)|
    ensures attr.None? ==> o[0] == Line(HelpBlank) && o[2] == Line(Rule) && o[|o| - 1] == Line(Rule)
  {
    UserHelpLength(reg.slots);
    if attr.Some? then Say(UnknownCommand)
    else HelpText(Entries(basic), UserHelp(reg.slots))
  }

  /** The help text around the basic and the registered entries. */
  function HelpText(basicPart: seq<Out>, userPart: seq<Out>): seq<Out> {
    HelpHead + basicPart + userPart + [Line(Rule)]
  }

  /** The help entries of an output, in order. */
  function EntryLines(o: seq<Out>): seq<Out> {
    if o == [] then []
    else (if o[0].Line? && o[0].msg.HelpEntry? then [o[0]] else []) + EntryLines(o[1..])
  }

  function RuleCount(o: seq<Out>): nat {
    if o == [] then 0 else (if o[0] == Line(Rule) then 1 else 0) + RuleCount(o[1..])
  }

  lemma {:induction false} EntryLinesAppend(a: seq<Out>, b: seq<Out>)
    ensures EntryLines(a + b) == EntryLines(a) + EntryLines(b)
    ensures RuleCount(a + b) == RuleCount(a) + RuleCount(b)
  {
    if a == [] {
      assert a + b == b;
    } else {
      assert (a + b)[1..] == a[1..] + b;
      EntryLinesAppend(a[1..], b);
    }
  }

  lemma {:induction false} EntriesAreEntries(t: Table)
    requires WellFormed(t)
    ensures EntryLines(Entries(t)) == Entries(t) && RuleCount(Entries(t)) == 0
  {
    if t != [] {
      var head := [Line(HelpEntry(t[0].name.value, t[0].help.value))];
      EntriesAreEntries(t[1..]);
      EntryLinesAppend(head, Entries(t[1..]));
    }
  }

  lemma {:induction false} EntriesAppend(a: Table, b: Table)
    requires WellFormed(a) && WellFormed(b)
    ensures WellFormed(a + b) && Entries(a + b) == Entries(a) + Entries(b)
  {
    if a != [] {
      assert (a + b)[1..] == a[1..] + b;
      EntriesAppend(a[1..], b);
    } else {
      assert a + b == b;
    }
  }

  /** Entry `i` of the help for a table is the name and help text of the
      table's entry `i`. */
  lemma {:induction false} EntriesAt(t: Table, i: nat)
    requires WellFormed(t) && i < |t|
    ensures Entries(t)[i] == Line(HelpEntry(t[i].name.value, t[i].help.value))
  {
    if i > 0 {
      EntriesAt(t[1..], i - 1);
    }
  }

  lemma {:induction false} UserHelpEntries(slots: seq<Option<Table>>)
    requires forall i :: 0 <= i < |slots| && slots[i].Some? ==> WellFormed(slots[i].value)
    ensures WellFormed(Concat(Present(slots)))
    ensures EntryLines(UserHelp(slots)) == Entries(Concat(Present(slots)))
  {
    PresentWellFormedSlots(slots, 0);
    ConcatWellFormed(Present(slots));
    if slots != [] {
      var tail := slots[1..];
      UserHelpEntries(tail);
      var head := if slots[0].Some? then [Line(Rule)] + Entries(slots[0].value) else [];
      assert UserHelp(slots) == head + UserHelp(tail);
      EntryLinesAppend(head, UserHelp(tail));
      if slots[0].Some? {
        var t := slots[0].value;
        EntriesAreEntries(t);
        EntryLinesAppend([Line(Rule)], Entries(t));
        assert EntryLines(head) == Entries(t);
        assert Present(slots) == [t] + Present(tail);
        assert Concat(Present(slots)) == t + Concat(Present(tail));
        EntriesAppend(t, Concat(Present(tail)));
      } else {
        assert Present(slots) == Present(tail);
      }
    }
  }

  lemma {:induction false} UserHelpRules(slots: seq<Option<Table>>)
    requires forall i :: 0 <= i < |slots| && slots[i].Some? ==> WellFormed(slots[i].value)
    ensures RuleCount(UserHelp(slots)) == |Present(slots)|
  {
    if slots != [] {
      var tail := slots[1..];
      UserHelpRules(tail);
      var head := if slots[0].Some? then [Line(Rule)] + Entries(slots[0].value) else [];
      assert UserHelp(slots) == head + UserHelp(tail);
      EntryLinesAppend(head, UserHelp(tail));
      if slots[0].Some? {
        EntriesAreEntries(slots[0].value);
        EntryLinesAppend([Line(Rule)], Entries(slots[0].value));
        assert Present(slots) == [slots[0].value] + Present(tail);
      } else {
        assert Present(slots) == Present(tail);
      }
    }
  }

  /** The banner above the entries. */
  const HelpHead: seq<Out> := [Line(HelpBlank), Line(HelpTitle), Line(Rule)]

  lemma HelpHeadShape()
    ensures EntryLines(HelpHead) == [] && RuleCount(HelpHead) == 1
  {
    assert HelpHead == [HelpHead[0]] + [HelpHead[1]] + [HelpHead[2]];
    EntryLinesAppend([HelpHead[0]] + [HelpHead[1]], [HelpHead[2]]);
    EntryLinesAppend([HelpHead[0]], [HelpHead[1]]);
  }

  lemma CountsOfFour(a: seq<Out>, b: seq<Out>, c: seq<Out>, d: seq<Out>)
    ensures EntryLines(a + b + c + d) == EntryLines(a) + EntryLines(b) + EntryLines(c) + EntryLines(d)
    ensures RuleCount(a + b + c + d) == RuleCount(a) + RuleCount(b) + RuleCount(c) + RuleCount(d)
  {
    EntryLinesAppend(a, b);
    EntryLinesAppend(a + b, c);
    EntryLinesAppend(a + b + c, d);
  }

  lemma HelpEntryLines(basic: Table, reg: Registry, maxCmds: nat)
    requires WellFormed(basic) && Valid(reg, maxCmds)
    ensures WellFormed(SearchOrder(basic, reg))
    ensures EntryLines(HelpCmd(basic, reg, maxCmds, None)) == Entries(SearchOrder(basic, reg))
  {
    HelpParts(basic, reg, maxCmds);
    UserHelpEntries(reg.slots);
    EntriesAppend(basic, Concat(Present(reg.slots)));
  }

  /** The banner and the closing rule hold no entry and one rule each. */
  lemma HelpTextCounts(eb: seq<Out>, u: seq<Out>)
    requires EntryLines(eb) == eb && RuleCount(eb) == 0
    ensures EntryLines(HelpText(eb, u)) == eb + EntryLines(u)
    ensures RuleCount(HelpText(eb, u)) == RuleCount(u) + 2
  {
    var tail := [Line(Rule)];
    assert EntryLines(tail) == [] && RuleCount(tail) == 1;
    HelpHeadShape();
    CountsAround(HelpHead, eb, u, tail);
  }

  /** Counting through a frame that holds one rule and no entry on either
      side. */
  lemma CountsAround(head: seq<Out>, eb: seq<Out>, u: seq<Out>, tail: seq<Out>)
    requires EntryLines(head) == [] && RuleCount(head) == 1
    requires EntryLines(tail) == [] && RuleCount(tail) == 1
    requires EntryLines(eb) == eb && RuleCount(eb) == 0
    ensures EntryLines(head + eb + u + tail) == eb + EntryLines(u)
    ensures RuleCount(head + eb + u + tail) == RuleCount(u) + 2
  {
    CountsOfFour(head, eb, u, tail);
    EmptyFrame(EntryLines(head), eb, EntryLines(u), EntryLines(tail));
  }

  lemma EmptyFrame(e: seq<Out>, a: seq<Out>, b: seq<Out>, f: seq<Out>)
    requires e == [] && f == []
    ensures e + a + b + f == a + b
  {
  }

  /** The basic table's part holds its entries and no rule. */
  lemma HelpParts(basic: Table, reg: Registry, maxCmds: nat)
    requires WellFormed(basic) && Valid(reg, maxCmds)
    ensures EntryLines(HelpCmd(basic, reg, maxCmds, None)) == Entries(basic) + EntryLines(UserHelp(reg.slots))
    ensures RuleCount(HelpCmd(basic, reg, maxCmds, None)) == RuleCount(UserHelp(reg.slots)) + 2
  {
    EntriesAreEntries(basic);
    HelpTextCounts(Entries(basic), UserHelp(reg.slots));
  }

  lemma HelpRuleCount(basic: Table, reg: Registry, maxCmds: nat)
    requires WellFormed(basic) && Valid(reg, maxCmds)
    ensures RuleCount(HelpCmd(basic, reg, maxCmds, None)) == |Present(reg.slots)| + 2
  {
    HelpParts(basic, reg, maxCmds);
    UserHelpRules(reg.slots);
  }

  /** `help` lists every command that dispatch can reach, once each and in
      search order, framed by one rule per registered table plus the
      heading rule and the closing rule; any attribute makes it refuse. */
  lemma HelpListsSearchOrder(basic: Table, reg: Registry, maxCmds: nat)
    requires WellFormed(basic) && Valid(reg, maxCmds)
    ensures WellFormed(SearchOrder(basic, reg))
    ensures EntryLines(HelpCmd(basic, reg, maxCmds, None)) == Entries(SearchOrder(basic, reg))
    ensures RuleCount(HelpCmd(basic, reg, maxCmds, None)) == |Present(reg.slots)| + 2
    ensures |HelpCmd(basic, reg, maxCmds, None)| == 4 + |SearchOrder(basic, reg)| + |Present(reg.slots)|
    ensures forall a :: HelpCmd(basic, reg, maxCmds, Some(a)) == [Line(UnknownCommand)]
  {
    HelpEntryLines(basic, reg, maxCmds);
    HelpRuleCount(basic, reg, maxCmds);
    UserHelpLength(reg.slots);
  }

  lemma {:induction false} UserHelpLength(slots: seq<Option<Table>>)
    requires forall i :: 0 <= i < |slots| && slots[i].Some? ==> WellFormed(slots[i].value)
    ensures forall t :: t in Present(slots) ==> WellFormed(t)
    ensures |UserHelp(slots)| == |Concat(Present(slots))| + |Present(slots)|
  {
    PresentWellFormedSlots(slots, 0);
    if slots != [] {
      UserHelpLength(slots[1..]);
      if slots[0].Some? {
        assert Present(slots) == [slots[0].value] + Present(slots[1..]);
      } else {
        assert Present(slots) == Present(slots[1..]);
      }
    }
  }

  // ----------------------------------------------------- no-argument commands

  datatype Reply = Reply(out: seq<Out>, resetRequested: bool)

  /** `cli_reset`, `cli_sw_version`, `cli_hw_version`, `cli_proj_info`:
      each answers with one line and refuses any attribute, even an empty
      one, without side effect; only `reset` asks the device to restart. */
  function NoArgCmd(h: Handler, attr: Option<string>): (r: Reply)
    requires h in {Reset, SwVer, HwVer, ProjInfo}
    ensures |r.out| == 1
    ensures r.out == [Line(UnknownCommand)] <==> attr.Some?
    ensures r.resetRequested <==> attr.None? && h == Reset
  {
    if attr.Some? then Reply(Say(UnknownCommand), false)
    else if h == Reset then Reply(Say(Resetting), true)
    else Reply(Say(NotUsed), false)
  }

  // ------------------------------------------------------------- channels

  /** `cli_ch_info`: a five-line banner, one row per channel, a rule. */
  function ChInfoCmd(chEn: seq<bool>, attr: Option<string>): (o: seq<Out>)
    ensures attr.Some? ==> o == [Line(UnknownCommand)]
    ensures attr.None? ==> |o| == |chEn| + 6 && o[0] == Line(Rule) && o[|o| - 1] == Line(Rule)
    ensures attr.None? ==> forall ch :: 0 <= ch < |chEn| ==> o[5 + ch] == Line(ChInfoRow(ch, chEn[ch]))
  {
    if attr.Some? then Say(UnknownCommand)
    else [Line(Rule), Line(ChInfoTitle), Line(Rule), Line(ChInfoColumns), Line(ChInfoUnderline)]
         + ChRows(chEn, 0) + [Line(Rule)]
  }

  function ChRows(chEn: seq<bool>, ch: nat): (o: seq<Out>)
    requires ch <= |chEn|
    ensures |o| == |chEn| - ch
    ensures forall i :: 0 <= i < |o| ==> o[i] == Line(ChInfoRow(ch + i, chEn[ch + i]))
    decreases |chEn| - ch
  {
    if ch == |chEn| then [] else [Line(ChInfoRow(ch, chEn[ch]))] + ChRows(chEn, ch + 1)
  }

  /** The state `ch_info` reports for a channel. */
  function ReportedState(chEn: seq<bool>, ch: nat): (s: Option<bool>)
    requires ch < |chEn|
  {
    var o := ChInfoCmd(chEn, None);
    assert o[5 + ch] == Line(ChInfoRow(ch, chEn[ch]));
    if o[5 + ch].msg.ChInfoRow? && o[5 + ch].msg.ch == ch then Some(o[5 + ch].msg.enabled) else None
  }

  datatype ChEnReply = ChEnReply(chEn: seq<bool>, out: seq<Out>)

  /** `cli_ch_en` with its `%u,%u` scan: a missing or unscannable argument is
      an unknown command, a channel past the last is refused, otherwise the
      flag is stored as the C conversion to `bool` does, assuming the
      configuration module's setter takes a `bool`, and the reply names
      "Enabling" only for the value 1. */
  function ChEnCmd(chEn: seq<bool>, arg: Arg<(nat, nat)>): (r: ChEnReply)
    ensures |r.chEn| == |chEn|
    ensures |r.out| == 1
    ensures !arg.Parsed? ==> r == ChEnReply(chEn, [Line(UnknownCommand)])
    ensures arg.Parsed? && arg.value.0 >= |chEn| ==> r == ChEnReply(chEn, [Line(InvalidChEnum)])
    ensures arg.Parsed? && arg.value.0 < |chEn| ==>
              (forall c :: 0 <= c < |chEn| && c != arg.value.0 ==> r.chEn[c] == chEn[c])
              && (r.chEn[arg.value.0] <==> arg.value.1 != 0)
              && r.out == [Line(ChEnOk(arg.value.1 == 1, arg.value.0))]
  {
    match arg
    case Absent => ChEnReply(chEn, Say(UnknownCommand))
    case Unparsable => ChEnReply(chEn, Say(UnknownCommand))
    case Parsed((ch, en)) =>
      if ch < |chEn| then ChEnReply(chEn[ch := en != 0], Say(ChEnOk(en == 1, ch)))
      else ChEnReply(chEn, Say(InvalidChEnum))
  }

  /** Enabling a channel with `ch_en` is what `ch_info` then reports, and
      the other channels' rows are as before. */
  lemma ChEnThenChInfo(chEn: seq<bool>, ch: nat, en: nat)
    requires ch < |chEn|
    ensures ReportedState(ChEnCmd(chEn, Parsed((ch, en))).chEn, ch) == Some(en != 0)
    ensures forall c :: 0 <= c < |chEn| && c != ch ==>
              ReportedState(ChEnCmd(chEn, Parsed((ch, en))).chEn, c) == ReportedState(chEn, c)
  {
    var after := ChEnCmd(chEn, Parsed((ch, en))).chEn;
    assert ReportedState(after, ch) == Some(after[ch]);
    forall c | 0 <= c < |chEn| && c != ch
      ensures ReportedState(after, c) == ReportedState(chEn, c)
    {
      assert ReportedState(after, c) == Some(after[c]);
      assert ReportedState(chEn, c) == Some(chEn[c]);
    }
  }

  /** The value 2 enables the channel, but the reply says "Disabling": the
      reply compares the flag with `true` while the store converts it. */
  lemma ChEnTwoEnablesButSaysDisabling(chEn: seq<bool>)
    requires |chEn| > 0
    ensures ChEnCmd(chEn, Parsed((0, 2))).chEn[0]
    ensures ChEnCmd(chEn, Parsed((0, 2))).out == [Line(ChEnOk(false, 0))]
  {
  }
}

=== FILE: common.dfy ===
/** Shared vocabulary of the CLI model: optional values, the status codes of
    the C API, handler arguments as seen after `sscanf`, C-string helpers and
    the 32-bit unsigned arithmetic the source relies on. */
module Common {

  /** A C pointer that may be NULL. */
  datatype Option<+T> = None | Some(value: T)

  /** What a command handler receives once its attribute has been scanned:
      the attribute pointer was NULL, the text did not scan, or it scanned
      to a value. */
  datatype Arg<+T> = Absent | Unparsable | Parsed(value: T)

  /** `cli_status_t` is a bit set: callers combine statuses with `|`. */
  type Status = bv8

  const OK: Status := 0
  const ERROR: Status := 1
  const ERROR_INIT: Status := 2
  /** The NVM status is used by cli_nvm.c but is not declared in cli.h; the
      model gives it the next free bit. */
  const ERROR_NVM: Status := 4

  function Or(a: Status, b: Status): (r: Status)
    ensures r == OK <==> a == OK && b == OK
    ensures r & a == a && r & b == b
  {
    a | b
  }

  const NUL: char := '\0'
  const SPACE: char := ' '

  /** The contents of a C string literal: it cannot hold its own terminator. */
  type CString = s: string | NUL !in s

  /** The buffer holds a terminator somewhere, so `strlen` is defined on it. */
  predicate HasNul(s: seq<char>) {
    NUL in s
  }

  /** `strlen`: index of the first NUL. */
  function StrLen(s: seq<char>): (n: nat)
    requires HasNul(s)
    ensures n < |s| && s[n] == NUL
    ensures NUL !in s[..n]
  {
    if s[0] == NUL then 0 else StrLen(s[1..]) + 1
  }

  /** The C string stored at the start of a buffer. */
  function CStr(s: seq<char>): (r: string)
    requires HasNul(s)
    ensures NUL !in r && |r| < |s| && r == s[..|r|] && s[|r|] == NUL
  {
    s[..StrLen(s)]
  }

  const U32_MOD: int := 0x1_0000_0000

  /** Unsigned 32-bit subtraction, wrapping below zero as `uint32_t` does. */
  function Sub32(a: nat, b: nat): (r: nat)
    requires a < U32_MOD && b < U32_MOD
    ensures r < U32_MOD
    ensures b <= a ==> r == a - b
    ensures a < b ==> r == a - b + U32_MOD
  {
    (a - b) % U32_MOD
  }

  function Max(a: nat, b: nat): (r: nat)
    ensures r >= a && r >= b && (r == a || r == b)
  {
    if a >= b then a else b
  }

  /** Sequence concatenation regroups freely. */
  lemma AppendAssoc<T>(a: seq<T>, b: seq<T>, c: seq<T>)
    ensures a + b + c == a + (b + c)
  {
  }
}

=== FILE: livewatch.dfy ===
/** The live-watch (parameter streaming) configuration of cli_par.c: the
    `watch_*` commands, the loop-count scheduler of `cli_par_hndl` and the
    shape of what one streaming step sends. The parameter store is a map
    from parameter ID to parameter number; `sscanf` is abstracted. */
module LiveWatch {
  import opened Common
  import opened Text

  /** `CLI_CFG_PAR_MAX_IN_LIVE_WATCH`, `CLI_CFG_PAR_HNDL_PERIOD_MS` and
      `CLI_CFG_PAR_DEF_LIVE_WATCH_PER_MS`. */
  datatype WatchCfg = WatchCfg(maxIn: nat, hndlPeriod: nat, defPeriod: nat)

  /** `num_of` is a `uint8_t` and can reach `maxIn + 1`; the default period
      is a valid one. */
  predicate CfgValid(k: WatchCfg) {
    1 <= k.maxIn < 255 && 1 <= k.hndlPeriod && k.hndlPeriod <= k.defPeriod <= MAX_PERIOD
  }

  /** The longest accepted streaming period, in milliseconds. */
  const MAX_PERIOD: nat := 60000

  /** `cli_live_watch_t`: `parList` is the fixed array of parameter numbers
      (not IDs), of which the first `numOf` are streamed. */
  datatype Watch = Watch(parList: seq<nat>, numOf: nat, period: nat, periodCnt: nat, active: bool)

  predicate Valid(k: WatchCfg, w: Watch) {
    && |w.parList| == k.maxIn && w.numOf <= k.maxIn
    && 0 < k.hndlPeriod <= w.period <= MAX_PERIOD
    && w.periodCnt == w.period / k.hndlPeriod
  }

  /** The static initialiser of `g_cli_live_watch` (cli_par.c:126-133). */
  function Initial(k: WatchCfg): (w: Watch)
    requires CfgValid(k)
    ensures Valid(k, w) && !w.active && w.numOf == 0 && w.periodCnt >= 1
  {
    Watch(seq(k.maxIn, _ => 0), 0, k.defPeriod, k.defPeriod / k.hndlPeriod, false)
  }

  /** A valid configuration streams at least every handler call. */
  lemma PeriodCountPositive(k: WatchCfg, w: Watch)
    requires CfgValid(k) && Valid(k, w)
    ensures 1 <= w.periodCnt < U32_MOD
  {
  }

  datatype Reply = Reply(w: Watch, out: seq<Out>)

  /** `cli_watch_start`: streaming starts only with a non-empty list. */
  function WatchStart(w: Watch, attr: Option<string>): (r: Reply)
    ensures attr.Some? ==> r == Reply(w, Say(UnknownCommand))
    ensures attr.None? && w.numOf > 0 ==> r == Reply(w.(active := true), Say(StreamStarted))
    ensures attr.None? && w.numOf == 0 ==> r == Reply(w, Say(StreamListEmpty))
  {
    if attr.Some? then Reply(w, Say(UnknownCommand))
    else if w.numOf > 0 then Reply(w.(active := true), Say(StreamStarted))
    else Reply(w, Say(StreamListEmpty))
  }

  /** `cli_watch_stop`: streaming always stops. */
  function WatchStop(w: Watch, attr: Option<string>): (r: Reply)
    ensures attr.Some? ==> r == Reply(w, Say(UnknownCommand))
    ensures attr.None? ==> r == Reply(w.(active := false), Say(StreamStopped))
  {
    if attr.Some? then Reply(w, Say(UnknownCommand))
    else Reply(w.(active := false), Say(StreamStopped))
  }

  /** Whether the streaming flag is set after a start. */
  lemma StartNeedsList(w: Watch, attr: Option<string>)
    ensures WatchStart(w, attr).w.active <==> w.active || (attr.None? && w.numOf > 0)
    ensures WatchStart(w, attr).w.(active := w.active) == w
    ensures !WatchStop(w, attr).w.active <==> attr.None? || !w.active
  {
  }

  /** `cli_watch_rate`: `%d` is read into a `uint32_t` through an `int*`,
      so a negative number becomes its two's-complement reading. */
  function WatchRate(k: WatchCfg, w: Watch, arg: Arg<int>): (r: Reply)
    requires CfgValid(k) && Valid(k, w)
    ensures Valid(k, r.w)
    ensures r.w.parList == w.parList && r.w.numOf == w.numOf && r.w.active == w.active
    ensures |r.out| == 1
    ensures arg.Absent? ==> r == Reply(w, Say(UnknownCommand))
    ensures arg.Unparsable? ==> r == Reply(w, Say(WrongCommand))
    ensures arg.Parsed? ==>
              var p := arg.value % U32_MOD;
              (r.out == Say(PeriodChanged(p)) <==> k.hndlPeriod <= p <= MAX_PERIOD && p % k.hndlPeriod == 0)
    ensures r.out[0].Line? && r.out[0].msg.PeriodChanged? ==>
              r.w.period == r.out[0].msg.period && r.w.periodCnt * k.hndlPeriod == r.w.period
    ensures !(r.out[0].Line? && r.out[0].msg.PeriodChanged?) ==> r.w == w
  {
    match arg
    case Absent => Reply(w, Say(UnknownCommand))
    case Unparsable => Reply(w, Say(WrongCommand))
    case Parsed(v) =>
      var p := v % U32_MOD;
      if k.hndlPeriod <= p <= MAX_PERIOD then
        if p % k.hndlPeriod == 0 then
          Reply(w.(period := p, periodCnt := p / k.hndlPeriod), Say(PeriodChanged(p)))
        else Reply(w, Say(PeriodNotMultiple))
      else Reply(w, Say(PeriodOutOfRange))
  }

  /** Which rejection a bad period gets: the range is checked first. */
  lemma RateRejections(k: WatchCfg, w: Watch, v: int)
    requires CfgValid(k) && Valid(k, w)
    ensures var p := v % U32_MOD;
            && (!(k.hndlPeriod <= p <= MAX_PERIOD) ==> WatchRate(k, w, Parsed(v)).out == Say(PeriodOutOfRange))
            && (k.hndlPeriod <= p <= MAX_PERIOD && p % k.hndlPeriod != 0 ==>
                  WatchRate(k, w, Parsed(v)).out == Say(PeriodNotMultiple))
  {
  }

  // ------------------------------------------------------------ watch_channel

  /** The watch-list loop as the code writes it (cli_par.c:717-751): the
      guard `num_of <= MAX` admits one ID more than the array holds. The
      array writes are recorded as (index, parameter number) pairs so that an
      out-of-range index can be seen. `i` is the next scanned ID. */
  datatype Put = Put(slot: nat, num: nat)

  datatype ScanOut = ScanOut(writes: seq<Put>, numOf: nat, missing: Option<nat>)

  function ScanAsWritten(maxIn: nat, byId: map<nat, nat>, ids: seq<nat>, i: nat, numOf: nat): (s: ScanOut)
    requires i <= |ids|
    ensures numOf <= maxIn + 1 ==> s.numOf <= maxIn + 1
    ensures s.missing.Some? ==> s.numOf == 0 && s.missing.value in ids[i..] && s.missing.value !in byId
    ensures s.missing.None? ==> s.numOf == numOf + |s.writes| && i + |s.writes| <= |ids|
    decreases |ids| - i
  {
    if numOf <= maxIn && i < |ids| then
      if ids[i] in byId then
        var rest := ScanAsWritten(maxIn, byId, ids, i + 1, numOf + 1);
        rest.(writes := [Put(numOf, byId[ids[i]])] + rest.writes)
      else ScanOut([], 0, Some(ids[i]))
    else ScanOut([], numOf, None)
  }

  /** The same loop with the array write guarded by `num_of < MAX`: it
      still reads one ID more than the array holds, so that the range check
      after it can tell an over-long list, but never stores it. */
  function Scan(maxIn: nat, byId: map<nat, nat>, ids: seq<nat>, i: nat, numOf: nat): (s: ScanOut)
    requires i <= |ids|
    decreases |ids| - i
  {
    if numOf <= maxIn && i < |ids| then
      if ids[i] in byId then
        var rest := Scan(maxIn, byId, ids, i + 1, numOf + 1);
        if numOf < maxIn then rest.(writes := [Put(numOf, byId[ids[i]])] + rest.writes) else rest
      else ScanOut([], 0, Some(ids[i]))
    else ScanOut([], numOf, None)
  }

  /** The parameter numbers of `ids[i..j]`, all known. */
  predicate AllKnown(byId: map<nat, nat>, ids: seq<nat>) {
    forall j :: 0 <= j < |ids| ==> ids[j] in byId
  }

  function Numbers(byId: map<nat, nat>, ids: seq<nat>): (nums: seq<nat>)
    requires AllKnown(byId, ids)
    ensures |nums| == |ids| && forall j :: 0 <= j < |ids| ==> nums[j] == byId[ids[j]]
  {
    seq(|ids|, j requires 0 <= j < |ids| => byId[ids[j]])
  }

  /** What a scan starting at ID `i` with `numOf` entries ends with:
      writes go to consecutive slots from `numOf`, each storing the number
      of the next ID, none at or past `maxIn`. It stops when the IDs run
      out, when one known ID more than the array holds has been counted
      (leaving `maxIn + 1`), or when an unknown ID empties the list. */
  predicate ScanShape(maxIn: nat, byId: map<nat, nat>, ids: seq<nat>, i: nat, numOf: nat, s: ScanOut) {
    && i <= |ids|
    && s.numOf <= maxIn + 1
    && |s.writes| <= |ids| - i
    && (forall j :: 0 <= j < |s.writes| ==> PutAt(maxIn, byId, ids, i, numOf, s.writes, j))
    && (s.missing.None? && s.numOf <= maxIn ==> s.numOf == numOf + |s.writes| && i + |s.writes| == |ids|)
    && (s.numOf == maxIn + 1 ==>
          && s.missing.None? && numOf + |s.writes| == maxIn && i + |s.writes| < |ids|
          && ids[i + |s.writes|] in byId)
    && (s.missing.Some? ==> s.numOf == 0 && i + |s.writes| < |ids| && numOf + |s.writes| <= maxIn
                            && ids[i + |s.writes|] !in byId && s.missing.value == ids[i + |s.writes|])
  }

  /** Write `j` of a scan from ID `i`: slot `numOf + j`, below `maxIn`,
      holding the number of ID `i + j`. */
  predicate PutAt(maxIn: nat, byId: map<nat, nat>, ids: seq<nat>, i: nat, numOf: nat, writes: seq<Put>, j: nat)
    requires j < |writes|
  {
    && writes[j].slot == numOf + j < maxIn
    && i + j < |ids| && ids[i + j] in byId && writes[j].num == byId[ids[i + j]]
  }

  lemma {:induction false} ScanBounds(maxIn: nat, byId: map<nat, nat>, ids: seq<nat>, i: nat, numOf: nat)
    requires i <= |ids| && numOf <= maxIn
    ensures ScanShape(maxIn, byId, ids, i, numOf, Scan(maxIn, byId, ids, i, numOf))
    decreases |ids| - i
  {
    if numOf < maxIn && i < |ids| && ids[i] in byId {
      ScanBounds(maxIn, byId, ids, i + 1, numOf + 1);
      var rest := Scan(maxIn, byId, ids, i + 1, numOf + 1);
      var s := Scan(maxIn, byId, ids, i, numOf);
      assert s.writes == [Put(numOf, byId[ids[i]])] + rest.writes;
      forall j | 0 <= j < |s.writes|
        ensures PutAt(maxIn, byId, ids, i, numOf, s.writes, j)
      {
        if j > 0 {
          assert PutAt(maxIn, byId, ids, i + 1, numOf + 1, rest.writes, j - 1);
          assert s.writes[j] == rest.writes[j - 1];
        }
      }
    } else if numOf == maxIn && i < |ids| && ids[i] in byId {
      assert Scan(maxIn, byId, ids, i, numOf) == ScanOut([], maxIn + 1, None);
    }
  }

  /** The corrected loop counts, stops and reports exactly as the loop as
      written does; it only leaves out the store past the array, so its
      writes are a prefix of those as written, and the same writes when the
      count stays within the array. */
  lemma {:induction false} ScanCountsAsWritten(maxIn: nat, byId: map<nat, nat>, ids: seq<nat>, i: nat, numOf: nat)
    requires i <= |ids|
    ensures var s := Scan(maxIn, byId, ids, i, numOf);
            var a := ScanAsWritten(maxIn, byId, ids, i, numOf);
            && s.numOf == a.numOf && s.missing == a.missing && s.writes <= a.writes
            && (a.numOf <= maxIn ==> s.writes == a.writes)
    decreases |ids| - i
  {
    if numOf <= maxIn && i < |ids| && ids[i] in byId {
      ScanCountsAsWritten(maxIn, byId, ids, i + 1, numOf + 1);
    }
  }

  /** The writes of a scan from the first ID, one quantifier per fact. */
  lemma ScanWrites(maxIn: nat, byId: map<nat, nat>, ids: seq<nat>, numOf: nat, s: ScanOut)
    requires ScanShape(maxIn, byId, ids, 0, numOf, s)
    ensures forall j :: 0 <= j < |s.writes| ==> s.writes[j].slot == numOf + j < maxIn
    ensures forall j :: 0 <= j < |s.writes| ==> ids[j] in byId && s.writes[j].num == byId[ids[j]]
  {
    forall j | 0 <= j < |s.writes|
      ensures s.writes[j].slot == numOf + j < maxIn
      ensures ids[j] in byId && s.writes[j].num == byId[ids[j]]
    {
      assert PutAt(maxIn, byId, ids, 0, numOf, s.writes, j);
      assert ids[0 + j] == ids[j];
    }
  }

  /** As written, the loop can write at index `maxIn` and leave
      `num_of == maxIn + 1`: it happens whenever `maxIn + 1` known IDs are
      given. */
  lemma {:induction false} AsWrittenOverrunsFrom(maxIn: nat, byId: map<nat, nat>, ids: seq<nat>, i: nat, numOf: nat)
    requires i <= |ids| && numOf <= maxIn + 1 && AllKnown(byId, ids)
    requires |ids| - i >= maxIn + 1 - numOf
    ensures var s := ScanAsWritten(maxIn, byId, ids, i, numOf);
            s.numOf == maxIn + 1 && s.missing.None?
            && |s.writes| == maxIn + 1 - numOf
            && (numOf <= maxIn ==> s.writes[|s.writes| - 1].slot == maxIn)
    decreases |ids| - i
  {
    if numOf <= maxIn {
      AsWrittenOverrunsFrom(maxIn, byId, ids, i + 1, numOf + 1);
    }
  }

  lemma AsWrittenOverruns(maxIn: nat, byId: map<nat, nat>, ids: seq<nat>)
    requires AllKnown(byId, ids) && |ids| == maxIn + 1
    ensures ScanAsWritten(maxIn, byId, ids, 0, 0).numOf == maxIn + 1
    ensures Put(maxIn, byId[ids[maxIn]]) in ScanAsWritten(maxIn, byId, ids, 0, 0).writes
  {
    AsWrittenOverrunsFrom(maxIn, byId, ids, 0, 0);
    AsWrittenWrites(maxIn, byId, ids, 0, 0);
    var s := ScanAsWritten(maxIn, byId, ids, 0, 0);
    assert |s.writes| == maxIn + 1;
    assert WrittenAt(byId, ids, 0, 0, s.writes, maxIn);
    assert s.writes[maxIn] == Put(maxIn, byId[ids[maxIn]]);
  }

  /** Write `j` of the loop as written from ID `i`: slot `numOf + j`,
      holding the number of ID `i + j`. */
  predicate WrittenAt(byId: map<nat, nat>, ids: seq<nat>, i: nat, numOf: nat, writes: seq<Put>, j: nat)
    requires j < |writes|
  {
    i + j < |ids| && ids[i + j] in byId && writes[j] == Put(numOf + j, byId[ids[i + j]])
  }

  /** Each as-written write stores the next ID's number at the next slot. */
  lemma AsWrittenWrites(maxIn: nat, byId: map<nat, nat>, ids: seq<nat>, i: nat, numOf: nat)
    requires i <= |ids|
    ensures var s := ScanAsWritten(maxIn, byId, ids, i, numOf);
            |s.writes| <= |ids| - i && forall j :: 0 <= j < |s.writes| ==> WrittenAt(byId, ids, i, numOf, s.writes, j)
    ensures var s := ScanAsWritten(maxIn, byId, ids, i, numOf);
            forall j :: 0 <= j < |s.writes| ==> s.writes[j].slot == numOf + j
  {
    var s := ScanAsWritten(maxIn, byId, ids, i, numOf);
    forall j | 0 <= j < |s.writes|
      ensures WrittenAt(byId, ids, i, numOf, s.writes, j) && s.writes[j].slot == numOf + j
    {
      AsWrittenWriteAt(maxIn, byId, ids, i, numOf, j);
    }
    if 0 < |s.writes| {
      AsWrittenWriteAt(maxIn, byId, ids, i, numOf, |s.writes| - 1);
    }
  }

  /** The `j`-th as-written write, one index at a time. */
  lemma {:induction false} AsWrittenWriteAt(maxIn: nat, byId: map<nat, nat>, ids: seq<nat>, i: nat, numOf: nat, j: nat)
    requires i <= |ids| && j < |ScanAsWritten(maxIn, byId, ids, i, numOf).writes|
    ensures i + j < |ids| && ids[i + j] in byId
    ensures ScanAsWritten(maxIn, byId, ids, i, numOf).writes[j] == Put(numOf + j, byId[ids[i + j]])
    decreases j
  {
    var s := ScanAsWritten(maxIn, byId, ids, i, numOf);
    assert numOf <= maxIn && i < |ids| && ids[i] in byId;
    var rest := ScanAsWritten(maxIn, byId, ids, i + 1, numOf + 1);
    assert s.writes == [Put(numOf, byId[ids[i]])] + rest.writes;
    if j > 0 {
      AsWrittenWriteAt(maxIn, byId, ids, i + 1, numOf + 1, j - 1);
      assert s.writes[j] == rest.writes[j - 1];
    }
  }

  /** Within capacity the fix changes nothing: with at most `maxIn` IDs both
      loops make the same writes and end the same way. */
  lemma {:induction false} ScanAgreesWithinCapacity(maxIn: nat, byId: map<nat, nat>, ids: seq<nat>, i: nat, numOf: nat)
    requires i <= |ids| && numOf + (|ids| - i) <= maxIn
    ensures ScanAsWritten(maxIn, byId, ids, i, numOf) == Scan(maxIn, byId, ids, i, numOf)
    decreases |ids| - i
  {
    if i < |ids| && ids[i] in byId {
      ScanAgreesWithinCapacity(maxIn, byId, ids, i + 1, numOf + 1);
    }
  }

  /** Stores the recorded writes into the array. */
  function Apply(list: seq<nat>, writes: seq<Put>): (r: seq<nat>)
    requires forall j :: 0 <= j < |writes| ==> writes[j].slot < |list|
    ensures |r| == |list|
    decreases |writes|
  {
    if writes == [] then list
    else Apply(list[writes[0].slot := writes[0].num], writes[1..])
  }

  lemma {:induction false} ApplyConsecutive(list: seq<nat>, writes: seq<Put>, base: nat)
    requires forall j :: 0 <= j < |writes| ==> writes[j].slot == base + j
    requires base + |writes| <= |list|
    ensures forall j :: 0 <= j < |list| ==>
              Apply(list, writes)[j] == if base <= j < base + |writes| then writes[j - base].num else list[j]
    decreases |writes|
  {
    if writes != [] {
      assert writes[0].slot == base;
      var list' := list[base := writes[0].num];
      var rest := writes[1..];
      forall j | 0 <= j < |rest|
        ensures rest[j].slot == base + 1 + j
      {
        assert rest[j] == writes[j + 1];
      }
      ApplyConsecutive(list', rest, base + 1);
    }
  }

  /** What a successful `watch_channel` sends: the period, one name per
      listed parameter, then the line terminator (cli_par.c:754-776). */
  function ListReply(w: Watch): seq<Out>
    requires w.numOf <= |w.parList|
  {
    [Raw(WatchPeriod(w.period))] + seq(w.numOf, j requires 0 <= j < w.numOf => Raw(WatchName(w.parList[j])))
    + [Line(Empty)]
  }

  /** `cli_watch_channel` with the corrected loop. `ids` are the numbers
      the successive `%hu` conversions read, up to the first that fails. The
      range check of cli_par.c:754-755 is the code's own; a list longer than
      the array fails it and is emptied, as an unknown ID empties it. */
  function WatchChannel(k: WatchCfg, w: Watch, byId: map<nat, nat>, ids: Option<seq<nat>>): (r: Reply)
    requires CfgValid(k) && Valid(k, w)
    ensures Valid(k, r.w)
  {
    match ids
    case None => Reply(w, Say(UnknownCommand))
    case Some(ids) =>
      var s := Scan(k.maxIn, byId, ids, 0, 0);
      ScanBounds(k.maxIn, byId, ids, 0, 0);
      ScanWrites(k.maxIn, byId, ids, 0, s);
      var w' := w.(parList := Apply(w.parList, s.writes), numOf := if s.numOf <= k.maxIn then s.numOf else 0);
      if 0 < s.numOf <= k.maxIn then Reply(w', ListReply(w'))
      else if s.missing.None? then Reply(w', Say(InvalidStreamCount))
      else Reply(w', Say(WatchIdMissing(s.missing.value)))
  }

  /** A list of at most `maxIn` known IDs is stored in input order, the
      rest of the array is unchanged, and the reply is the period and the
      names (or the range error for an empty list). A longer list of known
      IDs is refused with the range error and leaves the list empty. The
      first unknown ID among those read empties the list and is the only
      thing reported. Period, rate and the streaming flag never change. */
  lemma WatchChannelList(k: WatchCfg, w: Watch, byId: map<nat, nat>, ids: seq<nat>)
    requires CfgValid(k) && Valid(k, w)
    ensures var r := WatchChannel(k, w, byId, Some(ids));
            var n := if |ids| <= k.maxIn then |ids| else k.maxIn + 1;
            && r.w.period == w.period && r.w.periodCnt == w.periodCnt && r.w.active == w.active
            && (AllKnown(byId, ids[..n]) && |ids| <= k.maxIn ==>
                  r.w.numOf == n && r.w.parList[..n] == Numbers(byId, ids)
                  && r.w.parList[n..] == w.parList[n..]
                  && r.out == if n == 0 then Say(InvalidStreamCount) else ListReply(r.w))
            && (AllKnown(byId, ids[..n]) && k.maxIn < |ids| ==>
                  r.w.numOf == 0 && r.out == Say(InvalidStreamCount)
                  && r.w.parList == Numbers(byId, ids[..k.maxIn]))
            && (!AllKnown(byId, ids[..n]) ==>
                  exists j :: 0 <= j < n && ids[j] !in byId && AllKnown(byId, ids[..j])
                              && r.w.numOf == 0 && r.out == Say(WatchIdMissing(ids[j])))
  {
    var n := if |ids| <= k.maxIn then |ids| else k.maxIn + 1;
    var s := Scan(k.maxIn, byId, ids, 0, 0);
    ScanBounds(k.maxIn, byId, ids, 0, 0);
    ScanWrites(k.maxIn, byId, ids, 0, s);
    ApplyConsecutive(w.parList, s.writes, 0);
    var r := WatchChannel(k, w, byId, Some(ids));
    if s.missing.None? && s.numOf <= k.maxIn {
      assert |s.writes| == n == |ids|;
      forall j | 0 <= j < n ensures ids[..n][j] in byId {
        assert s.writes[j].num == byId[ids[j]];
        assert ids[..n][j] == ids[j];
      }
      assert r.w.parList[..n] == Numbers(byId, ids);
      assert r.w.parList[n..] == w.parList[n..];
    } else if s.missing.None? {
      assert |s.writes| == k.maxIn && n == k.maxIn + 1;
      forall j | 0 <= j < n ensures ids[..n][j] in byId {
        if j < k.maxIn {
          assert s.writes[j].num == byId[ids[j]];
        }
        assert ids[..n][j] == ids[j];
      }
      assert r.w.parList == Numbers(byId, ids[..k.maxIn]);
    } else {
      var j := |s.writes|;
      assert j < n;
      forall m | 0 <= m < j ensures ids[..j][m] in byId {
        assert s.writes[m].num == byId[ids[m]];
        assert ids[..j][m] == ids[m];
      }
      assert !AllKnown(byId, ids[..n]) by {
        assert ids[..n][j] == ids[j];
      }
    }
  }

  /** `cli_watch_channel` as written: the loop of `ScanAsWritten`, then
      the range check. Its store at index `maxIn` falls outside `par_list`
      and is not applied here; the count it leaves behind is kept. */
  function WatchChannelAsWritten(k: WatchCfg, w: Watch, byId: map<nat, nat>, ids: Option<seq<nat>>): (r: Reply)
    requires CfgValid(k) && Valid(k, w)
    ensures |r.w.parList| == k.maxIn && r.w.numOf <= k.maxIn + 1
  {
    match ids
    case None => Reply(w, Say(UnknownCommand))
    case Some(ids) =>
      var s := ScanAsWritten(k.maxIn, byId, ids, 0, 0);
      ScanCountsAsWritten(k.maxIn, byId, ids, 0, 0);
      ScanBounds(k.maxIn, byId, ids, 0, 0);
      AsWrittenWrites(k.maxIn, byId, ids, 0, 0);
      var inside := if |s.writes| <= k.maxIn then s.writes else s.writes[..k.maxIn];
      var w' := w.(parList := Apply(w.parList, inside), numOf := s.numOf);
      if 0 < s.numOf <= k.maxIn then Reply(w', ListReply(w'))
      else if s.missing.None? then Reply(w', Say(InvalidStreamCount))
      else Reply(w', Say(WatchIdMissing(s.missing.value)))
  }

  /** As written, `maxIn + 1` known IDs are refused with the range error,
      yet `num_of` stays at `maxIn + 1`, and a following `watch_start`
      turns streaming on over that list, one entry longer than the array. */
  lemma AsWrittenKeepsOverlong(k: WatchCfg, w: Watch, byId: map<nat, nat>, ids: seq<nat>)
    requires CfgValid(k) && Valid(k, w) && AllKnown(byId, ids) && |ids| == k.maxIn + 1
    ensures var r := WatchChannelAsWritten(k, w, byId, Some(ids));
            && r.out == Say(InvalidStreamCount) && r.w.numOf == k.maxIn + 1
            && WatchStart(r.w, None) == Reply(r.w.(active := true), Say(StreamStarted))
  {
    AsWrittenOverrunsFrom(k.maxIn, byId, ids, 0, 0);
  }

  /** The two handlers differ only on an over-long list: whenever the
      loop as written stays within the array, they give the same block and
      the same reply. */
  lemma ChannelAgreesWithinCapacity(k: WatchCfg, w: Watch, byId: map<nat, nat>, ids: Option<seq<nat>>)
    requires CfgValid(k) && Valid(k, w)
    requires ids.Some? ==> ScanAsWritten(k.maxIn, byId, ids.value, 0, 0).numOf <= k.maxIn
    ensures WatchChannelAsWritten(k, w, byId, ids) == WatchChannel(k, w, byId, ids)
  {
    if ids.Some? {
      var s := Scan(k.maxIn, byId, ids.value, 0, 0);
      ScanCountsAsWritten(k.maxIn, byId, ids.value, 0, 0);
      ScanBounds(k.maxIn, byId, ids.value, 0, 0);
      ScanWrites(k.maxIn, byId, ids.value, 0, s);
      assert |s.writes| <= k.maxIn by {
        if 0 < |s.writes| {
          assert s.writes[|s.writes| - 1].slot == |s.writes| - 1 < k.maxIn;
        }
      }
    }
  }

  // ------------------------------------------------------------- streaming

  /** `cli_par_live_watch_hndl`: one record of the listed parameters'
      values, only while streaming is on and the list is not empty.
      `value` is what the store returns for a parameter number. A record
      carries exactly `numOf` values, in list order, `numOf - 1` commas and
      one line terminator. */
  function LiveWatchOut(w: Watch, value: map<nat, int>): (o: seq<Out>)
    requires w.numOf <= |w.parList|
    requires forall j :: 0 <= j < w.numOf ==> w.parList[j] in value
    ensures o == [] <==> !w.active || w.numOf == 0
    ensures o != [] ==> |ValuesOf(o)| == w.numOf && CommasOf(o) == w.numOf - 1 && LinesOf(o) == 1
    ensures o != [] ==> forall j :: 0 <= j < w.numOf ==> ValuesOf(o)[j] == value[w.parList[j]]
  {
    if w.active && w.numOf > 0 then
      var vals := seq(w.numOf, j requires 0 <= j < w.numOf => value[w.parList[j]]);
      RowShape(vals);
      Row(vals)
    else []
  }

  /** `cli_par_hndl`: the static `loop_cnt` against `period_cnt - 1` in
      32-bit arithmetic. Returns the new count and whether it fired. */
  function Tick(periodCnt: nat, loopCnt: nat): (r: (nat, bool))
    requires periodCnt < U32_MOD
    ensures r.1 <==> loopCnt >= Sub32(periodCnt, 1)
    ensures r.1 ==> r.0 == 0
    ensures !r.1 ==> r.0 == loopCnt + 1
  {
    if loopCnt >= Sub32(periodCnt, 1) then (0, true) else (loopCnt + 1, false)
  }

  /** `n` calls of the handler: the final count and how many fired. */
  function Ticks(periodCnt: nat, loopCnt: nat, n: nat): (r: (nat, nat))
    requires periodCnt < U32_MOD
    decreases n
  {
    if n == 0 then (loopCnt, 0)
    else
      var (c, fired) := Tick(periodCnt, loopCnt);
      var (c', f) := Ticks(periodCnt, c, n - 1);
      (c', f + if fired then 1 else 0)
  }

  /** Below the threshold the counter just counts. */
  lemma {:induction false} TicksQuiet(periodCnt: nat, loopCnt: nat, n: nat)
    requires 1 <= periodCnt < U32_MOD && loopCnt + n < periodCnt
    ensures Ticks(periodCnt, loopCnt, n) == (loopCnt + n, 0)
    decreases n
  {
    if n > 0 {
      TicksQuiet(periodCnt, loopCnt + 1, n - 1);
    }
  }

  /** From zero, one period of calls fires once, on its last call, and
      brings the counter back to zero. */
  lemma TicksOnePeriod(periodCnt: nat)
    requires 1 <= periodCnt < U32_MOD
    ensures Ticks(periodCnt, 0, periodCnt) == (0, 1)
    ensures forall n :: 0 <= n < periodCnt ==> Ticks(periodCnt, 0, n).1 == 0
  {
    forall n | 0 <= n < periodCnt
      ensures Ticks(periodCnt, 0, n).1 == 0
    {
      TicksQuiet(periodCnt, 0, n);
    }
    TicksQuiet(periodCnt, 0, periodCnt - 1);
    TicksSplit(periodCnt, 0, periodCnt - 1, 1);
  }

  lemma {:induction false} TicksSplit(periodCnt: nat, loopCnt: nat, a: nat, b: nat)
    requires periodCnt < U32_MOD
    ensures Ticks(periodCnt, loopCnt, a + b)
            == (Ticks(periodCnt, Ticks(periodCnt, loopCnt, a).0, b).0,
                Ticks(periodCnt, loopCnt, a).1 + Ticks(periodCnt, Ticks(periodCnt, loopCnt, a).0, b).1)
    decreases a
  {
    if a > 0 {
      TicksSplit(periodCnt, Tick(periodCnt, loopCnt).0, a - 1, b);
    }
  }

  /** The handler streams exactly once every `periodCnt` calls: `m` whole
      periods from zero fire `m` times and end at zero. */
  lemma {:induction false} TicksPeriodic(periodCnt: nat, m: nat)
    requires 1 <= periodCnt < U32_MOD
    ensures Ticks(periodCnt, 0, m * periodCnt) == (0, m)
    decreases m
  {
    if m > 0 {
      TicksOnePeriod(periodCnt);
      TicksPeriodic(periodCnt, m - 1);
      assert m * periodCnt == periodCnt + (m - 1) * periodCnt;
      TicksSplit(periodCnt, 0, periodCnt, (m - 1) * periodCnt);
    }
  }

  /** One call of `cli_par_hndl`: the new count and what it sends. */
  function ParHndl(w: Watch, loopCnt: nat, value: map<nat, int>): (r: (nat, seq<Out>))
    requires w.numOf <= |w.parList| && w.periodCnt < U32_MOD
    requires forall j :: 0 <= j < w.numOf ==> w.parList[j] in value
    ensures r.0 == Tick(w.periodCnt, loopCnt).0
    ensures r.1 != [] <==> Tick(w.periodCnt, loopCnt).1 && w.active && w.numOf > 0
    ensures r.1 != [] ==> r.1 == LiveWatchOut(w, value)
  {
    var (c, fired) := Tick(w.periodCnt, loopCnt);
    (c, if fired then LiveWatchOut(w, value) else [])
  }
}

=== FILE: lookup.dfy ===
/** Finding the handler for a command line: the basic table first, then
    every registered user table in slot order, each table in declaration
    order, first match wins (cli.c:340-489). */
module Lookup {
  import opened Common
  import opened Splitter
  import opened Registry

  /** `strncmp(a, b, n) == 0`: equal up to `n` characters, stopping early
      at a NUL both strings share. */
  function StrNCmpEq(a: seq<char>, b: seq<char>, n: nat): bool
    requires HasNul(a) && HasNul(b)
    decreases n
  {
    if n == 0 then true
    else if a[0] != b[0] then false
    else if a[0] == NUL then true
    else
      assert a[StrLen(a)] == NUL && StrLen(a) > 0 && a[1..][StrLen(a) - 1] == NUL;
      assert b[StrLen(b)] == NUL && StrLen(b) > 0 && b[1..][StrLen(b) - 1] == NUL;
      StrNCmpEq(a[1..], b[1..], n - 1)
  }

  /** What the comparison means: every position below `n`, up to and
      including the first NUL of `a`, holds the same character in both. */
  lemma {:induction false} StrNCmpEqMeans(a: seq<char>, b: seq<char>, n: nat)
    requires HasNul(a) && HasNul(b)
    ensures StrNCmpEq(a, b, n) <==>
              forall i :: 0 <= i < n && i <= StrLen(a) ==> i < |b| && a[i] == b[i]
    decreases n
  {
    if n > 0 && a[0] == b[0] && a[0] != NUL {
      assert a[StrLen(a)] == NUL && StrLen(a) > 0 && a[1..][StrLen(a) - 1] == NUL;
      assert b[StrLen(b)] == NUL && StrLen(b) > 0 && b[1..][StrLen(b) - 1] == NUL;
      StrNCmpEqMeans(a[1..], b[1..], n - 1);
      assert StrLen(a[1..]) == StrLen(a) - 1;
      var a', b' := a[1..], b[1..];
      if StrNCmpEq(a, b, n) {
        forall i | 0 <= i < n && i <= StrLen(a)
          ensures i < |b| && a[i] == b[i]
        {
          if i > 0 {
            assert a[i] == a'[i - 1] && b[i] == b'[i - 1];
          }
        }
      } else {
        var j :| 0 <= j < n - 1 && j <= StrLen(a') && !(j < |b'| && a'[j] == b'[j]);
        assert a[j + 1] == a'[j];
        assert !(j + 1 < |b| && a[j + 1] == b[j + 1]);
      }
    } else if n > 0 {
      assert StrLen(a) >= 0;
    }
  }

  /** The test of cli.c:401-405 for one table entry: compare the line with
      the name over the longer of the typed name and the entry's name. */
  predicate Matches(line: seq<char>, cmdSize: nat, c: Command)
    requires HasNul(line) && Complete(c)
  {
    var name := c.name.value + [NUL];
    assert name[|name| - 1] == NUL;
    StrNCmpEq(line, name, Max(cmdSize, |c.name.value|))
  }

  /** The first entry of `t` at or after `i` that matches. */
  function FindFrom(t: Table, line: seq<char>, cmdSize: nat, i: nat): (r: Option<nat>)
    requires HasNul(line) && WellFormed(t) && i <= |t|
    ensures r.Some? ==> i <= r.value < |t| && Matches(line, cmdSize, t[r.value])
                        && forall k :: i <= k < r.value ==> !Matches(line, cmdSize, t[k])
    ensures r.None? ==> forall k :: i <= k < |t| ==> !Matches(line, cmdSize, t[k])
    decreases |t| - i
  {
    if i == |t| then None
    else if Matches(line, cmdSize, t[i]) then Some(i)
    else FindFrom(t, line, cmdSize, i + 1)
  }

  /** The handler of the first matching entry of `cmds`. */
  function FirstHandler(cmds: Table, line: seq<char>, cmdSize: nat): (h: Option<Handler>)
    requires HasNul(line) && WellFormed(cmds)
    ensures h.Some? <==> exists k :: 0 <= k < |cmds| && Matches(line, cmdSize, cmds[k])
    ensures h.Some? ==> exists k :: 0 <= k < |cmds| && Matches(line, cmdSize, cmds[k]) && h == cmds[k].func
                                    && forall j :: 0 <= j < k ==> !Matches(line, cmdSize, cmds[j])
  {
    match FindFrom(cmds, line, cmdSize, 0)
    case None => None
    case Some(k) => cmds[k].func
  }

  /** `cli_basic_table_check_and_exe`, minus the call itself. */
  function BasicCheck(basic: Table, line: seq<char>, cmdSize: nat): (h: Option<Handler>)
    requires HasNul(line) && WellFormed(basic)
    ensures h.Some? <==> exists k :: 0 <= k < |basic| && Matches(line, cmdSize, basic[k])
  {
    FirstHandler(basic, line, cmdSize)
  }

  /** `cli_user_table_check_and_exe`, minus the call: the slots are walked
      in order and NULL slots are skipped. */
  function UserCheck(slots: seq<Option<Table>>, line: seq<char>, cmdSize: nat): (h: Option<Handler>)
    requires HasNul(line)
    requires forall i :: 0 <= i < |slots| && slots[i].Some? ==> WellFormed(slots[i].value)
    ensures h.None? <==> forall i :: 0 <= i < |slots| && slots[i].Some? ==> FirstHandler(slots[i].value, line, cmdSize).None?
    ensures h.Some? ==> exists i :: 0 <= i < |slots| && slots[i].Some? && h == FirstHandler(slots[i].value, line, cmdSize)
                                    && forall j :: 0 <= j < i && slots[j].Some? ==> FirstHandler(slots[j].value, line, cmdSize).None?
  {
    if slots == [] then None
    else if slots[0].Some? && FirstHandler(slots[0].value, line, cmdSize).Some? then
      FirstHandler(slots[0].value, line, cmdSize)
    else UserCheck(slots[1..], line, cmdSize)
  }

  /** The handler `cli_execute_cmd` runs for a line, if any. */
  function FindHandler(basic: Table, reg: Registry, maxCmds: nat, line: seq<char>): (h: Option<Handler>)
    requires HasNul(line) && WellFormed(basic) && Valid(reg, maxCmds)
    ensures WellFormed(SearchOrder(basic, reg))
    ensures var cmds := SearchOrder(basic, reg);
            h.Some? <==> exists k :: 0 <= k < |cmds| && Matches(line, FirstStop(line), cmds[k])
    ensures var cmds := SearchOrder(basic, reg);
            h.Some? ==> exists k :: 0 <= k < |cmds| && Matches(line, FirstStop(line), cmds[k]) && h == cmds[k].func
                                    && forall j :: 0 <= j < k ==> !Matches(line, FirstStop(line), cmds[j])
  {
    var cmdSize := SplitLine(line).cmdSize;
    UserCheckIsConcat(reg.slots, line, cmdSize);
    FirstHandlerAppend(basic, Concat(Present(reg.slots)), line, cmdSize);
    var b := BasicCheck(basic, line, cmdSize);
    if b.Some? then b else UserCheck(reg.slots, line, cmdSize)
  }

  /** All the tables' entries in the order they are searched. */
  function Concat(ts: seq<Table>): Table {
    if ts == [] then [] else ts[0] + Concat(ts[1..])
  }

  lemma {:induction false} ConcatWellFormed(ts: seq<Table>)
    requires forall t :: t in ts ==> WellFormed(t)
    ensures WellFormed(Concat(ts))
  {
    if ts != [] {
      assert forall t :: t in ts[1..] ==> t in ts;
      ConcatWellFormed(ts[1..]);
      assert ts[0] in ts;
    }
  }

  function SearchOrder(basic: Table, reg: Registry): Table {
    basic + Concat(Present(reg.slots))
  }

  lemma {:induction false} FirstHandlerAppend(a: Table, b: Table, line: seq<char>, cmdSize: nat)
    requires HasNul(line) && WellFormed(a) && WellFormed(b)
    ensures WellFormed(a + b)
    ensures FirstHandler(a + b, line, cmdSize)
            == if FirstHandler(a, line, cmdSize).Some? then FirstHandler(a, line, cmdSize)
               else FirstHandler(b, line, cmdSize)
  {
    var ab := a + b;
    var ra := FindFrom(a, line, cmdSize, 0);
    var rb := FindFrom(b, line, cmdSize, 0);
    var r := FindFrom(ab, line, cmdSize, 0);
    if ra.Some? {
      assert ab[ra.value] == a[ra.value];
      assert r.Some? && r.value <= ra.value;
      assert forall k :: 0 <= k < ra.value ==> ab[k] == a[k];
      assert r.value == ra.value;
    } else {
      assert forall k :: 0 <= k < |a| ==> ab[k] == a[k];
      assert forall k :: 0 <= k < |b| ==> ab[|a| + k] == b[k];
      if rb.Some? {
        assert ab[|a| + rb.value] == b[rb.value];
        assert r.Some? && r.value <= |a| + rb.value;
        assert r.value >= |a|;
        assert r.value == |a| + rb.value;
      }
    }
  }

  lemma {:induction false} UserCheckIsConcat(slots: seq<Option<Table>>, line: seq<char>, cmdSize: nat)
    requires HasNul(line)
    requires forall i :: 0 <= i < |slots| && slots[i].Some? ==> WellFormed(slots[i].value)
    ensures forall t :: t in Present(slots) ==> WellFormed(t)
    ensures WellFormed(Concat(Present(slots)))
    ensures UserCheck(slots, line, cmdSize) == FirstHandler(Concat(Present(slots)), line, cmdSize)
  {
    PresentWellFormedSlots(slots, 0);
    ConcatWellFormed(Present(slots));
    if slots != [] {
      var tail := slots[1..];
      UserCheckIsConcat(tail, line, cmdSize);
      if slots[0].Some? {
        var t := slots[0].value;
        assert Present(slots) == [t] + Present(tail);
        assert Concat(Present(slots)) == t + Concat(Present(tail));
        FirstHandlerAppend(t, Concat(Present(tail)), line, cmdSize);
      } else {
        assert Present(slots) == Present(tail);
      }
    }
  }

  /** Dispatch is a first-match search over the basic table followed by the
      registered tables in slot order, each in declaration order. */
  lemma LookupIsFirstInSearchOrder(basic: Table, reg: Registry, maxCmds: nat, line: seq<char>)
    requires HasNul(line) && WellFormed(basic) && Valid(reg, maxCmds)
    ensures WellFormed(SearchOrder(basic, reg))
    ensures FindHandler(basic, reg, maxCmds, line)
            == FirstHandler(SearchOrder(basic, reg), line, SplitLine(line).cmdSize)
  {
    var cmdSize := SplitLine(line).cmdSize;
    UserCheckIsConcat(reg.slots, line, cmdSize);
    FirstHandlerAppend(basic, Concat(Present(reg.slots)), line, cmdSize);
  }

  /** For names without spaces, the length rule of cli.c:402 makes the
      comparison an exact match of the typed name: prefixes of a longer name
      and extensions of a shorter one are both rejected. */
  lemma ExactMatch(line: seq<char>, c: Command)
    requires HasNul(line) && Complete(c) && SPACE !in c.name.value
    ensures Matches(line, FirstStop(line), c) <==> c.name.value == line[..FirstStop(line)]
  {
    var name := c.name.value;
    var nm := name + [NUL];
    var stop := FirstStop(line);
    var n := Max(stop, |name|);
    assert nm[|name|] == NUL;
    StrNCmpEqMeans(line, nm, n);
    assert stop <= StrLen(line) by {
      assert line[StrLen(line)] == NUL;
    }
    assert forall k :: 0 <= k < |name| ==> nm[k] == name[k];
  }

  /** A name that contains a space is matched by a typed line that is only
      its first word followed by the rest of the name as an attribute: the
      comparison length is the stored name's. */
  lemma NameWithSpaceMatchesLongerLine()
    ensures HasNul("a b\0")
    ensures Matches("a b\0", SplitLine("a b\0").cmdSize, Cmd("a b", User(0), ""))
    ensures SplitLine("a b\0").cmdSize == 1
  {
    var line := "a b\0";
    assert line[3] == NUL;
    assert FirstStop(line) == 1 by {
      assert line[0] != NUL && line[0] != SPACE && line[1] == SPACE;
    }
    var c := Cmd("a b", User(0), "");
    StrNCmpEqMeans(line, "a b" + [NUL], 3);
  }

  /** No command name holds a space. */
  predicate NoSpaceNames(cmds: Table) {
    forall j :: 0 <= j < |cmds| ==> cmds[j].name.None? || SPACE !in cmds[j].name.value
  }

  /** Every entry names the command its text selects: when no name holds a
      space, the handler found is the one of the first entry, in search
      order, whose name equals the typed name. */
  lemma LookupFindsFirstEqualName(basic: Table, reg: Registry, maxCmds: nat, line: seq<char>, k: nat)
    requires HasNul(line) && WellFormed(basic) && Valid(reg, maxCmds)
    requires NoSpaceNames(SearchOrder(basic, reg))
    requires k < |SearchOrder(basic, reg)|
    requires SearchOrder(basic, reg)[k].name == Some(line[..FirstStop(line)])
    requires forall j :: 0 <= j < k ==> SearchOrder(basic, reg)[j].name != Some(line[..FirstStop(line)])
    ensures FindHandler(basic, reg, maxCmds, line) == SearchOrder(basic, reg)[k].func
  {
    var cmds := SearchOrder(basic, reg);
    LookupIsFirstInSearchOrder(basic, reg, maxCmds, line);
    forall j | 0 <= j <= k
      ensures Matches(line, FirstStop(line), cmds[j]) <==> j == k
    {
      ExactMatch(line, cmds[j]);
    }
    var r := FindFrom(cmds, line, FirstStop(line), 0);
    assert r == Some(k);
  }

  /** The round trip of registration and dispatch: once a table is
      registered, typing the name of one of its entries runs that entry's
      handler, provided no earlier entry in search order bears the same
      name. */
  lemma RegisterThenLookup(basic: Table, reg: Registry, maxCmds: nat, t: Table, k: nat, rest: seq<char>)
    requires WellFormed(basic) && Valid(reg, maxCmds)
    requires Register(reg, Some(t), maxCmds).status == OK
    requires k < |t|
    requires NoSpaceNames(SearchOrder(basic, reg) + t)
    requires forall j :: 0 <= j < |SearchOrder(basic, reg)| ==> SearchOrder(basic, reg)[j].name != t[k].name
    requires forall j :: 0 <= j < k ==> t[j].name != t[k].name
    ensures t[k].name.Some? && HasNul(t[k].name.value + [NUL] + rest)
    ensures FindHandler(basic, Register(reg, Some(t), maxCmds).reg, maxCmds, t[k].name.value + [NUL] + rest)
            == t[k].func
  {
    var reg' := Register(reg, Some(t), maxCmds).reg;
    assert Complete(t[k]);
    var name := t[k].name.value;
    var line := name + [NUL] + rest;
    var before := SearchOrder(basic, reg);
    assert before + t == SearchOrder(basic, reg') by {
      RegisterAppends(reg, t, maxCmds);
      ConcatAppend(Present(reg.slots), t);
    }
    assert SPACE !in name by {
      assert (before + t)[|before| + k] == t[k];
    }
    FirstStopAfterName(name, NUL, rest);
    assert line[..FirstStop(line)] == name;
    LookupFindsFirstEqualName(basic, reg', maxCmds, line, |before| + k);
  }

  lemma {:induction false} ConcatAppend(ts: seq<Table>, t: Table)
    ensures Concat(ts + [t]) == Concat(ts) + t
  {
    if ts == [] {
      assert [] + [t] == [t];
      assert Concat([t]) == t + Concat([]);
    } else {
      assert (ts + [t])[1..] == ts[1..] + [t];
      ConcatAppend(ts[1..], t);
    }
  }

  /** Registration never changes what an existing command line reaches: a
      line that found a handler before finds the same one after. */
  lemma RegisterKeepsHits(basic: Table, reg: Registry, maxCmds: nat, t: Option<Table>, line: seq<char>)
    requires HasNul(line) && WellFormed(basic) && Valid(reg, maxCmds)
    requires FindHandler(basic, reg, maxCmds, line).Some?
    ensures FindHandler(basic, Register(reg, t, maxCmds).reg, maxCmds, line) == FindHandler(basic, reg, maxCmds, line)
  {
    var res := Register(reg, t, maxCmds);
    if res.status == OK {
      var cmdSize := SplitLine(line).cmdSize;
      var order := SearchOrder(basic, reg);
      LookupIsFirstInSearchOrder(basic, reg, maxCmds, line);
      assert SearchOrder(basic, res.reg) == order + t.value by {
        RegisterAppends(reg, t.value, maxCmds);
        ConcatAppend(Present(reg.slots), t.value);
      }
      assert FindHandler(basic, res.reg, maxCmds, line) == FirstHandler(order + t.value, line, cmdSize) by {
        LookupIsFirstInSearchOrder(basic, res.reg, maxCmds, line);
      }
      FirstHandlerAppend(order, t.value, line, cmdSize);
    }
  }
}

=== FILE: nvm.dfy ===
/** The NVM helpers of cli_nvm.c: the header CRC, the header byte layout
    and the signature writes. The NVM driver is not part of this model: its
    answer is a parameter, a refused call is taken to leave the region as
    it was, and an erased byte reads as a given value. */
module Nvm {
  import opened Common
  import opened Text

  type byte = bv8

  // ------------------------------------------------------------------ CRC

  /** CRC-16-CCITT polynomial and the custom seed of `cli_nvm_calc_crc`. */
  const POLY: bv16 := 0x1021
  const SEED: bv16 := 0x1234

  /** One shift of the register: out goes the top bit, and if it was set
      the polynomial is added. All arithmetic stays in 16 bits. */
  function Shift(crc: bv16): bv16 {
    if crc & 0x8000 != 0 then (crc << 1) ^ POLY else crc << 1
  }

  /** `j` shifts in a row. */
  function Shifts(crc: bv16, j: nat): bv16
    decreases j
  {
    if j == 0 then crc else Shift(Shifts(crc, j - 1))
  }

  /** One byte: added into the high half, then eight shifts. */
  function CrcByte(crc: bv16, b: byte): bv16 {
    Shifts(crc ^ ((b as bv16) << 8), 8)
  }

  /** The register after the bytes of `data`, from `crc` on. */
  function CrcFrom(crc: bv16, data: seq<byte>): bv16
    decreases |data|
  {
    if data == [] then crc else CrcFrom(CrcByte(crc, data[0]), data[1..])
  }

  function Crc(data: seq<byte>): bv16 {
    CrcFrom(SEED, data)
  }

  /** The CRC is a left fold: a message can be processed in two pieces,
      the second continuing from the register the first left. */
  lemma {:induction false} CrcAppend(crc: bv16, a: seq<byte>, b: seq<byte>)
    ensures CrcFrom(crc, a + b) == CrcFrom(CrcFrom(crc, a), b)
    decreases |a|
  {
    if a == [] {
      assert a + b == b;
    } else {
      assert (a + b)[0] == a[0] && (a + b)[1..] == a[1..] + b;
      CrcAppend(CrcByte(crc, a[0]), a[1..], b);
    }
  }

  /** `cli_nvm_calc_crc`: `size` is a `uint8_t` and asserted positive. */
  method CalcCrc(data: seq<byte>) returns (crc: bv16)
    requires 1 <= |data| <= 255
    ensures crc == Crc(data)
  {
    crc := SEED;
    var i := 0;
    while i < |data|
      invariant 0 <= i <= |data|
      invariant CrcFrom(crc, data[i..]) == Crc(data)
    {
      var c := crc ^ ((data[i] as bv16) << 8);
      crc := c;
      var j := 0;
      while j < 8
        invariant 0 <= j <= 8
        invariant crc == Shifts(c, j)
      {
        if crc & 0x8000 != 0 {
          crc := (crc << 1) ^ POLY;
        } else {
          crc := crc << 1;
        }
        j := j + 1;
      }
      assert data[i..][1..] == data[i + 1..];
      i := i + 1;
    }
  }

  // --------------------------------------------------------------- header

  /** Field sizes and addresses of the header (cli_nvm.c:62-111). */
  const SIGN_SIZE: nat := 4
  const PERIOD_SIZE: nat := 4
  const NUMBER_OF_SIZE: nat := 1
  const ACTIVE_SIZE: nat := 1
  const CRC_SIZE: nat := 2

  const HEAD_ADDR: nat := 0
  const SIGN_ADDR: nat := HEAD_ADDR
  const PERIOD_ADDR: nat := SIGN_ADDR + SIGN_SIZE
  const NUMBER_OF_ADDR: nat := PERIOD_ADDR + PERIOD_SIZE
  const ACTIVE_ADDR: nat := NUMBER_OF_ADDR + NUMBER_OF_SIZE
  const CRC_ADDR: nat := ACTIVE_ADDR + ACTIVE_SIZE
  const FIRST_STREAM_PAR_ADDR: nat := HEAD_ADDR + 0x10

  /** `cli_nvm_head_obj_t`. */
  datatype Head = Head(sign: bv32, period: bv32, parNb: bv8, active: bv8, crc: bv16)

  datatype Field = SignField | PeriodField | NumberOfField | ActiveField | CrcField

  /** Where a field lives and how many bytes it takes. */
  function Addr(f: Field): nat {
    match f
    case SignField => SIGN_ADDR
    case PeriodField => PERIOD_ADDR
    case NumberOfField => NUMBER_OF_ADDR
    case ActiveField => ACTIVE_ADDR
    case CrcField => CRC_ADDR
  }

  function Size(f: Field): nat {
    match f
    case SignField => SIGN_SIZE
    case PeriodField => PERIOD_SIZE
    case NumberOfField => NUMBER_OF_SIZE
    case ActiveField => ACTIVE_SIZE
    case CrcField => CRC_SIZE
  }

  /** The byte width of each member of `cli_nvm_head_obj_t`. */
  function Width(f: Field): nat {
    match f
    case SignField => 4
    case PeriodField => 4
    case NumberOfField => 1
    case ActiveField => 1
    case CrcField => 2
  }

  /** The header fields are pairwise disjoint, each as wide as its struct
      member, and the whole header ends at byte 12, before the first stream
      parameter at 0x10. */
  lemma HeaderLayout(f: Field, g: Field)
    ensures Size(f) == Width(f)
    ensures f != g ==> Addr(f) + Size(f) <= Addr(g) || Addr(g) + Size(g) <= Addr(f)
    ensures HEAD_ADDR <= Addr(f) && Addr(f) + Size(f) <= CRC_ADDR + CRC_SIZE
    ensures CRC_ADDR + CRC_SIZE == 12 <= FIRST_STREAM_PAR_ADDR
  {
  }

  /** Little-endian bytes of a 32-bit and a 16-bit value. */
  function Le32(x: bv32): (r: seq<byte>)
    ensures |r| == 4
  {
    [(x & 0xFF) as bv8, ((x >> 8) & 0xFF) as bv8, ((x >> 16) & 0xFF) as bv8, ((x >> 24) & 0xFF) as bv8]
  }

  function FromLe32(b: seq<byte>): bv32
    requires |b| == 4
  {
    (b[0] as bv32) | ((b[1] as bv32) << 8) | ((b[2] as bv32) << 16) | ((b[3] as bv32) << 24)
  }

  function Le16(x: bv16): (r: seq<byte>)
    ensures |r| == 2
  {
    [(x & 0xFF) as bv8, ((x >> 8) & 0xFF) as bv8]
  }

  function FromLe16(b: seq<byte>): bv16
    requires |b| == 2
  {
    (b[0] as bv16) | ((b[1] as bv16) << 8)
  }

  lemma Le32RoundTrip(x: bv32, b: seq<byte>)
    requires |b| == 4
    ensures FromLe32(Le32(x)) == x
    ensures Le32(FromLe32(b)) == b
  {
  }

  lemma Le16RoundTrip(x: bv16, b: seq<byte>)
    requires |b| == 2
    ensures FromLe16(Le16(x)) == x
    ensures Le16(FromLe16(b)) == b
  {
  }

  /** The header as stored in the region, fields at their addresses in the
      target's little-endian byte order. */
  function EncodeHead(h: Head): (r: seq<byte>)
    ensures |r| == CRC_ADDR + CRC_SIZE
  {
    Le32(h.sign) + Le32(h.period) + [h.parNb] + [h.active] + Le16(h.crc)
  }

  /** The bytes of a field. */
  function FieldBytes(mem: seq<byte>, f: Field): (r: seq<byte>)
    requires Addr(f) + Size(f) <= |mem|
    ensures |r| == Size(f)
  {
    mem[Addr(f)..Addr(f) + Size(f)]
  }

  function DecodeHead(mem: seq<byte>): Head
    requires CRC_ADDR + CRC_SIZE <= |mem|
  {
    Head(FromLe32(FieldBytes(mem, SignField)), FromLe32(FieldBytes(mem, PeriodField)),
         mem[NUMBER_OF_ADDR], mem[ACTIVE_ADDR], FromLe16(FieldBytes(mem, CrcField)))
  }

  /** Decoding what was encoded gives the header back, whatever follows it
      in the region. */
  lemma HeadRoundTrip(h: Head, rest: seq<byte>)
    ensures DecodeHead(EncodeHead(h) + rest) == h
  {
    var m := EncodeHead(h) + rest;
    assert FieldBytes(m, SignField) == Le32(h.sign);
    assert m[4..] == Le32(h.period) + [h.parNb] + [h.active] + Le16(h.crc) + rest;
    assert FieldBytes(m, PeriodField) == m[4..][..4] == Le32(h.period);
    assert FieldBytes(m, CrcField) == Le16(h.crc);
    Le32RoundTrip(h.sign, Le32(h.sign));
    Le32RoundTrip(h.period, Le32(h.period));
    Le16RoundTrip(h.crc, Le16(h.crc));
  }

  // ------------------------------------------------------------ signature

  const SIGN: bv32 := 0xFF00AA55

  /** The stored signature bytes, lowest address first. */
  lemma SignBytes()
    ensures Le32(SIGN) == [0x55, 0xAA, 0x00, 0xFF]
  {
  }

  datatype NvmStep = NvmStep(mem: seq<byte>, status: Status, out: seq<Out>)

  /** `cli_nvm_write_signature`: the signature goes to the four bytes at
      the signature address; a refused write is reported with one line and
      `ERROR_NVM`. */
  function WriteSignature(mem: seq<byte>, driverOk: bool): (r: NvmStep)
    requires SIGN_ADDR + SIGN_SIZE <= |mem|
    ensures |r.mem| == |mem| && r.mem[SIGN_ADDR + SIGN_SIZE..] == mem[SIGN_ADDR + SIGN_SIZE..]
    ensures driverOk ==> r.status == OK && r.out == [] && r.mem[..SIGN_SIZE] == [0x55, 0xAA, 0x00, 0xFF]
    ensures !driverOk ==> r == NvmStep(mem, ERROR_NVM, Say(NvmSignWriteFailed))
  {
    if driverOk then
      SignBytes();
      NvmStep(Le32(SIGN) + mem[SIGN_ADDR + SIGN_SIZE..], OK, [])
    else NvmStep(mem, ERROR_NVM, Say(NvmSignWriteFailed))
  }

  /** `cli_nvm_corrupt_signature`: the four signature bytes are erased to
      `erased`; a refused erase is reported with one line and `ERROR_NVM`. */
  function CorruptSignature(mem: seq<byte>, driverOk: bool, erased: byte): (r: NvmStep)
    requires SIGN_ADDR + SIGN_SIZE <= |mem|
    ensures |r.mem| == |mem| && r.mem[SIGN_ADDR + SIGN_SIZE..] == mem[SIGN_ADDR + SIGN_SIZE..]
    ensures driverOk ==> r.status == OK && r.out == [] && forall i :: 0 <= i < SIGN_SIZE ==> r.mem[i] == erased
    ensures !driverOk ==> r == NvmStep(mem, ERROR_NVM, Say(NvmCorruptFailed))
  {
    if driverOk then NvmStep([erased, erased, erased, erased] + mem[SIGN_SIZE..], OK, [])
    else NvmStep(mem, ERROR_NVM, Say(NvmCorruptFailed))
  }

  /** A written signature reads back as `SIGN`; a corrupted one never does,
      whatever an erased byte reads as, since the signature's four bytes
      are not all equal. */
  lemma SignatureReadBack(mem: seq<byte>, erased: byte)
    requires SIGN_ADDR + SIGN_SIZE <= |mem|
    ensures FromLe32(FieldBytes(WriteSignature(mem, true).mem, SignField)) == SIGN
    ensures FromLe32(FieldBytes(CorruptSignature(mem, true, erased).mem, SignField)) != SIGN
  {
    var w := WriteSignature(mem, true).mem;
    assert FieldBytes(w, SignField) == Le32(SIGN);
    Le32RoundTrip(SIGN, Le32(SIGN));
    var c := CorruptSignature(mem, true, erased).mem;
    assert FieldBytes(c, SignField) == [erased, erased, erased, erased];
    Le32RoundTrip(SIGN, [erased, erased, erased, erased]);
    SignBytes();
  }
}

=== FILE: osci.dfy ===
/** The oscilloscope of cli_osci.c: its control block, the command handlers
    and the sampling step `cli_osci_samp_hndl`. Sample values come from the
    parameter store and are parameters of the step; the configuration
    commands are still empty in the source and only their guards exist. */
module Osci {
  import opened Common
  import opened Text

  datatype Mode = ModeOff | ModeAuto | ModeNormal | ModeSingle

  datatype Trig = TrigNone | EdgeRising | EdgeFalling | EdgeBoth

  datatype State = Idle | Waiting | Sampling | Done

  /** `CLI_CFG_PAR_MAX_IN_OSCI` and `CLI_CFG_PAR_OSCI_SAMP_BUF_SIZE`. */
  datatype OsciCfg = OsciCfg(maxIn: nat, bufSize: nat)

  /** `cli_osci_t` (cli_osci.c:84-112) without the trigger threshold and
      trigger parameter, which no modelled code reads. */
  datatype Osci = Osci(trig: Trig, list: seq<nat>, numOf: nat, buf: seq<int>, idx: nat, mode: Mode, state: State)

  /** Array sizes as declared; `num_of` and `idx` are `uint32_t`. */
  predicate Valid(k: OsciCfg, o: Osci) {
    && |o.list| == k.maxIn && o.numOf <= k.maxIn
    && |o.buf| == k.bufSize && k.bufSize < U32_MOD && k.maxIn < U32_MOD
    && o.idx < U32_MOD
  }

  /** The zero initialiser of `g_cli_osci` (cli_osci.c:134). */
  function Zeroed(k: OsciCfg): (o: Osci)
    requires k.bufSize < U32_MOD && k.maxIn < U32_MOD
    ensures Valid(k, o) && o.state == Idle && o.idx == 0 && o.numOf == 0 && o.trig == TrigNone
  {
    Osci(TrigNone, seq(k.maxIn, _ => 0), 0, seq(k.bufSize, _ => 0), 0, ModeOff, Idle)
  }

  datatype Reply = Reply(o: Osci, out: seq<Out>)

  predicate Running(s: State) {
    s == Waiting || s == Sampling
  }

  /** `cli_osci_start`: an idle or finished oscilloscope waits for its
      trigger; a running one only warns. The sample index is not reset. */
  function Start(o: Osci, attr: Option<string>): (r: Reply)
    ensures attr.Some? ==> r == Reply(o, Say(UnknownCommand))
    ensures attr.None? && !Running(o.state) ==> r == Reply(o.(state := Waiting), [])
    ensures attr.None? && Running(o.state) ==> r == Reply(o, Say(OsciRunning))
  {
    if attr.Some? then Reply(o, Say(UnknownCommand))
    else if o.state == Idle || o.state == Done then Reply(o.(state := Waiting), [])
    else Reply(o, Say(OsciRunning))
  }

  /** `cli_osci_stop`: idle from any state; the index and channel list stay. */
  function Stop(o: Osci, attr: Option<string>): (r: Reply)
    ensures attr.Some? ==> r == Reply(o, Say(UnknownCommand))
    ensures attr.None? ==> r == Reply(o.(state := Idle), [])
  {
    if attr.Some? then Reply(o, Say(UnknownCommand))
    else Reply(o.(state := Idle), [])
  }

  /** `cli_osci_channel`, `cli_osci_trigger` and `cli_osci_downsample`
      share one body: they need an attribute and, while running, warn that
      the configuration is locked. None of them changes the block. */
  function CfgCmd(o: Osci, attr: Option<string>): (r: Reply)
    ensures r.o == o
    ensures attr.None? ==> r.out == Say(UnknownCommand)
    ensures attr.Some? ==> (r.out == Say(OsciCfgLocked) <==> Running(o.state))
    ensures attr.Some? && !Running(o.state) ==> r.out == []
  {
    if attr.None? then Reply(o, Say(UnknownCommand))
    else if o.state == Idle || o.state == Done then Reply(o, [])
    else Reply(o, Say(OsciCfgLocked))
  }

  // ------------------------------------------------------------- sampling

  /** The buffer after writing `vals` from index `at`. Writes past the end
      are undefined behaviour in the source: with the layout of `cli_osci_t`
      (cli_osci.c:104-108) the slot after the buffer is `samp.idx` itself.
      Here they are dropped, and only their indices are reported. */
  function WriteAt(buf: seq<int>, at: nat, vals: seq<int>): (r: seq<int>)
    ensures |r| == |buf|
    ensures at + |vals| <= |buf| ==> r == buf[..at] + vals + buf[at + |vals|..]
  {
    var r := seq(|buf|, i requires 0 <= i < |buf| => if at <= i < at + |vals| then vals[i - at] else buf[i]);
    assert at + |vals| <= |buf| ==> r == buf[..at] + vals + buf[at + |vals|..];
    r
  }

  /** The block after a step and the buffer indices the step wrote to. */
  datatype Step = Step(o: Osci, writes: seq<nat>)

  /** `cli_osci_samp_hndl`: a waiting oscilloscope without a trigger starts
      sampling in the same call; a sampling one stores `sample` (one value
      per listed parameter) at `idx` and then either advances `idx` or, when
      `idx` is not below `BUF - num_of` in 32-bit arithmetic, finishes and
      resets `idx`. */
  function SampHndl(k: OsciCfg, o: Osci, sample: seq<int>): (r: Step)
    requires Valid(k, o) && |sample| == o.numOf
    ensures Valid(k, r.o)
    ensures r.o.list == o.list && r.o.numOf == o.numOf && r.o.trig == o.trig && r.o.mode == o.mode
  {
    var o1 := if o.state == Waiting && o.trig == TrigNone then o.(state := Sampling) else o;
    if o1.state != Sampling then Step(o1, [])
    else
      var writes := seq(o.numOf, j requires 0 <= j < o.numOf => o.idx + j);
      var buf := WriteAt(o.buf, o.idx, sample);
      if o.idx < Sub32(k.bufSize, o.numOf) then
        Step(o1.(buf := buf, idx := (o.idx + o.numOf) % U32_MOD), writes)
      else
        Step(o1.(buf := buf, idx := 0, state := Done), writes)
  }

  /** Which states a step moves between: idle and done are left alone, a
      waiting one with a trigger keeps waiting, and only sampling (entered
      directly from waiting without a trigger) can reach done. */
  lemma SampStates(k: OsciCfg, o: Osci, sample: seq<int>)
    requires Valid(k, o) && |sample| == o.numOf
    ensures var r := SampHndl(k, o, sample);
            && (o.state == Idle || o.state == Done ==> r == Step(o, []))
            && (o.state == Waiting && o.trig != TrigNone ==> r == Step(o, []))
            && (o.state == Sampling || (o.state == Waiting && o.trig == TrigNone) ==>
                  |r.writes| == o.numOf && (r.o.state == Sampling || r.o.state == Done))
            && (r.o.state == Done && o.state != Done ==> r.o.idx == 0)
  {
  }

  /** `x` is a whole number of `n`-value samples. */
  predicate MultipleOf(x: nat, n: nat)
    decreases x
  {
    x == 0 || (1 <= n <= x && MultipleOf(x - n, n))
  }

  /** How many samples make up `x` values. */
  function Samples(x: nat, n: nat): (c: nat)
    requires MultipleOf(x, n)
    decreases x
  {
    if x == 0 then 0 else 1 + Samples(x - n, n)
  }

  lemma {:induction false} SamplesTimes(x: nat, n: nat)
    requires MultipleOf(x, n)
    ensures Samples(x, n) * n == x
    decreases x
  {
    if x > 0 {
      SamplesTimes(x - n, n);
      var c := Samples(x - n, n);
      assert (1 + c) * n == n + c * n;
    }
  }

  /** The buffer holds a whole number of samples and the sampling index is
      on a sample boundary that leaves room for one more sample. */
  predicate Aligned(k: OsciCfg, o: Osci) {
    && 1 <= o.numOf && o.idx + o.numOf <= k.bufSize
    && MultipleOf(k.bufSize, o.numOf) && MultipleOf(k.bufSize - o.idx, o.numOf)
  }

  /** With a buffer that is a multiple of the channel count every write of
      a step is inside the buffer, and the alignment is kept. */
  lemma SampInBounds(k: OsciCfg, o: Osci, sample: seq<int>)
    requires Valid(k, o) && |sample| == o.numOf && Aligned(k, o)
    ensures var r := SampHndl(k, o, sample);
            (forall j :: 0 <= j < |r.writes| ==> r.writes[j] < k.bufSize) && Aligned(k, r.o)
  {
    var r := SampHndl(k, o, sample);
    if o.idx < k.bufSize - o.numOf && r.o.state == Sampling {
      assert r.o.idx == o.idx + o.numOf;
      assert MultipleOf(k.bufSize - r.o.idx, o.numOf);
    }
  }

  /** Otherwise the last step writes past the buffer: with five slots and
      two channels the third sample is stored at indices 4 and 5. */
  lemma SampOverrun()
    ensures var k := OsciCfg(2, 5);
            var o := Osci(TrigNone, [0, 0], 2, [0, 0, 0, 0, 0], 0, ModeAuto, Sampling);
            var s1 := SampHndl(k, o, [1, 2]);
            var s2 := SampHndl(k, s1.o, [3, 4]);
            var s3 := SampHndl(k, s2.o, [5, 6]);
            s2.o.idx == 4 && s2.o.state == Sampling && s3.writes == [4, 5] && s3.o.state == Done
  {
    var k := OsciCfg(2, 5);
    var o := Osci(TrigNone, [0, 0], 2, [0, 0, 0, 0, 0], 0, ModeAuto, Sampling);
    assert SampHndl(k, o, [1, 2]).o.idx == 2;
    var s1 := SampHndl(k, o, [1, 2]);
    assert SampHndl(k, s1.o, [3, 4]).o.idx == 4;
  }

  /** Samples of equal width, concatenated. */
  function Flatten(xs: seq<seq<int>>): seq<int> {
    if xs == [] then [] else xs[0] + Flatten(xs[1..])
  }

  predicate Widths(xs: seq<seq<int>>, n: nat) {
    forall i :: 0 <= i < |xs| ==> |xs[i]| == n
  }

  /** Successive calls of the sampling handler. */
  function SampRun(k: OsciCfg, o: Osci, samples: seq<seq<int>>): (r: Osci)
    requires Valid(k, o) && Widths(samples, o.numOf)
    ensures Valid(k, r) && r.numOf == o.numOf && r.list == o.list
    decreases |samples|
  {
    if samples == [] then o
    else SampRun(k, SampHndl(k, o, samples[0]).o, samples[1..])
  }

  /** Sampling from an aligned index until the buffer is full stores the
      samples in order behind the index, leaves the front of the buffer as
      it was, ends in `Done` and resets the index. */
  lemma {:induction false} SampFills(k: OsciCfg, o: Osci, samples: seq<seq<int>>)
    requires Valid(k, o) && Widths(samples, o.numOf) && o.state == Sampling && Aligned(k, o)
    requires 1 <= |samples| && o.idx + |Flatten(samples)| == k.bufSize
    ensures var r := SampRun(k, o, samples);
            r.state == Done && r.idx == 0 && r.buf == o.buf[..o.idx] + Flatten(samples)
    decreases |samples|
  {
    var n := o.numOf;
    var s := SampHndl(k, o, samples[0]).o;
    assert Flatten(samples) == samples[0] + Flatten(samples[1..]);
    SampStep(k, o, samples[0]);
    if |samples| == 1 {
      StoreThen(o.buf, o.idx, samples[0], []);
    } else {
      FlattenLength(samples[1..], n);
      SampFills(k, s, samples[1..]);
      StoreThen(o.buf, o.idx, samples[0], Flatten(samples[1..]));
    }
  }

  /** Storing `x` at `at` and keeping only what lies before its end leaves
      the old front followed by `x`, whatever is appended after. */
  lemma StoreThen(buf: seq<int>, at: nat, x: seq<int>, tail: seq<int>)
    requires at + |x| <= |buf|
    ensures (buf[..at] + x + buf[at + |x|..])[..at + |x|] + tail == buf[..at] + (x + tail)
    ensures at + |x| == |buf| ==> buf[..at] + x + buf[at + |x|..] == buf[..at] + (x + [])
  {
    assert (buf[..at] + x + buf[at + |x|..])[..at + |x|] == buf[..at] + x;
  }

  /** One step from an aligned, sampling block: the sample is stored at
      the index, and the block either moves to the next sample boundary or,
      having filled the buffer, finishes. */
  lemma SampStep(k: OsciCfg, o: Osci, sample: seq<int>)
    requires Valid(k, o) && |sample| == o.numOf && o.state == Sampling && Aligned(k, o)
    ensures var r := SampHndl(k, o, sample).o;
            && r.buf == o.buf[..o.idx] + sample + o.buf[o.idx + o.numOf..]
            && (o.idx + o.numOf < k.bufSize ==> r.state == Sampling && r.idx == o.idx + o.numOf && Aligned(k, r))
            && (o.idx + o.numOf == k.bufSize ==> r.state == Done && r.idx == 0)
  {
    SampInBounds(k, o, sample);
  }

  /** Samples of width `n` flatten to a whole number of samples, at least
      one when there is a sample. */
  lemma {:induction false} FlattenLength(xs: seq<seq<int>>, n: nat)
    requires Widths(xs, n) && 1 <= n
    ensures MultipleOf(|Flatten(xs)|, n)
    ensures xs != [] ==> n <= |Flatten(xs)|
    decreases |xs|
  {
    if xs != [] {
      FlattenLength(xs[1..], n);
      assert |Flatten(xs)| - n == |Flatten(xs[1..])|;
    }
  }

  // ------------------------------------------------------------ read-out

  /** The records `cli_osci_data` sends from sample index `s` on: one
      record of `n` values per sample. */
  function DataRows(buf: seq<int>, n: nat, s: nat): (o: seq<Out>)
    requires 1 <= n && s <= |buf| && MultipleOf(|buf| - s, n)
    decreases |buf| - s
  {
    if s == |buf| then []
    else Row(buf[s..s + n]) + DataRows(buf, n, s + n)
  }

  /** `cli_osci_data`: the samples only when sampling is done, otherwise a
      warning. The source loops forever when the list is empty or holds more
      than 255 channels (its inner counter is a `uint8_t`, which wraps
      before reaching a larger `num_of`), and reads past the buffer when its
      size is not a multiple of the channel count; the model asks for none
      of these to happen. */
  function Data(k: OsciCfg, o: Osci, attr: Option<string>): (out: seq<Out>)
    requires Valid(k, o)
    requires attr.None? && o.state == Done ==> 1 <= o.numOf <= 255 && MultipleOf(k.bufSize, o.numOf)
    ensures attr.Some? ==> out == Say(UnknownCommand)
    ensures attr.None? && o.state != Done ==> out == Say(OsciNoData)
  {
    if attr.Some? then Say(UnknownCommand)
    else if o.state == Done then DataRows(o.buf, o.numOf, 0)
    else Say(OsciNoData)
  }

  lemma {:induction false} DataRowsShape(buf: seq<int>, n: nat, s: nat)
    requires 1 <= n && s <= |buf| && MultipleOf(|buf| - s, n)
    ensures ValuesOf(DataRows(buf, n, s)) == buf[s..]
    ensures LinesOf(DataRows(buf, n, s)) == Samples(|buf| - s, n)
    ensures CommasOf(DataRows(buf, n, s)) + LinesOf(DataRows(buf, n, s)) == |buf| - s
    decreases |buf| - s
  {
    if s < |buf| {
      var rest := DataRows(buf, n, s + n);
      DataRowsShape(buf, n, s + n);
      RowShape(buf[s..s + n]);
      OutCountsAppend(Row(buf[s..s + n]), rest);
      assert buf[s..] == buf[s..s + n] + buf[s + n..];
    }
  }

  /** A finished recording is read out as `BUF / num_of` lines of `num_of`
      comma-separated values, which are the buffer in order. */
  lemma DataShape(k: OsciCfg, o: Osci)
    requires Valid(k, o) && o.state == Done && 1 <= o.numOf <= 255 && MultipleOf(k.bufSize, o.numOf)
    ensures ValuesOf(Data(k, o, None)) == o.buf
    ensures LinesOf(Data(k, o, None)) * o.numOf == k.bufSize
    ensures CommasOf(Data(k, o, None)) + LinesOf(Data(k, o, None)) == k.bufSize
  {
    DataRowsShape(o.buf, o.numOf, 0);
    SamplesTimes(k.bufSize, o.numOf);
  }

  /** Started from index zero without a trigger, a full recording is read
      back as exactly the samples taken, in order. */
  lemma RecordThenRead(k: OsciCfg, o: Osci, samples: seq<seq<int>>)
    requires Valid(k, o) && Widths(samples, o.numOf) && o.state == Idle && o.trig == TrigNone
    requires o.idx == 0 && 1 <= o.numOf <= 255 && 1 <= |samples| && |Flatten(samples)| == k.bufSize
    requires MultipleOf(k.bufSize, o.numOf)
    ensures var r := SampRun(k, Start(o, None).o, samples);
            r.state == Done && ValuesOf(Data(k, r, None)) == Flatten(samples)
  {
    var o' := Start(o, None).o;
    var o1 := o'.(state := Sampling);
    FlattenLength(samples, o.numOf);
    // The first call both leaves Waiting and samples, exactly as one
    // sampling step from the Sampling state would.
    assert SampHndl(k, o', samples[0]) == SampHndl(k, o1, samples[0]);
    assert SampRun(k, o', samples) == SampRun(k, o1, samples);
    SampFills(k, o1, samples);
    DataShape(k, SampRun(k, o', samples));
  }
}

=== FILE: output.dfy ===
/** The initialisation flag and the output guards of cli.c: `cli_init`,
    `cli_deinit`, `cli_printf` and `cli_printf_ch` (cli.c:1878-1953,
    cli.c:2027-2108). Transmission results come from the interface layer
    and are parameters. */
module Output {
  import opened Common
  import opened Text

  /** `gb_is_init`, the channel enable flags and everything transmitted. */
  datatype Engine = Engine(init: bool, chEn: seq<bool>, out: seq<Out>)

  datatype Step = Step(engine: Engine, status: Status)

  /** `cli_init`: refused when already initialised; otherwise the interface
      is brought up and the flag is set exactly when that succeeded. */
  function Init(e: Engine, ifStatus: Status): (r: Step)
    ensures r.engine.out == e.out && r.engine.chEn == e.chEn
    ensures e.init ==> r.status == ERROR_INIT && r.engine.init
    ensures !e.init ==> r.status == ifStatus && (r.engine.init <==> ifStatus == OK)
  {
    if e.init then Step(e, ERROR_INIT)
    else Step(e.(init := ifStatus == OK), ifStatus)
  }

  /** `cli_deinit`: the mirror image of `Init`. */
  function Deinit(e: Engine, ifStatus: Status): (r: Step)
    ensures r.engine.out == e.out && r.engine.chEn == e.chEn
    ensures !e.init ==> r.status == ERROR_INIT && !r.engine.init
    ensures e.init ==> r.status == ifStatus && (r.engine.init <==> ifStatus != OK)
  {
    if !e.init then Step(e, ERROR_INIT)
    else Step(e.(init := ifStatus != OK), ifStatus)
  }

  /** Only the transmit log grows, and by the given tokens. */
  predicate Appends(e: Engine, e': Engine, added: seq<Out>) {
    e'.init == e.init && e'.chEn == e.chEn && e'.out == e.out + added
  }

  /** `cli_printf`: a NULL format (`None`) is refused; otherwise the message
      and the line terminator are sent and their statuses are or-ed. */
  function Printf(e: Engine, fmt: Option<Msg>, txMsg: Status, txTerm: Status): (r: Step)
    ensures !e.init ==> r.status == ERROR_INIT && Appends(e, r.engine, [])
    ensures e.init && fmt.None? ==> r.status == ERROR && Appends(e, r.engine, [])
    ensures e.init && fmt.Some? ==> Appends(e, r.engine, [Line(fmt.value)])
    ensures r.status == OK <==> e.init && fmt.Some? && txMsg == OK && txTerm == OK
  {
    if !e.init then Step(e, ERROR_INIT)
    else if fmt.None? then Step(e, ERROR)
    else Step(e.(out := e.out + [Line(fmt.value)]), Or(txMsg, txTerm))
  }

  /** `cli_printf_ch`: like `Printf`, but a disabled channel sends nothing
      and still reports success; an enabled one sends the channel name, the
      separator, the message and the terminator, four statuses or-ed. */
  function PrintfCh(e: Engine, ch: nat, fmt: Option<Msg>, tx: seq<Status>): (r: Step)
    requires ch < |e.chEn| && |tx| == 4
    ensures !e.init ==> r.status == ERROR_INIT && Appends(e, r.engine, [])
    ensures e.init && fmt.None? ==> r.status == ERROR && Appends(e, r.engine, [])
    ensures e.init && fmt.Some? && !e.chEn[ch] ==> r.status == OK && Appends(e, r.engine, [])
    ensures e.init && fmt.Some? && e.chEn[ch] ==> Appends(e, r.engine, [ChLine(ch, fmt.value)])
    ensures r.status == OK <==>
              e.init && fmt.Some? && (!e.chEn[ch] || forall i :: 0 <= i < 4 ==> tx[i] == OK)
  {
    if !e.init then Step(e, ERROR_INIT)
    else if fmt.None? then Step(e, ERROR)
    else if !e.chEn[ch] then Step(e, OK)
    else
      var r := Step(e.(out := e.out + [ChLine(ch, fmt.value)]), Or(Or(Or(tx[0], tx[1]), tx[2]), tx[3]));
      assert r.status == OK ==> forall i :: 0 <= i < 4 ==> tx[i] == OK;
      r
  }

  /** One token through its guard, all transmissions succeeding. */
  function DeliverOne(e: Engine, o: Out): (r: Engine)
    requires o.ChLine? ==> o.ch < |e.chEn|
    ensures o.Raw? ==> Appends(e, r, [o])
    ensures o.Line? ==> Appends(e, r, if e.init then [o] else [])
    ensures o.ChLine? ==> Appends(e, r, if e.init && e.chEn[o.ch] then [o] else [])
  {
    match o
    case Line(m) => Printf(e, Some(m), OK, OK).engine
    case ChLine(ch, m) => PrintfCh(e, ch, Some(m), [OK, OK, OK, OK]).engine
    case Raw(_) => e.(out := e.out + [o])
  }

  predicate ChannelsIn(outs: seq<Out>, chEn: seq<bool>) {
    forall i :: 0 <= i < |outs| && outs[i].ChLine? ==> outs[i].ch < |chEn|
  }

  /** The tokens a handler produces, sent one after the other. */
  function Deliver(e: Engine, outs: seq<Out>): (r: Engine)
    requires ChannelsIn(outs, e.chEn)
    ensures r.init == e.init && r.chEn == e.chEn
    decreases |outs|
  {
    if outs == [] then e
    else Deliver(DeliverOne(e, outs[0]), outs[1..])
  }

  /** Raw pieces only: `cli_send_str` has no initialisation guard. */
  function Unguarded(outs: seq<Out>): seq<Out> {
    if outs == [] then []
    else (if outs[0].Raw? then [outs[0]] else []) + Unguarded(outs[1..])
  }

  /** Everything but the lines of disabled channels. */
  function Visible(outs: seq<Out>, chEn: seq<bool>): seq<Out>
    requires ChannelsIn(outs, chEn)
  {
    if outs == [] then []
    else (if outs[0].ChLine? && !chEn[outs[0].ch] then [] else [outs[0]]) + Visible(outs[1..], chEn)
  }

  /** Before `cli_init` succeeds only raw pieces reach the transport. */
  lemma {:induction false} DeliverBeforeInit(e: Engine, outs: seq<Out>)
    requires ChannelsIn(outs, e.chEn) && !e.init
    ensures Deliver(e, outs).out == e.out + Unguarded(outs)
    decreases |outs|
  {
    if outs != [] {
      var o, rest := outs[0], outs[1..];
      var u := if o.Raw? then [o] else [];
      var e' := DeliverOne(e, o);
      assert Appends(e, e', u);
      assert ChannelsIn(rest, e'.chEn);
      DeliverBeforeInit(e', rest);
      assert Unguarded(outs) == u + Unguarded(rest);
      AppendAssoc(e.out, u, Unguarded(rest));
    }
  }

  /** After it, everything but the output of disabled channels does, in
      order. */
  lemma {:induction false} DeliverAfterInit(e: Engine, outs: seq<Out>)
    requires ChannelsIn(outs, e.chEn) && e.init
    ensures Deliver(e, outs).out == e.out + Visible(outs, e.chEn)
    decreases |outs|
  {
    if outs != [] {
      var o, rest := outs[0], outs[1..];
      var v := if o.ChLine? && !e.chEn[o.ch] then [] else [o];
      var e' := DeliverOne(e, o);
      assert Appends(e, e', v);
      assert ChannelsIn(rest, e'.chEn);
      DeliverAfterInit(e', rest);
      assert Visible(outs, e.chEn) == v + Visible(rest, e.chEn);
      AppendAssoc(e.out, v, Visible(rest, e.chEn));
    }
  }
}

=== FILE: params.dfy ===
/** The parameter commands of cli_par.c: `par_set`, `par_get` and
    `par_def`, against an opaque parameter store. The store is a map from
    parameter ID to parameter number, a configuration per number and a value
    per number; whether the store accepts a write or a read is a parameter,
    as the store's code is not part of this model. Values are abstract
    integers standing for whatever the typed `sscanf` produced. */
module Params {
  import opened Common
  import opened Text

  datatype Access = ReadOnlyAccess | ReadWrite

  datatype ParCfg = ParCfg(access: Access, def: int)

  datatype Store = Store(byId: map<nat, nat>, cfg: map<nat, ParCfg>, val: map<nat, int>)

  /** Every known ID leads to a configured parameter that has a value. */
  predicate StoreValid(st: Store) {
    forall id :: id in st.byId ==> st.byId[id] in st.cfg && st.byId[id] in st.val
  }

  /** What `"%hu,%f"` and the typed re-scan read: the ID and the value. */
  datatype SetArgs = SetArgs(id: nat, value: int)

  datatype ParReply = ParReply(store: Store, out: seq<Out>)

  /** Only the value of parameter number `num` may differ. */
  predicate OnlyValueOf(st: Store, st': Store, num: nat) {
    && st'.byId == st.byId && st'.cfg == st.cfg
    && st'.val.Keys == st.val.Keys
    && forall n :: n in st.val && n != num ==> st'.val[n] == st.val[n]
  }

  /** `cli_par_set`: checks, in this order, the attribute, the scan, the ID
      and the access. A writable parameter is written and the `OK` line is
      printed whatever the store answers; a refused write adds the error
      code line. `accepted` is the store's answer. */
  function ParSet(st: Store, attr: Arg<SetArgs>, accepted: bool): (r: ParReply)
    requires StoreValid(st)
    ensures StoreValid(r.store)
    ensures attr.Absent? ==> r == ParReply(st, Say(UnknownCommand))
    ensures attr.Unparsable? ==> r == ParReply(st, Say(WrongCommand))
    ensures attr.Parsed? && attr.value.id !in st.byId ==> r == ParReply(st, Say(WrongParId))
    ensures attr.Parsed? && attr.value.id in st.byId ==>
              var num := st.byId[attr.value.id];
              && (st.cfg[num].access == ReadOnlyAccess ==> r == ParReply(st, Say(ReadOnly)))
              && (st.cfg[num].access == ReadWrite ==>
                    && OnlyValueOf(st, r.store, num)
                    && r.store.val[num] == (if accepted then attr.value.value else st.val[num])
                    && r.out == [Line(ParSetOk(attr.value.value))] + (if accepted then [] else [Line(ErrCode)]))
  {
    match attr
    case Absent => ParReply(st, Say(UnknownCommand))
    case Unparsable => ParReply(st, Say(WrongCommand))
    case Parsed(SetArgs(id, v)) =>
      if id !in st.byId then ParReply(st, Say(WrongParId))
      else
        var num := st.byId[id];
        if st.cfg[num].access != ReadWrite then ParReply(st, Say(ReadOnly))
        else if accepted then
          ParReply(st.(val := st.val[num := v]), [Line(ParSetOk(v))])
        else ParReply(st, [Line(ParSetOk(v)), Line(ErrCode)])
  }

  /** `cli_par_get`: the same attribute, scan and ID checks. A successful
      read prints the stored value; a failed one prints the zero the local
      was initialised with, then the error code line. `readOk` is the
      store's answer. The store is never changed. */
  function ParGet(st: Store, attr: Arg<nat>, readOk: bool): (r: seq<Out>)
    requires StoreValid(st)
    ensures attr.Absent? ==> r == Say(UnknownCommand)
    ensures attr.Unparsable? ==> r == Say(WrongCommand)
    ensures attr.Parsed? && attr.value !in st.byId ==> r == Say(WrongParId)
    ensures attr.Parsed? && attr.value in st.byId ==>
              1 <= |r| && r[0] == Line(ParGetOk(if readOk then st.val[st.byId[attr.value]] else 0))
              && (|r| == 2 <==> !readOk) && (!readOk ==> r[1] == Line(ErrCode))
  {
    match attr
    case Absent => Say(UnknownCommand)
    case Unparsable => Say(WrongCommand)
    case Parsed(id) =>
      if id !in st.byId then Say(WrongParId)
      else if readOk then Say(ParGetOk(st.val[st.byId[id]]))
      else [Line(ParGetOk(0)), Line(ErrCode)]
  }

  /** `%u` is stored through an `unsigned int*` into a 16-bit ID: on a
      little-endian target the ID keeps the low 16 bits of the 32-bit
      reading (the upper half lands beyond the variable). Both truncations
      are reductions modulo a power of two, so one reduction suffices. */
  function DefId(v: int): (id: nat)
    ensures id < 0x1_0000
    ensures 0 <= v < 0x1_0000 ==> id == v
    ensures id == (v % U32_MOD) % 0x1_0000
  {
    v % 0x1_0000
  }

  /** `cli_par_def`: the same checks; a known parameter is set to its
      default and the ID is echoed. */
  function ParDef(st: Store, attr: Arg<int>): (r: ParReply)
    requires StoreValid(st)
    ensures StoreValid(r.store)
    ensures attr.Absent? ==> r == ParReply(st, Say(UnknownCommand))
    ensures attr.Unparsable? ==> r == ParReply(st, Say(WrongCommand))
    ensures attr.Parsed? && DefId(attr.value) !in st.byId ==> r == ParReply(st, Say(WrongParId))
    ensures attr.Parsed? && DefId(attr.value) in st.byId ==>
              var num := st.byId[DefId(attr.value)];
              && OnlyValueOf(st, r.store, num)
              && r.store.val[num] == st.cfg[num].def
              && r.out == Say(ParDefOk(DefId(attr.value)))
  {
    match attr
    case Absent => ParReply(st, Say(UnknownCommand))
    case Unparsable => ParReply(st, Say(WrongCommand))
    case Parsed(v) =>
      var id := DefId(v);
      if id !in st.byId then ParReply(st, Say(WrongParId))
      else
        var num := st.byId[id];
        ParReply(st.(val := st.val[num := st.cfg[num].def]), Say(ParDefOk(id)))
  }

  /** The store changes only through an accepted write to a known,
      writable parameter; every other outcome is answered with the lines
      of a rejection and leaves the store as it was. */
  lemma OnlyAcceptedWritesChange(st: Store, attr: Arg<SetArgs>, accepted: bool)
    requires StoreValid(st)
    ensures var r := ParSet(st, attr, accepted);
            r.store != st ==>
              attr.Parsed? && accepted && attr.value.id in st.byId
              && st.cfg[st.byId[attr.value.id]].access == ReadWrite
    ensures var r := ParSet(st, attr, accepted);
            r.out[0].msg.ParSetOk? <==>
              attr.Parsed? && attr.value.id in st.byId && st.cfg[st.byId[attr.value.id]].access == ReadWrite
  {
  }

  /** A value the store accepted is what a following read returns, both
      through the same ID and through any other ID naming the same
      parameter; other parameters read as before. */
  lemma SetThenGet(st: Store, id: nat, v: int, other: nat)
    requires StoreValid(st) && id in st.byId && st.cfg[st.byId[id]].access == ReadWrite
    requires other in st.byId
    ensures var st' := ParSet(st, Parsed(SetArgs(id, v)), true).store;
            && ParGet(st', Parsed(id), true) == Say(ParGetOk(v))
            && ParGet(st', Parsed(other), true)
               == if st.byId[other] == st.byId[id] then Say(ParGetOk(v)) else ParGet(st, Parsed(other), true)
  {
  }

  /** After `par_def` the parameter reads as its default, and applying it
      twice is the same as once. */
  lemma DefThenGet(st: Store, v: int)
    requires StoreValid(st) && DefId(v) in st.byId
    ensures var st' := ParDef(st, Parsed(v)).store;
            && ParGet(st', Parsed(DefId(v)), true) == Say(ParGetOk(st.cfg[st.byId[DefId(v)]].def))
            && ParDef(st', Parsed(v)).store == st'
  {
  }
}

=== FILE: registry.dfy ===
/** Command tables and the bounded array of registered user tables
    (cli.h:55-68, cli.c:186-191, cli.c:1729-1761, cli.c:2118-2172). */
module Registry {
  import opened Common

  /** The function pointers the tables hold, one per command function of
      the modelled sources; `User` stands for a handler of another module. */
  datatype Handler =
    | Help | Reset | SwVer | HwVer | ProjInfo | ChInfo | ChEn
    | ParInfo | ParSet | ParGet | ParDef | ParDefAll | ParSave
    | WatchStart | WatchStop | WatchChannel | WatchRate | WatchInfo
    | OsciStart | OsciStop | OsciData | OsciChannel | OsciTrigger | OsciDownsample | OsciInfo
    | User(id: nat)

  /** `cli_cmd_t`: each of the three pointers may be NULL. */
  datatype Command = Command(name: Option<CString>, func: Option<Handler>, help: Option<string>)

  type Table = seq<Command>

  /** A table entry with all three pointers set. */
  function Cmd(name: CString, func: Handler, help: string): Command {
    Command(Some(name), Some(func), Some(help))
  }

  predicate Complete(c: Command) {
    c.name.Some? && c.func.Some? && c.help.Some?
  }

  predicate WellFormed(t: Table) {
    forall i :: 0 <= i < |t| ==> Complete(t[i])
  }

  /** The loop of `cli_validate_user_table` from entry `i` on: it stops at
      the first entry with a NULL name, help or function. */
  function AllCompleteFrom(t: Table, i: nat): (ok: bool)
    requires i <= |t|
    ensures ok <==> forall k :: i <= k < |t| ==> Complete(t[k])
    decreases |t| - i
  {
    if i == |t| then true
    else if t[i].name.None? || t[i].help.None? || t[i].func.None? then false
    else AllCompleteFrom(t, i + 1)
  }

  /** `cli_validate_user_table`: at most `maxCmds` entries, none of them
      with a NULL pointer. */
  function ValidateUserTable(t: Table, maxCmds: nat): (valid: bool)
    ensures valid <==> |t| <= maxCmds && WellFormed(t)
  {
    if |t| <= maxCmds then AllCompleteFrom(t, 0) else false
  }

  /** `gp_cli_user_tables` with `gu32_user_table_count`: the slot array has
      `CLI_CFG_MAX_NUM_OF_USER_TABLES` entries. */
  datatype Registry = Registry(slots: seq<Option<Table>>, count: nat)

  /** Slots below `count` are filled, the rest are NULL, and every filled
      slot holds a table that passed validation. */
  predicate Valid(r: Registry, maxCmds: nat) {
    && r.count <= |r.slots|
    && (forall i :: 0 <= i < |r.slots| ==> (r.slots[i].Some? <==> i < r.count))
    && (forall i :: 0 <= i < |r.slots| && r.slots[i].Some? ==>
          WellFormed(r.slots[i].value) && |r.slots[i].value| <= maxCmds)
  }

  function Empty(maxTables: nat): (r: Registry)
    ensures forall maxCmds: nat :: Valid(r, maxCmds)
    ensures |r.slots| == maxTables && r.count == 0
  {
    Registry(seq(maxTables, _ => None), 0)
  }

  datatype RegResult = RegResult(reg: Registry, status: Status)

  /** `cli_register_cmd_table` (mutex disabled). */
  function Register(r: Registry, t: Option<Table>, maxCmds: nat): (res: RegResult)
    requires Valid(r, maxCmds)
    ensures Valid(res.reg, maxCmds)
    ensures res.status == OK || res.status == ERROR
    ensures res.status == OK <==>
              t.Some? && r.count < |r.slots| && |t.value| <= maxCmds && WellFormed(t.value)
    ensures res.status == OK ==>
              res.reg.slots == r.slots[r.count := t] && res.reg.count == r.count + 1
    ensures res.status != OK ==> res.reg == r
    ensures |res.reg.slots| == |r.slots|
    ensures forall i :: 0 <= i < r.count ==> res.reg.slots[i] == r.slots[i]
  {
    if t.None? then RegResult(r, ERROR)
    else if r.count >= |r.slots| then RegResult(r, ERROR)
    else if !ValidateUserTable(t.value, maxCmds) then RegResult(r, ERROR)
    else RegResult(Registry(r.slots[r.count := t], r.count + 1), OK)
  }

  /** The registered tables in slot order. */
  function Present(slots: seq<Option<Table>>): seq<Table> {
    if slots == [] then []
    else (if slots[0].Some? then [slots[0].value] else []) + Present(slots[1..])
  }

  lemma {:induction false} PresentAppend(a: seq<Option<Table>>, b: seq<Option<Table>>)
    ensures Present(a + b) == Present(a) + Present(b)
  {
    if a != [] {
      assert (a + b)[1..] == a[1..] + b;
      PresentAppend(a[1..], b);
    } else {
      assert a + b == b;
    }
  }

  lemma {:induction false} PresentOfNulls(s: seq<Option<Table>>)
    requires forall i :: 0 <= i < |s| ==> s[i].None?
    ensures Present(s) == []
  {
    if s != [] {
      PresentOfNulls(s[1..]);
    }
  }

  lemma PresentIsFilledPrefix(r: Registry, maxCmds: nat)
    requires Valid(r, maxCmds)
    ensures Present(r.slots) == Present(r.slots[..r.count])
  {
    assert r.slots == r.slots[..r.count] + r.slots[r.count..];
    PresentAppend(r.slots[..r.count], r.slots[r.count..]);
    PresentOfNulls(r.slots[r.count..]);
  }

  /** Registration appends: the tables reachable after a successful call
      are the earlier ones, in the same order, followed by the new one. No
      duplicate-name check is made. */
  lemma RegisterAppends(r: Registry, t: Table, maxCmds: nat)
    requires Valid(r, maxCmds)
    requires Register(r, Some(t), maxCmds).status == OK
    ensures Present(Register(r, Some(t), maxCmds).reg.slots) == Present(r.slots) + [t]
  {
    var r' := Register(r, Some(t), maxCmds).reg;
    PresentIsFilledPrefix(r, maxCmds);
    PresentIsFilledPrefix(r', maxCmds);
    assert r'.slots[..r'.count] == r.slots[..r.count] + [Some(t)];
    PresentAppend(r.slots[..r.count], [Some(t)]);
    assert Present([Some(t)]) == [t] + Present([]);
  }

  lemma PresentWellFormed(r: Registry, maxCmds: nat)
    requires Valid(r, maxCmds)
    ensures forall t :: t in Present(r.slots) ==> WellFormed(t)
  {
    PresentWellFormedSlots(r.slots, maxCmds);
  }

  lemma {:induction false} PresentWellFormedSlots(s: seq<Option<Table>>, maxCmds: nat)
    requires forall i :: 0 <= i < |s| && s[i].Some? ==> WellFormed(s[i].value)
    ensures forall t :: t in Present(s) ==> WellFormed(t)
  {
    if s != [] {
      PresentWellFormedSlots(s[1..], maxCmds);
    }
  }
}

=== FILE: splitter.dfy ===
/** Splitting a completed command line into the command name and the
    optional attribute that follows the first space (cli.c:340-348,
    cli.c:500-517, cli.c:1782-1854). The line is the whole receive buffer:
    the scan length is the buffer size and the text ends at the first NUL. */
module Splitter {
  import opened Common

  /** No NUL among the first `k` bytes. */
  predicate NoNulBelow(s: seq<char>, k: nat)
    requires k <= |s|
  {
    forall j :: 0 <= j < k ==> s[j] != NUL
  }

  /** Where the command name ends: the first space or NUL. */
  function FirstStop(s: seq<char>): (i: nat)
    requires HasNul(s)
    ensures i < |s| && (s[i] == NUL || s[i] == SPACE)
    ensures forall k :: 0 <= k < i ==> s[k] != NUL && s[k] != SPACE
  {
    if s[0] == NUL || s[0] == SPACE then 0 else FirstStop(s[1..]) + 1
  }

  /** The loop of `cli_find_char_pos` from index `ch` on. */
  function PosFrom(s: seq<char>, target: char, size: nat, ch: nat): (pos: int)
    requires size <= |s| && ch <= size
    requires forall k :: 0 <= k < ch ==> s[k] != NUL && s[k] != target
    ensures -1 <= pos < size
    ensures pos >= 0 ==> target != NUL && s[pos] == target
                         && forall k :: 0 <= k < pos ==> s[k] != NUL && s[k] != target
    ensures pos == -1 ==> forall k :: 0 <= k < size && NoNulBelow(s, k) ==> s[k] != target || target == NUL
    decreases size - ch
  {
    if ch == size then -1
    else if s[ch] == NUL then -1
    else if s[ch] == target then ch
    else PosFrom(s, target, size, ch + 1)
  }

  /** `cli_find_char_pos`: the index of the first `target` before the first
      NUL within `size` bytes, or the sentinel -1. */
  function FindCharPos(s: seq<char>, target: char, size: nat): (pos: int)
    requires size <= |s|
    ensures -1 <= pos < size
    ensures pos >= 0 ==> target != NUL && s[pos] == target
                         && forall k :: 0 <= k < pos ==> s[k] != NUL && s[k] != target
    ensures pos == -1 ==> forall k :: 0 <= k < size && NoNulBelow(s, k) ==> s[k] != target || target == NUL
  {
    PosFrom(s, target, size, 0)
  }

  /** The loop of `cli_find_char` from index `ch` on; the result is the
      offset of the sub-string that starts after the target. */
  function SubFrom(s: seq<char>, target: char, size: nat, ch: nat): (sub: Option<nat>)
    requires size <= |s| && ch <= size
    decreases size - ch
  {
    if ch == size then None
    else if s[ch] == NUL then None
    else if s[ch] == target then Some(ch + 1)
    else SubFrom(s, target, size, ch + 1)
  }

  /** `cli_find_char`: NULL when the target does not occur before the first
      NUL within `size` bytes, otherwise the text just after it. */
  function FindChar(s: seq<char>, target: char, size: nat): (sub: Option<nat>)
    requires size <= |s|
    ensures sub.Some? ==> 0 < sub.value <= size && target != NUL && s[sub.value - 1] == target
                          && forall k :: 0 <= k < sub.value - 1 ==> s[k] != NUL && s[k] != target
    ensures sub.None? ==> forall k :: 0 <= k < size && NoNulBelow(s, k) ==> s[k] != target || target == NUL
  {
    SubFromIsPosFromPlusOne(s, target, size, 0);
    assert FindCharPos(s, target, size) == PosFrom(s, target, size, 0);
    SubFrom(s, target, size, 0)
  }

  lemma {:induction false} SubFromIsPosFromPlusOne(s: seq<char>, target: char, size: nat, ch: nat)
    requires size <= |s| && ch <= size
    requires forall k :: 0 <= k < ch ==> s[k] != NUL && s[k] != target
    ensures SubFrom(s, target, size, ch)
            == (var p := PosFrom(s, target, size, ch); if p < 0 then None else Some(p + 1))
    decreases size - ch
  {
    if ch < size && s[ch] != NUL && s[ch] != target {
      SubFromIsPosFromPlusOne(s, target, size, ch + 1);
    }
  }

  /** The two scanners of cli.c agree: `cli_find_char` returns the text one
      past the position `cli_find_char_pos` reports, and NULL exactly when it
      reports -1. */
  lemma FindCharIsPosPlusOne(s: seq<char>, target: char, size: nat)
    requires size <= |s|
    ensures FindChar(s, target, size)
            == (var p := FindCharPos(s, target, size); if p < 0 then None else Some(p + 1))
  {
    SubFromIsPosFromPlusOne(s, target, size, 0);
  }

  /** `cli_calc_cmd_size`: `strlen` of the line for a simple command,
      otherwise the position of the space, with the -1 sentinel read back
      as the `uint32_t` it is converted to. */
  function CalcCmdSize(s: seq<char>, attr: Option<nat>): (size: nat)
    requires HasNul(s)
    ensures attr.None? ==> size < |s| && s[size] == NUL && NoNulBelow(s, size)
    ensures attr.Some? ==> size == U32_MOD - 1
                           || (size < |s| && s[size] == SPACE && forall k :: 0 <= k < size ==> s[k] != NUL && s[k] != SPACE)
  {
    if attr.None? then StrLen(s)
    else
      var p := FindCharPos(s, SPACE, |s|);
      if p < 0 then p + U32_MOD else p
  }

  datatype Split = Split(attr: Option<nat>, cmdSize: nat)

  /** The first two steps of `cli_execute_cmd`. An attribute exists exactly
      when a space comes before the first NUL, it starts one past that
      space, and the name length is the index of the first space or NUL --
      never the sentinel. */
  function SplitLine(line: seq<char>): (r: Split)
    requires HasNul(line)
    ensures r.cmdSize == FirstStop(line) && r.cmdSize < |line|
    ensures r.attr.Some? <==> line[FirstStop(line)] == SPACE
    ensures r.attr.Some? ==> r.attr.value == FirstStop(line) + 1
  {
    var attr := FindChar(line, SPACE, |line|);
    FindCharIsPosPlusOne(line, SPACE, |line|);
    var n := StrLen(line);
    var i := FirstStop(line);
    assert NoNulBelow(line, i);
    assert line[i] == NUL ==> n == i;
    Split(attr, CalcCmdSize(line, attr))
  }

  lemma AttrHasNul(line: seq<char>)
    requires HasNul(line) && line[FirstStop(line)] == SPACE
    ensures FirstStop(line) < StrLen(line)
    ensures HasNul(line[FirstStop(line) + 1..])
  {
    var i, n := FirstStop(line), StrLen(line);
    assert line[i + 1..][n - i - 1] == NUL;
  }

  /** The attribute string a handler receives: absent (NULL) or the C
      string that starts one past the first space. */
  function Attribute(line: seq<char>): (a: Option<string>)
    requires HasNul(line)
    ensures a.Some? <==> SplitLine(line).attr.Some?
  {
    match SplitLine(line).attr
    case None => None
    case Some(off) => AttrHasNul(line); Some(CStr(line[off..]))
  }

  lemma {:induction false} FirstStopAfterName(name: string, c: char, rest: seq<char>)
    requires NUL !in name && SPACE !in name && (c == NUL || (c == SPACE && NUL in rest))
    ensures HasNul(name + [c] + rest)
    ensures FirstStop(name + [c] + rest) == |name|
  {
    var line := name + [c] + rest;
    if c == SPACE {
      var j :| 0 <= j < |rest| && rest[j] == NUL;
      assert line[|name| + 1 + j] == NUL;
    } else {
      assert line[|name|] == NUL;
    }
    assert forall k :: 0 <= k < |name| ==> line[k] == name[k];
    assert line[|name|] == c;
  }

  /** A line that ends in a space has a present but empty attribute: the
      handler sees "" rather than NULL. The comment at cli.c:1774 promises
      NULL in this case; the code does not do that. */
  lemma TrailingSpaceGivesEmptyAttribute(name: string, rest: seq<char>)
    requires NUL !in name && SPACE !in name
    ensures HasNul(name + [SPACE] + [NUL] + rest)
    ensures Attribute(name + [SPACE] + [NUL] + rest) == Some("")
    ensures SplitLine(name + [SPACE] + [NUL] + rest).cmdSize == |name|
  {
    var line := name + [SPACE] + [NUL] + rest;
    assert ([NUL] + rest)[0] == NUL;
    FirstStopAfterName(name, SPACE, [NUL] + rest);
    assert line == name + [SPACE] + ([NUL] + rest);
    var off := |name| + 1;
    assert line[off..][0] == NUL;
    assert StrLen(line[off..]) == 0;
  }

  /** A line with no space before its terminator is a simple command: no
      attribute, and the name is the whole line. */
  lemma SimpleCommandHasNoAttribute(name: string, rest: seq<char>)
    requires NUL !in name && SPACE !in name
    ensures HasNul(name + [NUL] + rest)
    ensures Attribute(name + [NUL] + rest) == None
    ensures SplitLine(name + [NUL] + rest).cmdSize == |name|
  {
    FirstStopAfterName(name, NUL, rest);
  }

  /** With a space, the name is the text before it and the attribute is the
      text after it up to the NUL, passed on untrimmed. */
  lemma CombinedCommandSplits(name: string, attr: string, rest: seq<char>)
    requires NUL !in name && SPACE !in name && NUL !in attr
    ensures HasNul(name + [SPACE] + attr + [NUL] + rest)
    ensures SplitLine(name + [SPACE] + attr + [NUL] + rest).cmdSize == |name|
    ensures Attribute(name + [SPACE] + attr + [NUL] + rest) == Some(attr)
  {
    var line := name + [SPACE] + attr + [NUL] + rest;
    assert line[|name| + 1 + |attr|] == NUL;
    assert forall k :: 0 <= k < |name| ==> line[k] == name[k];
    assert line[|name|] == SPACE;
    assert FirstStop(line) == |name|;
    var tail := line[|name| + 1..];
    assert tail == attr + [NUL] + rest;
    TextBeforeNul(attr, rest);
    assert Attribute(line) == Some(CStr(tail));
  }

  lemma TextBeforeNul(t: string, rest: seq<char>)
    requires NUL !in t
    ensures HasNul(t + [NUL] + rest) && CStr(t + [NUL] + rest) == t
  {
    var s := t + [NUL] + rest;
    assert s[|t|] == NUL;
    assert forall k :: 0 <= k < |t| ==> s[k] == t[k];
    var n := StrLen(s);
    assert n == |t|;
    assert s[..n] == t;
  }
}

=== FILE: text.dfy ===
/** What the CLI transmits, as abstract tokens. `printf` rendering is not
    modelled: each `cli_printf` call is one `Line` carrying the message it
    would render, each `cli_printf_ch` call is one `ChLine`, and each bare
    `cli_send_str` of a partial line is one `Raw` piece. */
module Text {

  datatype Msg =
    // cli.c
    | UnknownCommand                 // "ERR, Unknown command!"
    | Empty                          // "" -- only the line terminator
    | HelpBlank | HelpTitle | Rule   // help / ch_info banner lines
    | HelpEntry(name: string, help: string)
    | Resetting                      // "OK, Reseting device..."
    | NotUsed                        // "WAR, Not used..."
    | ChInfoTitle | ChInfoColumns | ChInfoUnderline
    | ChInfoRow(ch: nat, enabled: bool)
    | ChEnOk(enabling: bool, ch: nat)
    | InvalidChEnum                  // "ERR, Invalid chEnum!"
    // cli_par.c
    | WrongCommand                   // "ERR, Wrong command!"
    | WrongParId                     // "ERR, Wrong parameter ID!"
    | ReadOnly                       // "ERR, Parameter is read only!"
    | ParSetOk(value: int)
    | ParGetOk(value: int)
    | ErrCode
    | ParDefOk(id: nat)
    | StreamStarted | StreamListEmpty | StreamStopped
    | WatchIdMissing(id: nat)
    | InvalidStreamCount             // "ERR, Invalid number of streaming parameter!"
    | PeriodChanged(period: nat)
    | PeriodNotMultiple | PeriodOutOfRange
    // cli_osci.c
    | OsciRunning                    // "WAR, Oscilloscope is already running..."
    | OsciNoData                     // "WAR, Sampled data not available at the moment..."
    | OsciCfgLocked                  // "WAR, Oscilloscope cfg cannot be changed during sampling!"
    // cli_nvm.c
    | NvmCorruptFailed | NvmSignWriteFailed

  datatype Piece = Value(v: int) | Comma | WatchPeriod(period: nat) | WatchName(num: nat)

  datatype Out = Line(msg: Msg) | ChLine(ch: nat, msg: Msg) | Raw(piece: Piece)

  /** The output of a handler that answers with exactly one printf line. */
  function Say(m: Msg): seq<Out> {
    [Line(m)]
  }

  /** One streamed record: each value is sent on its own, a comma is sent
      after every value but the last, and `cli_printf("")` ends the line
      (cli_par.c:984-1034, cli_osci.c:259-278). */
  function Row(vals: seq<int>): seq<Out> {
    RowFrom(vals, 0) + [Line(Empty)]
  }

  function RowFrom(vals: seq<int>, i: nat): seq<Out>
    requires i <= |vals|
    decreases |vals| - i
  {
    if i == |vals| then []
    else [Raw(Value(vals[i]))] + (if i < |vals| - 1 then [Raw(Comma)] else []) + RowFrom(vals, i + 1)
  }

  /** The values carried by raw pieces, in transmission order. */
  function ValuesOf(o: seq<Out>): seq<int> {
    if o == [] then []
    else (if o[0].Raw? && o[0].piece.Value? then [o[0].piece.v] else []) + ValuesOf(o[1..])
  }

  function CommasOf(o: seq<Out>): nat {
    if o == [] then 0 else (if o[0] == Raw(Comma) then 1 else 0) + CommasOf(o[1..])
  }

  function LinesOf(o: seq<Out>): nat {
    if o == [] then 0 else (if o[0].Line? then 1 else 0) + LinesOf(o[1..])
  }

  lemma {:induction false} OutCountsAppend(a: seq<Out>, b: seq<Out>)
    ensures ValuesOf(a + b) == ValuesOf(a) + ValuesOf(b)
    ensures CommasOf(a + b) == CommasOf(a) + CommasOf(b)
    ensures LinesOf(a + b) == LinesOf(a) + LinesOf(b)
  {
    if a == [] {
      assert a + b == b;
    } else {
      assert (a + b)[1..] == a[1..] + b;
      OutCountsAppend(a[1..], b);
    }
  }

  lemma {:induction false} RowFromShape(vals: seq<int>, i: nat)
    requires i <= |vals|
    ensures ValuesOf(RowFrom(vals, i)) == vals[i..]
    ensures CommasOf(RowFrom(vals, i)) == if i == |vals| then 0 else |vals| - 1 - i
    ensures LinesOf(RowFrom(vals, i)) == 0
    decreases |vals| - i
  {
    if i < |vals| {
      var head := [Raw(Value(vals[i]))] + (if i < |vals| - 1 then [Raw(Comma)] else []);
      assert RowFrom(vals, i) == head + RowFrom(vals, i + 1);
      RowFromShape(vals, i + 1);
      OutCountsAppend(head, RowFrom(vals, i + 1));
      OutCountsAppend([Raw(Value(vals[i]))], if i < |vals| - 1 then [Raw(Comma)] else []);
      assert ValuesOf([Raw(Value(vals[i]))]) == [vals[i]];
      assert vals[i..] == [vals[i]] + vals[i + 1..];
    }
  }

  /** A streamed record carries exactly the given values in order, one comma
      between consecutive values and one line terminator, which comes last. */
  lemma RowShape(vals: seq<int>)
    ensures ValuesOf(Row(vals)) == vals
    ensures CommasOf(Row(vals)) == if vals == [] then 0 else |vals| - 1
    ensures LinesOf(Row(vals)) == 1
    ensures Row(vals)[|Row(vals)| - 1] == Line(Empty)
  {
    RowFromShape(vals, 0);
    OutCountsAppend(RowFrom(vals, 0), [Line(Empty)]);
    assert vals[0..] == vals;
  }
}
